=== FILE: README.md ===
# Trivia duel — a Dafny model of the game rules

The repository is a two-player trivia duel written in JavaScript, kept as a
series of versions. Each turn goes like this:

- A wheel picks one of the topics the two players chose.
- The current player gets an unused question on that topic.
- A correct answer hurts the rival. A wrong answer hurts the answerer.
- When the timer runs out, the other player gets a second chance at the
  same question, for reduced damage.
- Lives start at 100. The game is over when someone reaches 0.

This project models the rules of these versions:

- **v6.1 room server** (`server.js`). Module `GameManager` models the
  registry of rooms. Module `GameRoom` models one room.
- **v4.0 single-room server** (`server.js`). Module `SingleRoom`.
- **v2.1, v2.0 and v1.0 single-machine controllers** (`control.js`).
  Modules `HotSeat`, `HotSeatV20` and `HotSeatV10`.
- **`models.js` classes.** Module `Models` covers v6.3 and v2.0, which
  agree with each other, and v1.0.

Shared pieces:

- `Rounding`: `Math.round` applied to ratios, and the damage formulas.
- `Topics`: the wheel, and the order-preserving de-duplication of topics
  (`[...new Set(..)]`).
- `QuestionBank`: question selection with the per-topic reset.
- `Common`: `Option` and `Outcome`.

Modelling conventions:

- Every handler is a pure function from state to state.
- A JavaScript exception is an `Outcome` of `Threw(state)`. The state it
  carries is the one mutated up to the throw. In the browser controllers
  the page goes on from that state. Neither server installs a handler for
  uncaught exceptions, so on a server a throw ends the Node process. There
  `Threw(state)` is the last state, and nothing continues from it; the
  invariants proved about it only say what the process held when it died.
- A result that ends a round carries a `RoundEnd` report: whether somebody
  is at zero, the winner (the first player still alive), and whether the
  next turn is scheduled.
- Randomness becomes explicit parameters. `roll` is the wheel's index.
  `pick` is the question draw. A code generator draw is six alphabet
  indices.
- Delayed callbacks (`setTimeout`) become events of their own:
  `AnimationDone`, `NextTurn` and `StartEvent`.
- Map insertion order is the order of a sequence.
- `null` names and avatars are the empty string.
- The v1.0 `pregunta` has no `used` field. Reading it gives `undefined`,
  which is falsy, so the model starts every v1.0 question as unused.
- Damage factors 1 and 0.5 are exact. `Math.round(x * 0.5)` is
  `(x + 1) / 2`.

Where the code behaves differently from its comments or its apparent
intent, the model follows the code:

- v6.1 toggles the second-chance flag before reading the damage factor. A
  first timeout therefore costs 3 points and a second one costs 5.
- The v2.x controllers compute the damage first, giving 5 then 3.
- In `models.js`, the comment promises 15/12/10 seconds. The code gives
  15/13/11.

## Model

| member | source | states |
|---|---|---|
| Rounding.RoundRatio | trabajo-final/v2.1/js/control.js:184 | `Math.round(p / q)`: the nearest integer to p/q with halves rounded up, that is 2qr - q <= 2p < 2qr + q |
| Rounding.RoundRatioUnique | trabajo-final/v2.1/js/control.js:184-185 | only one integer satisfies the rounding bounds, so RoundRatio is determined by them |
| Rounding.FactorOf | trabajo-final/Multijugador/v6.1/server.js:636-638 | the damage factor is half exactly while a second chance runs |
| Rounding.Scale | trabajo-final/v2.1/js/control.js:193 | `Math.round(base * factor)` is the integer within half a unit of base times the factor |
| Rounding.TimeBonus | trabajo-final/v2.1/js/control.js:184 | `Math.round((timer / maxTime) * 10)` is the integer within half a unit of 10 * timer / maxTime |
| Rounding.AnswerDamage | trabajo-final/v2.1/js/control.js:185 | `Math.round((10 + timeBonus) * factor)` is within half a unit of the base plus bonus times the factor |
| Rounding.ApplyDamage | trabajo-final/v2.1/js/control.js:188 | `Math.max(0, vida - damage)` is never negative, and is 0 or exactly vida - damage |
| Rounding.ScaleValues | trabajo-final/v2.1/js/control.js:193 | `Math.round(n * factor)` is n at full factor and (n + 1) / 2 at half factor |
| Rounding.DamageTable | trabajo-final/Multijugador/v6.1/server.js:505-511 | the damage amounts: 15 or 8 for an answer at full factor and 8 or 4 at half; 5 or 3 for a timeout |
| Rounding.FlagDamages | trabajo-final/Multijugador/v6.1/server.js:636-638 | the same damages read off the second-chance flag: 15/8/5 without it, 8/4/3 with it |
| Rounding.TimeBonusRange | trabajo-final/v2.1/js/control.js:184 | the time bonus `round(10 * timer / maxTime)` lies in [0, 10] while the timer is within the budget |
| Rounding.TimeBonusClosedForm | trabajo-final/v2.1/js/control.js:184 | the bonus is the integer quotient (20 * timer + maxTime) / (2 * maxTime) |
| Rounding.AnswerDamageRange | trabajo-final/v2.1/js/control.js:183-185 | a correct local answer deals 10 to 20 points, and 5 to 10 on a second chance |
| Rounding.ApplyDamageBounds | trabajo-final/v2.1/js/control.js:188 | `max(0, vida - damage)` stays within [0, vida] and is zero exactly when the damage reaches the life |
| Topics.Spun | trabajo-final/v2.1/js/control.js:94-96 | the wheel lands on `topics[roll]`, or on undefined when there are no topics |
| Topics.Dedup | trabajo-final/Multijugador/v6.1/server.js:350-352 | `[...new Set(..)]` has no repetitions and holds exactly the elements of its input |
| Topics.DedupKeepsFirstAppearance | trabajo-final/v2.1/js/control.js:67-68 | de-duplication keeps the order of first appearance |
| Topics.DedupOfDistinct | trabajo-final/v2.1/js/control.js:67-68 | a list without repetitions is its own de-duplication |
| Topics.DisjointPairs | trabajo-final/Online/v4.0/server.js:165-166 | two players with two distinct topics each give four wheel topics exactly when no topic is shared, and then the topics appear in the order chosen |
| QuestionBank.Hits | trabajo-final/v2.1/js/control.js:103 | the positions of questions matching a filter, in order, each exactly once |
| QuestionBank.HitsHeadIsLeast | trabajo-final/v2.1/js/control.js:114-115 | the first match (`resetQuestions[0]`) is the lowest matching position |
| QuestionBank.ResetTopic | trabajo-final/v2.1/js/control.js:108-112 | the reset clears `used` on exactly the questions of the topic and changes nothing else |
| QuestionBank.ResetMakesAllAvailable | trabajo-final/Multijugador/v6.1/server.js:459-467 | after a reset every question of the topic is available |
| QuestionBank.Select | trabajo-final/Multijugador/v6.1/server.js:447-479 | picks the pick-th unused question of the topic, or after a reset the pick-th of all its questions; marks exactly that question used; chooses nothing when the topic has no questions |
| QuestionBank.SelectKeepsContents | trabajo-final/Multijugador/v6.1/server.js:447-479 | selection changes only `used` flags; no question is added, removed or edited |
| QuestionBank.SelectShrinksPool | trabajo-final/Multijugador/v6.1/server.js:474-477 | when unused questions exist, one fewer is available afterwards |
| QuestionBank.MarkUsedDropsOne | trabajo-final/v1.0/js/control.js:51-56 | marking an available question used makes exactly one fewer available |
| QuestionBank.SelectLocal | trabajo-final/v2.1/js/control.js:103-123 | the local turn takes the pick-th unused question, or the first after a reset; it throws (no question) only when the topic has none |
| QuestionBank.FirstUnused | trabajo-final/v1.0/js/control.js:51-53 | `findIndex`: the lowest unused question of the topic, or none |
| QuestionBank.Draw | trabajo-final/Online/v4.0/server.js:193-224 | without a bank nothing changes; otherwise the bank is the selection's bank and the current question is the chosen one (on the topic and used), or stays as it was |
| Models.NewJugador | trabajo-final/Multijugador/v6.3/js/models.js:4-12 | a new player has the given name, avatar and topics and full life 100 |
| Models.NewPregunta | trabajo-final/Multijugador/v6.3/js/models.js:15-25 | a new question copies the JSON fields and is not used |
| Models.NewJuego | trabajo-final/Multijugador/v6.3/js/models.js:28-39 | a new game: player 0, round 1, no second chance, no topics, topic or question, timer 0 |
| Models.PlayerAt | trabajo-final/v2.0/js/models.js:40-47 | array access is defined exactly inside the array |
| Models.SiguienteJugador | trabajo-final/v2.0/js/models.js:50-52 | passing the turn maps the index a to 1 - a and changes nothing else |
| Models.CurrentAndRival | trabajo-final/v2.0/js/models.js:40-52 | with two players the current player and the rival are the two players, the rival becomes current after a pass, and two passes change nothing |
| Models.MaxTime | trabajo-final/v2.0/js/models.js:55-58 | the budget is `max(10, 17 - 2 * dificultad)` |
| Models.MaxTimeTable | trabajo-final/Multijugador/v6.3/js/models.js:57-60 | difficulties 1, 2, 3 give 15, 13, 11 seconds, and harder ones give 10 |
| Models.GameMaxTime | trabajo-final/v2.0/js/models.js:55-58 | the game's budget exists exactly when there is a current question and is at least 10 |
| Models.MaxTimeByRound | trabajo-final/v1.0/js/models.js:40-42 | the v1.0 budget is `max(5, 15 - (round - 1))` |
| Models.MaxTimeByRoundShape | trabajo-final/v1.0/js/models.js:40-42 | 15 seconds in round 1, one second less per round, never shrinking as rounds grow, 5 from round 11 on |
| Models.DamageFactor | trabajo-final/v2.0/js/models.js:61-63 | the factor is half exactly on a second chance |
| Models.Hurt | trabajo-final/v2.1/js/control.js:188 | one player's life becomes `max(0, vida - damage)`; the other players and the rest of the game are unchanged |
| Models.Winner | trabajo-final/v2.1/js/control.js:208 | `jugadores.find(p => p.vida > 0)`: no winner exactly when every life is at most 0, otherwise the first player still alive |
| Models.HurtKeepsValid | trabajo-final/v2.1/js/control.js:194 | a non-negative hit keeps lives within [0, 100] and never raises a life |
| HotSeat.StartGame | trabajo-final/v2.1/js/control.js:52-87 | the game starts exactly when every chosen topic is known; then two fresh players, fresh questions, round 1, player 0, and the order-preserving union of both players' topics |
| HotSeat.NextTurn | trabajo-final/v2.1/js/control.js:90-128 | the turn succeeds exactly when the turn index names a player and the topic has a question; then, with unused questions left, it takes the pick-th of them, which was unused, and marks exactly it used; otherwise it resets the topic and takes its first question; with no question on the topic `currentQuestion` becomes undefined before the throw; players, turn, round and flag are unchanged |
| HotSeat.NextTurnServesUnused | trabajo-final/v2.1/js/control.js:103-123 | while the topic has unused questions, a turn serves one of them and removes exactly it from the unused pool |
| HotSeat.StartTimer | trabajo-final/v2.1/js/control.js:142-153 | the countdown starts at the question's budget (at least 10 s) and fails without a question |
| HotSeat.TickOnce | trabajo-final/v2.1/js/control.js:156-164 | one tick takes a second off, and the time is up exactly when it reaches 0 or less |
| HotSeat.CountdownExpiresAfterBudget | trabajo-final/v2.1/js/control.js:142-165 | starting from a budget of n seconds, the timeout fires at the n-th tick and not before |
| HotSeat.HandleAnswer | trabajo-final/v2.1/js/control.js:169-220 | in a valid game with a question, the answer throws exactly when it leaves nobody alive (the winner's `.nombre` is read from `undefined`), with the damage already applied; when nobody is at zero the turn passes and the round grows by one; when someone is, neither changes; the flag and question are kept |
| HotSeat.AnswerDamageRule | trabajo-final/v2.1/js/control.js:176-196 | a correct answer hurts the rival by `round((10 + bonus) * factor)`, a wrong one the answerer by 5 (3 on a second chance); the other player is untouched |
| HotSeat.HandleTimeout | trabajo-final/v2.1/js/control.js:223-261 | a timeout toggles the flag, also when it then throws; a first one passes the question to the rival in the same round; a second one keeps the player and advances the round unless someone is at zero |
| HotSeat.TimeoutDamageRule | trabajo-final/v2.1/js/control.js:227-245 | the timed-out player loses 5 points on a first timeout and 3 on a second, because the damage is computed before the flag changes |
| HotSeat.TimeoutKeepsValid | trabajo-final/v2.1/js/control.js:223-261 | a timeout keeps two players, a turn index in {0, 1} and lives within [0, 100] |
| HotSeat.AnswerKeepsValid | trabajo-final/v2.1/js/control.js:169-220 | an answer keeps two players, a turn index in {0, 1} and lives within [0, 100] |
| HotSeat.AnswerNonNegative | trabajo-final/v2.1/js/control.js:183-193 | answer and timeout damages are never negative, so a hit never heals |
| HotSeat.TimeoutThenWrongAnswerThrows | trabajo-final/v2.1/js/control.js:208-234 | from a live game, a first timeout that leaves the timed-out player at 0 does not end it and passes the turn with the flag set; a wrong answer by a rival with at most 3 life then leaves nobody alive, and the answer throws at the winner log |
| HotSeatV20.NextTurn | trabajo-final/v2.0/js/control.js:87-125 | every v2.0 turn throws, after choosing the topic and marking the question used just as v2.1 does |
| HotSeatV20.NextTurnMatchesV21ThenThrows | trabajo-final/v2.0/js/control.js:87-125 | the v2.0 turn leaves the state the v2.1 turn leaves, and throws even when v2.1 serves a question |
| HotSeatV20.HandleAnswer | trabajo-final/v2.0/js/control.js:166-217 | the v2.0 answer throws exactly when there is no current question, no current player (its first log line reads the name), a correct answer finds no rival, or the damage leaves nobody alive for the winner log; the first three leave the game untouched, the last is the v2.1 throw, and otherwise the result is the v2.1 one |
| HotSeatV20.HandleTimeout | trabajo-final/v2.0/js/control.js:220-258 | the v2.0 timeout throws exactly when there is no current player, or on a first timeout no rival, because both names are logged before the flag or a life changes; a throw leaves the game untouched, and otherwise the result is the v2.1 one |
| HotSeatV20.HandlersMatchV21 | trabajo-final/v2.0/js/control.js:166-258 | on every game with two players and the turn on one of them, the v2.0 answer and timeout give exactly the v2.1 results |
| HotSeatV20.TimeoutDiffersOffInvariant | trabajo-final/v2.0/js/control.js:220-229 | off the invariant the versions part: with no current player v2.1 throws with the flag toggled and v2.0 with the game untouched; on a first timeout with no rival v2.1 passes the turn and v2.0 throws |
| HotSeatV10.StartGame | trabajo-final/v1.0/js/control.js:15-41 | the wheel holds both players' topics one after the other, repetitions kept; fresh players and questions |
| HotSeatV10.TopicsAgainstLaterVersions | trabajo-final/v1.0/js/control.js:24-30 | the v1.0 wheel has the same topics as the de-duplicated wheel of later versions, and is that very list when no topic repeats |
| HotSeatV10.NextTurn | trabajo-final/v1.0/js/control.js:43-60 | the turn succeeds exactly when some unused question of the topic exists; it takes the lowest such question and marks it used; otherwise `preguntas[-1]` throws |
| HotSeatV10.NextTurnUsesOne | trabajo-final/v1.0/js/control.js:51-56 | each successful turn leaves one fewer unused question of its topic |
| HotSeatV10.StartTimer | trabajo-final/v1.0/js/control.js:68-82 | the countdown starts at the round's budget, at least 5 s and 15 s in round 1 |
| HotSeatV10.HandleAnswer | trabajo-final/v1.0/js/control.js:84-107 | an answer never passes the turn and never changes the round or flag; it fails without a question, and otherwise exactly when the one seat it hurts (the rival for a correct answer, the answerer for a wrong one) is empty, leaving the game untouched |
| HotSeatV10.AnswerDamageRule | trabajo-final/v1.0/js/control.js:88-100 | a correct answer hurts the rival, a wrong one the answerer by 5 (3 on a second chance) |
| HotSeatV10.HandleTimeout | trabajo-final/v1.0/js/control.js:109-127 | a first timeout passes the question to the rival; a second one throws because `advanceRound` is not defined |
| HotSeatV10.DoubleTimeout | trabajo-final/v1.0/js/control.js:109-127 | two timeouts on one question cost 5 then 3 points and end in the error |
| HotSeatV10.RoundNeverAdvances | trabajo-final/v1.0/js/control.js:84-127 | no v1.0 handler changes the round, so every countdown starts at 15 seconds |
| GameRoom.NewRoom | trabajo-final/Multijugador/v6.1/server.js:190-210 | a new room: not started, no players, round 1, player 0, no flag, topic, question, spin or open question |
| GameRoom.NewPlayer | trabajo-final/Multijugador/v6.1/server.js:222-233 | a joining player has the given id and number, full life, no name, avatar or topics, and is not ready |
| GameRoom.Find | trabajo-final/Multijugador/v6.1/server.js:308-310 | the player with a socket id, if any |
| GameRoom.FirstOther | trabajo-final/Multijugador/v6.1/server.js:507 | the first player with another socket id, if any |
| GameRoom.Put | trabajo-final/Multijugador/v6.1/server.js:235 | `Map.set` replaces an existing entry in place and appends a new one |
| GameRoom.PutKeepsDistinct | trabajo-final/Multijugador/v6.1/server.js:235 | after `set` the ids stay distinct, the new entry is found, and the size grows exactly for a new id |
| GameRoom.Without | trabajo-final/Multijugador/v6.1/server.js:647 | `Map.delete` removes the entry with that id and keeps the others in order |
| GameRoom.WithoutRemovesOne | trabajo-final/Multijugador/v6.1/server.js:647 | deleting a present id shrinks the room by exactly one |
| GameRoom.NewRoomValid | trabajo-final/Multijugador/v6.1/server.js:190-210 | a new room satisfies the room invariant |
| GameRoom.AddPlayer | trabajo-final/Multijugador/v6.1/server.js:213-254 | refused when the room holds two players, then when the game has started, changing nothing; otherwise the player is set into the room |
| GameRoom.AddPlayerKeepsValid | trabajo-final/Multijugador/v6.1/server.js:213-254 | adding a player never takes a room above two players, and the added player is found in it |
| GameRoom.Configure | trabajo-final/Multijugador/v6.1/server.js:313-339 | an unknown socket changes nothing; otherwise its name, avatar and topics are stored and it is ready; the start is scheduled exactly when both players are ready and the game has not started |
| GameRoom.ConfigureKeepsValid | trabajo-final/Multijugador/v6.1/server.js:313-339 | configuring keeps the room invariant |
| GameRoom.StartGame | trabajo-final/Multijugador/v6.1/server.js:342-358 | a no-op unless not started with exactly two players; then started, round 1, player 0, de-duplicated topics, nothing spinning or open |
| GameRoom.StartGameIdempotent | trabajo-final/Multijugador/v6.1/server.js:342-343 | a second scheduled start changes nothing, and starting keeps the invariant |
| GameRoom.SpinRefusal | trabajo-final/Multijugador/v6.1/server.js:385-403 | spins are refused in order: unknown socket (silently), not the player's turn, wheel already spinning, question still open |
| GameRoom.Spin | trabajo-final/Multijugador/v6.1/server.js:385-444 | a refused spin changes nothing; an accepted one starts the wheel, remembers the spinner's turn, lands on topic `roll` and draws a question from the shared bank |
| GameRoom.SpinServesTopic | trabajo-final/Multijugador/v6.1/server.js:411-416 | an accepted spin with a bank that has questions on the topic yields a used question of that topic |
| GameRoom.AnimationDone | trabajo-final/Multijugador/v6.1/server.js:428-443 | the wheel stops, and the question is open exactly when one was drawn |
| GameRoom.SpinKeepsValid | trabajo-final/Multijugador/v6.1/server.js:385-444 | spinning and the end of the animation keep the room invariant |
| GameRoom.Winner | trabajo-final/Multijugador/v6.1/server.js:515 | the first player with life left, if any |
| GameRoom.Settled | trabajo-final/Multijugador/v6.1/server.js:514-536 | a processed result reports game over exactly when somebody is at zero, names the winner only then, and schedules the next turn exactly otherwise |
| GameRoom.Hurt | trabajo-final/Multijugador/v6.1/server.js:508-511 | one player's life becomes `max(0, vida - damage)` and nothing else changes |
| GameRoom.HurtKeepsValid | trabajo-final/Multijugador/v6.1/server.js:508-511 | a non-negative hit keeps the room invariant |
| GameRoom.Answer | trabajo-final/Multijugador/v6.1/server.js:482-537 | ignored for unknown sockets, off-turn players and closed questions, with nothing reported; otherwise it closes and clears the question and applies the damage; it throws exactly when the answer is right and no rival exists; a processed answer reports game over exactly when somebody is at zero, the first living player as winner, and schedules the next turn exactly when the game is not over |
| GameRoom.Cleared | trabajo-final/Multijugador/v6.1/server.js:517-519 | after an answer no question is open or current |
| GameRoom.AnswerDamageRule | trabajo-final/Multijugador/v6.1/server.js:501-512 | a right answer costs the rival 15 (8 on a second chance), a wrong one costs the answerer 8 (4) |
| GameRoom.AnswerHurts | trabajo-final/Multijugador/v6.1/server.js:501-536 | in a full room an accepted answer closes and clears the question, hurts exactly one player (the rival when right, the answerer when wrong) and reports the round end of the resulting room |
| GameRoom.AnswerDecidesGame | trabajo-final/Multijugador/v6.1/server.js:501-536 | from a game nobody has lost, an answer ends it exactly when the hurt player had no more life than the damage; the other player is then the winner, and the next turn is scheduled exactly when the game goes on |
| GameRoom.AnswerTwiceIsNoop | trabajo-final/Multijugador/v6.1/server.js:491-493 | once answered, any further answer before the next turn changes nothing |
| GameRoom.AnswerKeepsValid | trabajo-final/Multijugador/v6.1/server.js:482-537 | answering keeps the room invariant |
| GameRoom.Timeout | trabajo-final/Multijugador/v6.1/server.js:540-607 | ignored unless the on-turn player has an open question; the flag toggles before the factor is read; a first timeout passes the reopened question to the rival and reports nothing, even when a player drops to zero; a second reports game over, the winner and the next-turn timer as an answer does; it throws when the player list has no entry at the turn index |
| GameRoom.TimeoutRule | trabajo-final/Multijugador/v6.1/server.js:558-607 | in a full room a first timeout costs 3 and hands over the open question; a second costs 5 and closes it without passing the turn |
| GameRoom.TimeoutDecidesGame | trabajo-final/Multijugador/v6.1/server.js:583-605 | from a game nobody has lost, a second timeout ends it exactly when the timed-out player had at most 5 life; the other player is then the winner, and the next turn is scheduled exactly when the game goes on |
| GameRoom.TwoPlayersEnd | trabajo-final/Multijugador/v6.1/server.js:514-515 | in a full room with one player alive, the game is over exactly when the other is at zero, and the living one is the winner |
| GameRoom.TimeoutKeepsValid | trabajo-final/Multijugador/v6.1/server.js:540-607 | timeouts keep the room invariant |
| GameRoom.NextTurn | trabajo-final/Multijugador/v6.1/server.js:610-633 | the next turn clears the flag, passes the turn, adds a round and clears topic, question, spin and open question; it throws when the new turn index names no player |
| GameRoom.NextTurnTwice | trabajo-final/Multijugador/v6.1/server.js:610-613 | two turns give the turn back to the same player, two rounds later |
| GameRoom.Disconnect | trabajo-final/Multijugador/v6.1/server.js:641-655 | the socket's player is deleted, and nothing else changes |
| GameRoom.DisconnectKeepsValid | trabajo-final/Multijugador/v6.1/server.js:641-655 | a disconnect keeps the invariant, removes exactly that player and leaves no trace of the id |
| GameManager.RoomIndex | trabajo-final/Multijugador/v6.1/server.js:81 | `rooms.get(code)` finds a room exactly when one has that code |
| GameManager.RoomIndexUnique | trabajo-final/Multijugador/v6.1/server.js:27 | with distinct codes the lookup finds the room with that code |
| GameManager.CodeOf | trabajo-final/Multijugador/v6.1/server.js:37-40 | a draw spells six characters of the alphabet |
| GameManager.CodeOfIsCode | trabajo-final/Multijugador/v6.1/server.js:34-40 | every generated code is six alphabet characters and is not empty |
| GameManager.GenerateRoomCode | trabajo-final/Multijugador/v6.1/server.js:33-43 | the result is the first drawn code that no room uses, so it is fresh; every earlier draw was taken |
| GameManager.CreateRoom | trabajo-final/Multijugador/v6.1/server.js:46-76 | the code is the room name if given, else the generated one; a code in use is refused with nothing changed; otherwise a room with the creator as player 0 is added and the socket is mapped to it |
| GameManager.CreateRoomKeepsValid | trabajo-final/Multijugador/v6.1/server.js:46-76 | creating a room keeps codes distinct and rooms valid; the new room holds exactly its creator and has not started |
| GameManager.JoinRoom | trabajo-final/Multijugador/v6.1/server.js:79-119 | refused with nothing changed for an unknown room, then a full room, then a started one; otherwise the socket joins as player 1, is mapped to the room, and the start is scheduled exactly when the room is now full |
| GameManager.JoinRoomKeepsValid | trabajo-final/Multijugador/v6.1/server.js:79-119 | joining keeps codes distinct and no room above two players; a new player joining a waiting one-player room schedules the start |
| GameManager.InfoOf | trabajo-final/Multijugador/v6.1/server.js:127-135 | a listing entry: name is the code, maximum 2, "waiting" exactly with one player, joinable below two players |
| GameManager.Listing | trabajo-final/Multijugador/v6.1/server.js:125-137 | the entries are exactly those of the rooms that have not started |
| GameManager.Insert | trabajo-final/Multijugador/v6.1/server.js:140 | inserting into a newest-first list keeps it newest first and adds exactly the entry |
| GameManager.SortNewestFirst | trabajo-final/Multijugador/v6.1/server.js:140 | sorting by creation time, newest first, is a permutation |
| GameManager.PublicRoomsAreTheOpenRooms | trabajo-final/Multijugador/v6.1/server.js:122-141 | the public list is newest first, with exactly one entry per room not yet started |
| GameManager.PublicRooms | trabajo-final/Multijugador/v6.1/server.js:122-141 | the public list is newest first and is a reordering of the open rooms' entries |
| GameManager.RoomOf | trabajo-final/Multijugador/v6.1/server.js:150-153 | a socket's room is found exactly when its mapping is set and its room still exists |
| GameManager.HandleDisconnection | trabajo-final/Multijugador/v6.1/server.js:156-172 | the socket's room loses the player and is deleted when `Abandoned`: left empty, or not started with one player; the socket's mapping is dropped; other mappings stay |
| GameManager.HandleDisconnectionKeepsValid | trabajo-final/Multijugador/v6.1/server.js:156-172 | disconnection keeps the registry valid, unmaps the socket, and its room disappears exactly when abandoned |
| GameManager.StartedCount | trabajo-final/Multijugador/v6.1/server.js:176 | the number of started rooms, as `filter(room => room.gameStarted).length` counts them; its own contract only bounds it by the number of rooms, and `GetStats` is proved against it |
| GameManager.PlayerTotalBound | trabajo-final/Multijugador/v6.1/server.js:178 | rooms of at most two players hold at most twice as many players as there are rooms |
| GameManager.GetStats | trabajo-final/Multijugador/v6.1/server.js:175-186 | active and waiting rooms partition the rooms; active counts the started ones; the player total sums the rooms and is at most two per room in a valid registry |
| GameManager.ConfigureEvent | trabajo-final/Multijugador/v6.1/server.js:686-691 | `configure-player` reaches only the sender's room and changes nothing when it has none |
| GameManager.StartEvent | trabajo-final/Multijugador/v6.1/server.js:104-108 | the delayed start acts on the room with that code and does nothing when no room has it; a room created later under the same code is started instead, see "Left out" |
| GameManager.LeaveBeforeStart | trabajo-final/Multijugador/v6.1/server.js:156-172 | a player leaving a full room before its delayed start deletes the room at once (it is not started, one player remains), and the start that fires afterwards finds no room under that code and changes nothing |
| GameManager.SpinEvent | trabajo-final/Multijugador/v6.1/server.js:694-699 | `spin-wheel` reaches only the sender's room, whose spin also updates the shared bank |
| GameManager.AnswerEvent | trabajo-final/Multijugador/v6.1/server.js:702-707 | `answer-question` reaches only the sender's room, fails exactly when the room's answer does, and passes on its game-over, winner and next-turn report |
| GameManager.TimeoutEvent | trabajo-final/Multijugador/v6.1/server.js:710-715 | `question-timeout` reaches only the sender's room, fails exactly when the room's timeout does, and passes on its report |
| GameManager.RoutedEventsKeepValid | trabajo-final/Multijugador/v6.1/server.js:667-728 | every socket event and delayed start keeps codes distinct, no room above two players and lives within [0, 100] |
| SingleRoom.Initial | trabajo-final/Online/v4.0/server.js:25-34 | the initial state: no players, round 1, player 0, nothing chosen, not started |
| Common.FirstWhere | trabajo-final/Multijugador/v6.1/server.js:515 | `Array.prototype.find` as a position: the first element satisfying the test, or none exactly when no element does |
| SingleRoom.Lookup | trabajo-final/Online/v4.0/server.js:69 | `jugadores.find` by socket id gives the first player with that id |
| SingleRoom.OtherThan | trabajo-final/Online/v4.0/server.js:232 | the first player with another id, if any |
| SingleRoom.Winner | trabajo-final/Online/v4.0/server.js:242 | `find(p => p.vida > 0)`: the first player with life left, if any |
| SingleRoom.Connect | trabajo-final/Online/v4.0/server.js:40-58 | a socket is registered exactly while fewer than two players are connected, with the current count as its number and label |
| SingleRoom.PlayerLabel | trabajo-final/Online/v4.0/server.js:45 | players are labelled "Jugador 1" and "Jugador 2" |
| SingleRoom.ConnectKeepsValid | trabajo-final/Online/v4.0/server.js:40-58 | connections never register more than two players |
| SingleRoom.StartGame | trabajo-final/Online/v4.0/server.js:161-191 | starting sets round 1, player 0 and the de-duplicated topics and changes nothing else |
| SingleRoom.Configure | trabajo-final/Online/v4.0/server.js:68-92 | unknown senders are ignored; otherwise the configuration is stored and the game starts when both players are fully configured and it had not started |
| SingleRoom.ConfigureStarts | trabajo-final/Online/v4.0/server.js:80-88 | the game starts exactly when a configuration makes both players ready, and then the wheel holds every chosen topic once, at most four |
| SingleRoom.Spin | trabajo-final/Online/v4.0/server.js:95-128 | ignored unless the sender is on turn; otherwise the wheel lands on topic `roll` and a question is drawn, with no guard against spinning again |
| SingleRoom.SpinAgainAccepted | trabajo-final/Online/v4.0/server.js:95-98 | a second spin in the same turn is accepted and replaces the question |
| SingleRoom.Hurt | trabajo-final/Online/v4.0/server.js:233-240 | one player's life becomes `max(0, vida - damage)` and nothing else changes |
| SingleRoom.HurtKeepsValid | trabajo-final/Online/v4.0/server.js:233-240 | a non-negative hit keeps the invariant |
| SingleRoom.Finish | trabajo-final/Online/v4.0/server.js:244-262 | a processed result reports game over exactly when somebody is at zero, with the first living player as winner, and schedules the next turn exactly otherwise; logging the winner throws exactly when the game is over and nobody has life left |
| SingleRoom.Resolve | trabajo-final/Online/v4.0/server.js:226-262 | a right answer costs the first other player `round(15 * factor)` and throws when there is none; a wrong one costs the answerer `round(8 * factor)`; no other life or field changes; then the round ends as `Finish` says |
| SingleRoom.Answer | trabajo-final/Online/v4.0/server.js:131-137 | ignored unless the sender is on turn with a current question, with nothing reported; the question, turn, round and flag are kept; a processed answer reports game over, the winner and the next-turn timer as `Resolve` does |
| SingleRoom.AnswerDamageRule | trabajo-final/Online/v4.0/server.js:226-262 | a right answer costs the rival 15 (8), a wrong one the answerer 8 (4); the question stays, so a repeated answer is charged again |
| SingleRoom.AnswerHurts | trabajo-final/Online/v4.0/server.js:226-262 | with two distinct players an answer hurts the rival by 15 (8) when right and the answerer by 8 (4) when wrong, and then ends as the processed-result rule says |
| SingleRoom.AnswerDecidesGame | trabajo-final/Online/v4.0/server.js:226-261 | from a game nobody has lost, an answer ends it exactly when the hurt player had no more life than the damage; the other player is then the winner, and the next turn is scheduled exactly when the game goes on |
| SingleRoom.TwoPlayersEnd | trabajo-final/Online/v4.0/server.js:241-242 | with two players, one alive, the game is over exactly when the other is at zero, and the living one is the winner |
| SingleRoom.FinishAfterHit | trabajo-final/Online/v4.0/server.js:241-261 | a hit on one of two players in a game nobody has lost ends it exactly when the damage reaches the hit player's life, with the other player as the winner; the next turn is scheduled exactly when it does not end |
| SingleRoom.TwoPlayersDown | trabajo-final/Online/v4.0/server.js:241-245 | with two players, the winner lookup comes back empty after a game over exactly when both are at zero |
| SingleRoom.Timeout | trabajo-final/Online/v4.0/server.js:140-146 | accepted from the on-turn player even without a question; the flag toggles before the factor is read; a first timeout reports nothing; a second reports game over, the winner and the next-turn timer as `Finish` does |
| SingleRoom.TimeoutRule | trabajo-final/Online/v4.0/server.js:264-313 | a first timeout costs 3 and passes the turn; a second costs 5 and keeps it |
| SingleRoom.TimeoutDecidesGame | trabajo-final/Online/v4.0/server.js:284-311 | from a game nobody has lost, a second timeout ends it exactly when the timed-out player had at most 5 life; the other player is then the winner, and the next turn is scheduled exactly when the game goes on |
| SingleRoom.TimeoutThrowsOnlyWhenBothDown | trabajo-final/Online/v4.0/server.js:294-306 | in a full game a timeout throws exactly on a second chance that leaves both players at zero |
| SingleRoom.NextTurn | trabajo-final/Online/v4.0/server.js:315-332 | the turn passes and the round grows only without a second chance; the flag is never cleared; topic and question are cleared |
| SingleRoom.SecondChanceSticks | trabajo-final/Online/v4.0/server.js:284-321 | after an answer under a second chance, `siguienteTurno` neither clears the flag nor passes the turn, so later answers stay halved; the next timeout then clears the flag and keeps the turn |
| SingleRoom.NextTurnKeepsValid | trabajo-final/Online/v4.0/server.js:315-332 | the turn change keeps the invariant |
| SingleRoom.Reset | trabajo-final/Online/v4.0/server.js:338-354 | a reset gives the initial state and marks every question of the bank unused |
| SingleRoom.Disconnect | trabajo-final/Online/v4.0/server.js:149-158 | a registered socket's player is dropped, and during a game everything is reset |
| SingleRoom.Remove | trabajo-final/Online/v4.0/server.js:151 | filtering drops exactly the players with that id |
| SingleRoom.RemoveKeepsDistinct | trabajo-final/Online/v4.0/server.js:151 | filtering the players keeps socket ids unique |
| SingleRoom.DisconnectDuringGame | trabajo-final/Online/v4.0/server.js:153-155 | a disconnect during a game leaves the initial state with the whole bank unused |
| SingleRoom.DisconnectKeepsValid | trabajo-final/Online/v4.0/server.js:149-158 | disconnects keep the invariant |
| SingleRoom.DuplicateNumberDeadlock | trabajo-final/Online/v4.0/server.js:40-41 | when the first of two waiting players leaves and another connects, both players hold number 1 and nobody is ever on turn |
| SingleRoom.Renumber | trabajo-final/Online/v4.0/server.js:41 | renumbering makes each player's number its position |
| SingleRoom.DisconnectRenumbered | trabajo-final/Online/v4.0/server.js:149-158 | the corrected disconnect renumbers the remaining players |
| SingleRoom.RenumberedKeepsNumbered | trabajo-final/Online/v4.0/server.js:149-158 | with the corrected disconnect, numbers equal positions and ids stay distinct |
| SingleRoom.ConnectConfigureKeepNumbered | trabajo-final/Online/v4.0/server.js:40-92 | connecting and configuring keep numbers equal to positions |
| SingleRoom.NumberedHasPlayerOnTurn | trabajo-final/Online/v4.0/server.js:97 | when numbers equal positions, the player at the turn index is on turn in a two-player game |
| SingleRoom.RenumberedScenarioPlays | trabajo-final/Online/v4.0/server.js:40-58 | with the corrected disconnect, the same sequence of events leads to a game in which player 0 is on turn |

## Left out

- Sockets, broadcasts, HTTP endpoints, logging and the user interface are
  not modelled. Only state changes are modelled.
- Wall-clock times (`Date.now()`) are parameters.
- Intervals and timers are events:
  - the single-machine countdown is `TickOnce`;
  - the server callbacks are `AnimationDone`, `NextTurn` and `StartEvent`.
- Some crashes happen in code that only builds a message. One example is
  `currentPlayer.nombre` in the delayed `turn-updated` message after the
  v6.1 start. These are not modelled. The crashes inside the handlers are
  modelled, including the log of the winner's name when an answer leaves
  nobody alive.
- After a second timeout that leaves nobody alive, the local controllers
  hand an `undefined` winner to the end screen. The end screen is
  user-interface code and is not part of this model.
- Several rooms share one question bank, and their callbacks interleave.
  The model only interleaves events one at a time.
- A delayed callback holds on to its room object. When that room has been
  deleted from the registry, `StartEvent` does nothing, while the source
  mutates the orphaned object. Nobody can observe that object.
- GameManager.StartEvent: the event names its room by code, not by
  identity. If the room empties and is deleted within the second before the
  start, and `createRoom` makes a new room under the same custom name, the
  model starts the new room early. The source starts only the old, deleted
  room object. Rooms carry no identity besides their code, so this case is
  not modelled.
- The `NextTurn` events of `GameRoom` and `SingleRoom` stand for the
  3-second timer. The source starts that timer only when a result reports
  `scheduleNext`; the model lets the event be applied at any time and does
  not keep a list of pending timers.
- The `choice` of an answer is an integer. The source compares it with
  `===` to the question's `respuesta`, so a choice that arrives as a string
  never matches; the model has no such inputs.
- GameManager.GenerateRoomCode: the source keeps drawing until it finds a
  free code. The model sees a finite list of draws and returns none when
  they are all taken.
- GameManager.SortNewestFirst: the sort is stable, with entries of equal
  creation time kept in listing order. Only the ordering and the
  permutation are proved, not stability.
- v2.0 `startGame` is the same as v2.1 apart from log text, and is
  modelled by `HotSeat.StartGame`. The v2.0 `handleAnswer` and
  `handleTimeout` differ from v2.1 only in when they throw, and are
  modelled in `HotSeatV20` on top of the v2.1 handlers.
- The v2.1 `models.js` is not part of this model. `HotSeat` uses the v2.0
  and v6.3 classes, which agree.
- v1.0 `handleSpinEnd`, and the v2.x `handleSpinEnd` and `loadGameData`,
  only render or fetch data. They are not modelled.
- Players' avatars and names are kept as opaque strings. JavaScript
  truthiness is modelled only for strings, where the empty string is
  falsy.

## Findings

| source | as written | input that shows it | evidently intended | confidence | as-written member | corrected member |
|---|---|---|---|---|---|---|
| trabajo-final/v2.0/js/control.js:124 | the spinner is given the undeclared name `randomTopicIndex` | any call of `nextTurn`, including the first turn of every game | pass the wheel index `randomIndex`, as v2.1 does | high, not executed | HotSeatV20.NextTurn | HotSeat.NextTurn |
| trabajo-final/Online/v4.0/server.js:40-41 | a new player's number is the current player count | connect A, connect B, A disconnects before the start, C connects, B and C configure | numbers 0 and 1 for the two seated players, so that turn 0 has a player | medium, not executed | SingleRoom.DuplicateNumberDeadlock | SingleRoom.DisconnectRenumbered |

=== FILE: common.dfy ===
/** Small shared datatypes: an optional value (JavaScript `null`/`undefined`)
    and the outcome of an event handler that may throw. */
module Common {

  datatype Option<+T> = None | Some(value: T)

  /** The result of running one event handler. `Ok` means the handler ran to
      the end; `Threw` means it raised a TypeError or ReferenceError (reading
      a field of `undefined`, calling an undefined name). In both cases
      `state` is the state the handler left behind: JavaScript does not roll
      back the assignments made before the throw. In the browser
      controllers the page keeps running from that state. On the servers
      nothing catches the exception, so the Node process ends: a `Threw`
      state there is the last state, and nothing continues from it. */
  datatype Outcome<+S> = Ok(state: S) | Threw(state: S)

  /** What the end of a round reports: whether somebody is at zero, the
      position of the winner (the first player still alive) when the game
      is over, and whether the next turn is scheduled. A handler that does
      not reach that point reports `NoRoundEnd`. */
  datatype RoundEnd = RoundEnd(gameOver: bool, winner: Option<nat>, scheduleNext: bool)

  const NoRoundEnd: RoundEnd := RoundEnd(false, None, false)

  /** A handler's outcome together with its round-end report. */
  datatype Ended<+S> = Ended(outcome: Outcome<S>, end: RoundEnd)

  /** `Array.prototype.find` as a position: the first element satisfying
      p, or None when there is none. */
  function FirstWhere<T>(xs: seq<T>, p: T -> bool): (k: Option<nat>)
    ensures k.None? <==> forall i :: 0 <= i < |xs| ==> !p(xs[i])
    ensures k.Some? ==> k.value < |xs| && p(xs[k.value])
    ensures k.Some? ==> forall i :: 0 <= i < k.value ==> !p(xs[i])
  {
    if |xs| == 0 then None
    else if p(xs[0]) then Some(0)
    else match FirstWhere(xs[1..], p)
      case None => None
      case Some(k) => Some(k + 1)
  }

  function Max(a: int, b: int): (r: int)
    ensures r >= a && r >= b
    ensures r == a || r == b
  {
    if a >= b then a else b
  }

  /** A JavaScript string is truthy iff it is non-empty; `null` is modelled
      as the empty string. */
  predicate Truthy(s: string)
  {
    |s| > 0
  }
}

=== FILE: gamemanager.dfy ===
/** The room registry of the room server (v6.1 `server.js`, class
    `GameManager`) and the socket events that reach a room through it.

    `rooms` is a `Map` from code to room, which iterates in insertion order:
    it is a sequence of rooms with distinct codes. `playerRooms` maps a
    socket id to the code of the room it last created or joined. The
    question bank is shared by all rooms. Room codes are drawn at random:
    a draw is six indices into the 36-character alphabet. */
module GameManager {
  import opened Common
  import opened Topics
  import opened QuestionBank
  import opened GameRoom

  const Alphabet: string := "ABCDEFGHIJKLMNOPQRSTUVWXYZ0123456789"
  const CodeLength: int := 6

  datatype Registry = Registry(rooms: seq<Room>, playerRooms: map<string, string>, bank: Option<seq<Question>>)

  /** `rooms.get(code)`: the position of the room with that code. */
  function RoomIndex(rooms: seq<Room>, code: string): (k: Option<nat>)
    ensures k.None? <==> forall i :: 0 <= i < |rooms| ==> rooms[i].code != code
    ensures k.Some? ==> k.value < |rooms| && rooms[k.value].code == code
  {
    if |rooms| == 0 then None
    else if rooms[0].code == code then Some(0)
    else match RoomIndex(rooms[1..], code)
      case None => None
      case Some(k) => Some(k + 1)
  }

  /** No code occurs twice. */
  predicate DistinctCodes(rooms: seq<Room>)
  {
    forall i, j :: 0 <= i < j < |rooms| ==> rooms[i].code != rooms[j].code
  }

  /** The registry invariant: distinct codes and every room valid (so no
      room ever holds more than two players). */
  predicate Valid(reg: Registry)
  {
    DistinctCodes(reg.rooms) && forall i :: 0 <= i < |reg.rooms| ==> GameRoom.Valid(reg.rooms[i])
  }

  /** With distinct codes the lookup finds the one room with that code. */
  lemma RoomIndexUnique(rooms: seq<Room>, i: nat)
    requires DistinctCodes(rooms) && i < |rooms|
    ensures RoomIndex(rooms, rooms[i].code) == Some(i)
  {
    var k := RoomIndex(rooms, rooms[i].code).value;
    assert rooms[k].code == rooms[i].code;
  }

  // ---------------------------------------------------------------------
  // Room codes

  /** A draw: six indices into the alphabet. */
  predicate WellFormedDraw(d: seq<nat>)
  {
    |d| == CodeLength && forall i :: 0 <= i < |d| ==> d[i] < |Alphabet|
  }

  /** The code a draw spells: `chars.charAt(index)` six times. */
  function CodeOf(d: seq<nat>): (c: string)
    requires WellFormedDraw(d)
    ensures |c| == CodeLength && forall i :: 0 <= i < |c| ==> c[i] == Alphabet[d[i]]
  {
    seq(CodeLength, i requires 0 <= i < CodeLength => Alphabet[d[i]])
  }

  /** A code the generator can produce: six alphabet characters. */
  predicate IsCode(c: string)
  {
    |c| == CodeLength && forall i :: 0 <= i < |c| ==> c[i] in Alphabet
  }

  lemma CodeOfIsCode(d: seq<nat>)
    requires WellFormedDraw(d)
    ensures IsCode(CodeOf(d)) && Truthy(CodeOf(d))
  {
    var c := CodeOf(d);
    forall i | 0 <= i < |c|
      ensures c[i] in Alphabet
    {
      assert c[i] == Alphabet[d[i]];
    }
  }

  /** `generateRoomCode()` over the successive draws of the random
      generator: keep drawing while the code is taken. The model stops when
      the draws run out (None); the source would keep drawing. */
  method GenerateRoomCode(rooms: seq<Room>, draws: seq<seq<nat>>) returns (code: Option<string>)
    requires forall k :: 0 <= k < |draws| ==> WellFormedDraw(draws[k])
    ensures code.None? ==> forall k :: 0 <= k < |draws| ==> RoomIndex(rooms, CodeOf(draws[k])).Some?
    ensures code.Some? ==>
      && IsCode(code.value)
      && RoomIndex(rooms, code.value).None?
      && exists k :: 0 <= k < |draws| && code.value == CodeOf(draws[k])
           && forall j :: 0 <= j < k ==> RoomIndex(rooms, CodeOf(draws[j])).Some?
  {
    var n := 0;
    while n < |draws|
      invariant 0 <= n <= |draws|
      invariant forall j :: 0 <= j < n ==> RoomIndex(rooms, CodeOf(draws[j])).Some?
    {
      var c := CodeOf(draws[n]);
      if RoomIndex(rooms, c).None? {
        CodeOfIsCode(draws[n]);
        return Some(c);
      }
      n := n + 1;
    }
    return None;
  }

  // ---------------------------------------------------------------------
  // Creating and joining

  datatype Failure = CodeTaken | NoSuchRoom | RoomIsFull | GameAlreadyStarted

  /** What the requesting socket is told. */
  datatype Reply = Joined(code: string, number: int) | Refused(why: Failure)

  datatype Created = Created(registry: Registry, reply: Reply)

  /** `createRoom(socket, roomName)`: the code is the room name when one is
      given, else a freshly generated code; a code already in use fails and
      changes nothing. Otherwise a new room holding the creator as player 0
      is appended and the socket is mapped to it. */
  function CreateRoom(reg: Registry, id: string, roomName: string, generated: string, createdAt: int, joinedAt: int): (c: Created)
    requires Truthy(roomName) || (IsCode(generated) && RoomIndex(reg.rooms, generated).None?)
    ensures var code := if Truthy(roomName) then roomName else generated;
      && (c.reply == Refused(CodeTaken) <==> RoomIndex(reg.rooms, code).Some?)
      && (c.reply.Refused? ==> c.registry == reg)
      && (c.reply.Joined? ==>
            && c.reply == Joined(code, 0)
            && c.registry.rooms == reg.rooms + [AddPlayer(NewRoom(code, createdAt), id, 0, joinedAt).room]
            && c.registry.playerRooms == reg.playerRooms[id := code]
            && c.registry.bank == reg.bank)
  {
    var code := if Truthy(roomName) then roomName else generated;
    if RoomIndex(reg.rooms, code).Some? then Created(reg, Refused(CodeTaken))
    else
      var room := AddPlayer(NewRoom(code, createdAt), id, 0, joinedAt).room;
      Created(reg.(rooms := reg.rooms + [room], playerRooms := reg.playerRooms[id := code]), Joined(code, 0))
  }

  /** A created room holds exactly its creator, unconfigured, as player 0,
      and the registry stays valid. */
  lemma CreateRoomKeepsValid(reg: Registry, id: string, roomName: string, generated: string, createdAt: int, joinedAt: int)
    requires Valid(reg)
    requires Truthy(roomName) || (IsCode(generated) && RoomIndex(reg.rooms, generated).None?)
    ensures var c := CreateRoom(reg, id, roomName, generated, createdAt, joinedAt);
      && Valid(c.registry)
      && (c.reply.Joined? ==>
            && |c.registry.rooms| == |reg.rooms| + 1
            && var room := c.registry.rooms[|reg.rooms|];
               room.players == [NewPlayer(id, 0, joinedAt)] && !room.started && room.code == c.reply.code)
  {
    var c := CreateRoom(reg, id, roomName, generated, createdAt, joinedAt);
    if c.reply.Joined? {
      var code := c.reply.code;
      NewRoomValid(code, createdAt);
      AddPlayerKeepsValid(NewRoom(code, createdAt), id, 0, joinedAt);
      var rooms := c.registry.rooms;
      assert forall i :: 0 <= i < |reg.rooms| ==> rooms[i] == reg.rooms[i];
      assert rooms[|reg.rooms|].code == code;
    }
  }

  datatype JoinReply = JoinReply(registry: Registry, reply: Reply, scheduleStart: bool)

  /** `joinRoom(socket, roomCode)`: refused for an unknown room, a full
      room, or a started room, checked in that order, changing nothing.
      Otherwise the socket joins as player 1, is mapped to the room, and
      the start is scheduled when the room is now full. */
  function JoinRoom(reg: Registry, id: string, code: string, joinedAt: int): (j: JoinReply)
    ensures RoomIndex(reg.rooms, code).None? ==> j == JoinReply(reg, Refused(NoSuchRoom), false)
    ensures RoomIndex(reg.rooms, code).Some? ==>
      var k := RoomIndex(reg.rooms, code).value;
      var room := reg.rooms[k];
      && (|room.players| >= Capacity ==> j == JoinReply(reg, Refused(RoomIsFull), false))
      && (|room.players| < Capacity && room.started ==> j == JoinReply(reg, Refused(GameAlreadyStarted), false))
      && (|room.players| < Capacity && !room.started ==>
            var joined := AddPlayer(room, id, 1, joinedAt);
            && joined.status == Admitted
            && j.reply == Joined(code, 1)
            && j.registry == reg.(rooms := reg.rooms[k := joined.room], playerRooms := reg.playerRooms[id := code])
            && (j.scheduleStart <==> |joined.room.players| >= Capacity))
  {
    match RoomIndex(reg.rooms, code)
    case None => JoinReply(reg, Refused(NoSuchRoom), false)
    case Some(k) =>
      var room := reg.rooms[k];
      if |room.players| >= Capacity then JoinReply(reg, Refused(RoomIsFull), false)
      else if room.started then JoinReply(reg, Refused(GameAlreadyStarted), false)
      else
        var joined := AddPlayer(room, id, 1, joinedAt).room;
        JoinReply(reg.(rooms := reg.rooms[k := joined], playerRooms := reg.playerRooms[id := code]),
                  Joined(code, 1), |joined.players| >= Capacity)
  }

  /** Joining keeps the registry valid, so a room never holds more than two
      players; a second player joining a one-player room fills it and
      schedules the start. */
  lemma JoinRoomKeepsValid(reg: Registry, id: string, code: string, joinedAt: int)
    requires Valid(reg)
    ensures Valid(JoinRoom(reg, id, code, joinedAt).registry)
    ensures RoomIndex(reg.rooms, code).Some? ==>
      var room := reg.rooms[RoomIndex(reg.rooms, code).value];
      |room.players| == 1 && !room.started && Find(room.players, id).None? ==>
        JoinRoom(reg, id, code, joinedAt).scheduleStart
  {
    if RoomIndex(reg.rooms, code).Some? {
      var k := RoomIndex(reg.rooms, code).value;
      AddPlayerKeepsValid(reg.rooms[k], id, 1, joinedAt);
      PutKeepsDistinct(reg.rooms[k].players, NewPlayer(id, 1, joinedAt));
      var rooms := JoinRoom(reg, id, code, joinedAt).registry.rooms;
      assert forall i :: 0 <= i < |rooms| ==> rooms[i].code == reg.rooms[i].code;
    }
  }

  // ---------------------------------------------------------------------
  // Listing

  /** Lobby status of a room. */
  datatype Status = WaitingForPlayer | Full

  /** One entry of the public room list. */
  datatype RoomInfo = RoomInfo(code: string, name: string, players: int, maxPlayers: int, status: Status, canJoin: bool, createdAt: int)

  /** The entry of a room: the name is the code, the status is "waiting"
      exactly with one player, and one can join below two players. */
  function InfoOf(room: Room): (info: RoomInfo)
    ensures info.code == room.code && info.name == room.code && info.players == |room.players| && info.maxPlayers == Capacity
    ensures info.status == WaitingForPlayer <==> |room.players| == 1
    ensures info.canJoin <==> |room.players| < Capacity
    ensures info.createdAt == room.createdAt
  {
    RoomInfo(room.code, room.code, |room.players|, Capacity,
             if |room.players| == 1 then WaitingForPlayer else Full,
             |room.players| < Capacity, room.createdAt)
  }

  /** The entries of the rooms not yet started, in registry order. */
  function Listing(rooms: seq<Room>): (r: seq<RoomInfo>)
    ensures forall x :: x in r <==> exists i :: 0 <= i < |rooms| && !rooms[i].started && x == InfoOf(rooms[i])
    ensures |r| <= |rooms|
  {
    if |rooms| == 0 then []
    else
      var rest := Listing(rooms[1..]);
      assert forall i :: 0 <= i < |rooms| - 1 ==> rooms[1..][i] == rooms[i + 1];
      if rooms[0].started then rest else [InfoOf(rooms[0])] + rest
  }

  /** Newest first. */
  predicate NewestFirst(s: seq<RoomInfo>)
  {
    forall i, j :: 0 <= i < j < |s| ==> s[i].createdAt >= s[j].createdAt
  }

  /** Insert an entry before the first strictly older one. */
  function Insert(x: RoomInfo, s: seq<RoomInfo>): (r: seq<RoomInfo>)
    requires NewestFirst(s)
    ensures NewestFirst(r)
    ensures multiset(r) == multiset(s) + multiset{x}
  {
    if |s| == 0 then [x]
    else if s[0].createdAt < x.createdAt then [x] + s
    else
      var rest := Insert(x, s[1..]);
      InsertHead(x, s, rest);
      [s[0]] + rest
  }

  /** The step of `Insert` that keeps the head. */
  lemma InsertHead(x: RoomInfo, s: seq<RoomInfo>, rest: seq<RoomInfo>)
    requires |s| > 0 && NewestFirst(s) && x.createdAt <= s[0].createdAt
    requires NewestFirst(rest) && multiset(rest) == multiset(s[1..]) + multiset{x}
    ensures NewestFirst([s[0]] + rest)
    ensures multiset([s[0]] + rest) == multiset(s) + multiset{x}
  {
    assert s == [s[0]] + s[1..];
    var r := [s[0]] + rest;
    forall j | 0 < j < |r|
      ensures r[j].createdAt <= s[0].createdAt
    {
      assert r[j] == rest[j - 1];
      assert r[j] in multiset(rest);
      if r[j] != x {
        assert r[j] in multiset(s[1..]);
        var m :| 0 <= m < |s[1..]| && s[1..][m] == r[j];
        assert s[m + 1] == r[j];
      }
    }
  }

  /** `sort((a, b) => b.createdAt - a.createdAt)` as an insertion sort that
      keeps entries with equal times in their listing order. */
  function SortNewestFirst(s: seq<RoomInfo>): (r: seq<RoomInfo>)
    ensures NewestFirst(r)
    ensures multiset(r) == multiset(s)
  {
    if |s| == 0 then []
    else
      assert s == s[..|s| - 1] + [s[|s| - 1]];
      Insert(s[|s| - 1], SortNewestFirst(s[..|s| - 1]))
  }

  /** `getPublicRooms()`: the open rooms' entries, newest first. */
  function PublicRooms(reg: Registry): (r: seq<RoomInfo>)
    ensures NewestFirst(r)
    ensures multiset(r) == multiset(Listing(reg.rooms))
  {
    SortNewestFirst(Listing(reg.rooms))
  }

  /** The public list holds exactly the entries of the rooms not yet
      started, newest first, each room once. */
  lemma PublicRoomsAreTheOpenRooms(reg: Registry)
    ensures NewestFirst(PublicRooms(reg))
    ensures forall x :: x in PublicRooms(reg) <==> exists i :: 0 <= i < |reg.rooms| && !reg.rooms[i].started && x == InfoOf(reg.rooms[i])
    ensures |PublicRooms(reg)| == |Listing(reg.rooms)|
  {
    var l := Listing(reg.rooms);
    var p := PublicRooms(reg);
    assert multiset(p) == multiset(l);
    forall x
      ensures x in p <==> x in l
    {
      assert x in p <==> x in multiset(p);
      assert x in l <==> x in multiset(l);
    }
    assert |p| == |multiset(p)| == |multiset(l)| == |l|;
  }

  // ---------------------------------------------------------------------
  // Disconnection and statistics

  /** The room a socket is mapped to, when it still exists
      (`getPlayerRoom`). */
  function RoomOf(reg: Registry, id: string): (k: Option<nat>)
    ensures k.Some? ==> k.value < |reg.rooms| && id in reg.playerRooms && reg.rooms[k.value].code == reg.playerRooms[id]
    ensures k.None? ==> id !in reg.playerRooms || !Truthy(reg.playerRooms[id]) || RoomIndex(reg.rooms, reg.playerRooms[id]).None?
  {
    if id in reg.playerRooms && Truthy(reg.playerRooms[id]) then RoomIndex(reg.rooms, reg.playerRooms[id]) else None
  }

  /** A room is dropped after a disconnection when it is empty, or not
      started with a single player left. */
  predicate Abandoned(room: Room)
  {
    |room.players| == 0 || (!room.started && |room.players| == 1)
  }

  /** `handleDisconnection(socketId)`: the socket's room (if it still
      exists) loses the player and is deleted when abandoned; the socket's
      mapping is deleted in any case. Other sockets' mappings are kept, even
      when they point to the deleted room. */
  function HandleDisconnection(reg: Registry, id: string): (r: Registry)
    ensures id !in reg.playerRooms || !Truthy(reg.playerRooms[id]) ==> r == reg
    ensures id in reg.playerRooms && Truthy(reg.playerRooms[id]) ==> r.playerRooms == reg.playerRooms - {id}
    ensures RoomOf(reg, id).None? && id in reg.playerRooms ==> r.rooms == reg.rooms
    ensures RoomOf(reg, id).Some? ==>
      var k := RoomOf(reg, id).value;
      var room := Disconnect(reg.rooms[k], id);
      && (Abandoned(room) ==> r.rooms == reg.rooms[..k] + reg.rooms[k + 1..])
      && (!Abandoned(room) ==> r.rooms == reg.rooms[k := room])
    ensures r.bank == reg.bank
  {
    if id !in reg.playerRooms || !Truthy(reg.playerRooms[id]) then reg
    else
      var mapping := reg.playerRooms - {id};
      match RoomIndex(reg.rooms, reg.playerRooms[id])
      case None => reg.(playerRooms := mapping)
      case Some(k) =>
        var room := Disconnect(reg.rooms[k], id);
        if Abandoned(room) then reg.(rooms := reg.rooms[..k] + reg.rooms[k + 1..], playerRooms := mapping)
        else reg.(rooms := reg.rooms[k := room], playerRooms := mapping)
  }

  /** A disconnection keeps the registry valid; the socket is unmapped; its
      room is gone exactly when abandoned, and otherwise no longer lists the
      player. */
  lemma HandleDisconnectionKeepsValid(reg: Registry, id: string)
    requires Valid(reg)
    ensures var r := HandleDisconnection(reg, id);
      && Valid(r)
      && (id in reg.playerRooms && Truthy(reg.playerRooms[id]) ==> id !in r.playerRooms)
      && (RoomOf(reg, id).Some? ==>
            var code := reg.playerRooms[id];
            (RoomIndex(r.rooms, code).None? <==> Abandoned(Disconnect(reg.rooms[RoomOf(reg, id).value], id))))
  {
    var r := HandleDisconnection(reg, id);
    if RoomOf(reg, id).Some? {
      var k := RoomOf(reg, id).value;
      var room := Disconnect(reg.rooms[k], id);
      DisconnectKeepsValid(reg.rooms[k], id);
      if Abandoned(room) {
        DropKeepsValid(reg, k);
      } else {
        UpdateKeepsValid(reg, k, room);
        assert r == Update(reg, k, room).(playerRooms := r.playerRooms);
        RoomIndexUnique(r.rooms, k);
      }
    }
  }

  /** A player leaving a full room before its delayed start: the room is
      not started yet, so it is deleted at once, and the start that fires
      afterwards finds no room under that code and changes nothing. */
  lemma LeaveBeforeStart(reg: Registry, id: string)
    requires Valid(reg) && RoomOf(reg, id).Some?
    requires var room := reg.rooms[RoomOf(reg, id).value];
      |room.players| == Capacity && !room.started && Find(room.players, id).Some?
    ensures var r := HandleDisconnection(reg, id);
      && RoomIndex(r.rooms, reg.playerRooms[id]).None?
      && StartEvent(r, reg.playerRooms[id]) == r
  {
    var k := RoomOf(reg, id).value;
    DisconnectKeepsValid(reg.rooms[k], id);
    assert Abandoned(Disconnect(reg.rooms[k], id));
    HandleDisconnectionKeepsValid(reg, id);
  }

  /** Deleting the room at position k keeps the registry valid, and its
      code is then found nowhere. */
  lemma DropKeepsValid(reg: Registry, k: nat)
    requires Valid(reg) && k < |reg.rooms|
    ensures var rest := reg.rooms[..k] + reg.rooms[k + 1..];
      && Valid(reg.(rooms := rest))
      && RoomIndex(rest, reg.rooms[k].code).None?
  {
    var rest := reg.rooms[..k] + reg.rooms[k + 1..];
    assert forall i :: 0 <= i < |rest| ==> rest[i] == (if i < k then reg.rooms[i] else reg.rooms[i + 1]);
    forall i | 0 <= i < |rest|
      ensures rest[i].code != reg.rooms[k].code
    {
      if i < k {
        assert rest[i] == reg.rooms[i];
      } else {
        assert rest[i] == reg.rooms[i + 1];
      }
    }
  }

  /** `getStats()`. */
  datatype Stats = Stats(totalRooms: int, activeGames: int, waitingRooms: int, totalPlayers: int)

  /** Number of started rooms. */
  function StartedCount(rooms: seq<Room>): (n: nat)
    ensures n <= |rooms|
  {
    if |rooms| == 0 then 0 else (if rooms[0].started then 1 else 0) + StartedCount(rooms[1..])
  }

  /** Number of players over all rooms. */
  function PlayerTotal(rooms: seq<Room>): nat
  {
    if |rooms| == 0 then 0 else |rooms[0].players| + PlayerTotal(rooms[1..])
  }

  /** The counts over a prefix extend one room at a time. */
  lemma {:induction false} CountsSnoc(rooms: seq<Room>, n: nat)
    requires n < |rooms|
    ensures StartedCount(rooms[..n + 1]) == StartedCount(rooms[..n]) + (if rooms[n].started then 1 else 0)
    ensures PlayerTotal(rooms[..n + 1]) == PlayerTotal(rooms[..n]) + |rooms[n].players|
    decreases n
  {
    if n > 0 {
      var tail := rooms[1..];
      CountsSnoc(tail, n - 1);
      assert rooms[..n + 1][1..] == tail[..n];
      assert rooms[..n][1..] == tail[..n - 1];
    }
  }

  /** Every room of a valid registry holds at most two players. */
  lemma {:induction false} PlayerTotalBound(rooms: seq<Room>)
    requires forall i :: 0 <= i < |rooms| ==> |rooms[i].players| <= Capacity
    ensures PlayerTotal(rooms) <= Capacity * |rooms|
    decreases |rooms|
  {
    if |rooms| > 0 {
      PlayerTotalBound(rooms[1..]);
    }
  }

  /** `getStats()` in one pass over the rooms: active and waiting rooms
      partition the rooms, and the player total is at most two per room. */
  method GetStats(reg: Registry) returns (s: Stats)
    ensures s.totalRooms == |reg.rooms|
    ensures s.activeGames == StartedCount(reg.rooms)
    ensures s.activeGames + s.waitingRooms == s.totalRooms
    ensures s.totalPlayers == PlayerTotal(reg.rooms)
    ensures Valid(reg) ==> s.totalPlayers <= Capacity * s.totalRooms
  {
    var active, waiting, players := 0, 0, 0;
    var n := 0;
    while n < |reg.rooms|
      invariant 0 <= n <= |reg.rooms|
      invariant active == StartedCount(reg.rooms[..n])
      invariant active + waiting == n
      invariant players == PlayerTotal(reg.rooms[..n])
    {
      CountsSnoc(reg.rooms, n);
      if reg.rooms[n].started {
        active := active + 1;
      } else {
        waiting := waiting + 1;
      }
      players := players + |reg.rooms[n].players|;
      n := n + 1;
    }
    assert reg.rooms[..n] == reg.rooms;
    if Valid(reg) {
      PlayerTotalBound(reg.rooms);
    }
    s := Stats(|reg.rooms|, active, waiting, players);
  }

  // ---------------------------------------------------------------------
  // Socket events routed to a room

  /** Replace room k. */
  function Update(reg: Registry, k: nat, room: Room): (r: Registry)
    requires k < |reg.rooms|
    ensures r.rooms == reg.rooms[k := room] && r.playerRooms == reg.playerRooms && r.bank == reg.bank
  {
    reg.(rooms := reg.rooms[k := room])
  }

  /** Replacing a room by a valid room with the same code keeps the
      registry valid. */
  lemma UpdateKeepsValid(reg: Registry, k: nat, room: Room)
    requires Valid(reg) && k < |reg.rooms| && GameRoom.Valid(room) && room.code == reg.rooms[k].code
    ensures Valid(Update(reg, k, room))
  {
    var r := Update(reg, k, room);
    assert forall i :: 0 <= i < |r.rooms| ==> r.rooms[i].code == reg.rooms[i].code;
  }

  datatype Routed = Routed(registry: Registry, scheduleStart: bool)

  /** `configure-player`: configure the sender in its room, if any. */
  function ConfigureEvent(reg: Registry, id: string, nombre: string, avatar: string, topics: seq<string>): (r: Routed)
    ensures RoomOf(reg, id).None? ==> r == Routed(reg, false)
    ensures RoomOf(reg, id).Some? ==>
      var k := RoomOf(reg, id).value;
      var c := Configure(reg.rooms[k], id, nombre, avatar, topics);
      r == Routed(Update(reg, k, c.room), c.scheduleStart)
  {
    match RoomOf(reg, id)
    case None => Routed(reg, false)
    case Some(k) =>
      var c := Configure(reg.rooms[k], id, nombre, avatar, topics);
      Routed(Update(reg, k, c.room), c.scheduleStart)
  }

  /** The delayed start of the room with a given code (a room deleted in
      the meantime is no longer in the registry, and nothing changes). The
      source's timer holds the room object itself, so a room created later
      under the same code is not the one it starts; keying by code does not
      tell the two apart. */
  function StartEvent(reg: Registry, code: string): (r: Registry)
    ensures RoomIndex(reg.rooms, code).None? ==> r == reg
    ensures RoomIndex(reg.rooms, code).Some? ==>
      r == Update(reg, RoomIndex(reg.rooms, code).value, StartGame(reg.rooms[RoomIndex(reg.rooms, code).value]))
  {
    match RoomIndex(reg.rooms, code)
    case None => reg
    case Some(k) => Update(reg, k, StartGame(reg.rooms[k]))
  }

  /** The wheel's draw for the sender's room is in range. */
  predicate SpinDrawInRange(reg: Registry, id: string, roll: nat, pick: nat)
  {
    RoomOf(reg, id).None? ||
      (var room := reg.rooms[RoomOf(reg, id).value];
       roll < Max(1, |room.turn.topics|) && PickInRange(reg.bank, Spun(room.turn.topics, roll), pick))
  }

  datatype SpinRouted = SpinRouted(registry: Registry, notice: Notice)

  /** `spin-wheel`: spin in the sender's room, updating the shared bank. */
  function SpinEvent(reg: Registry, id: string, roll: nat, pick: nat): (r: SpinRouted)
    requires SpinDrawInRange(reg, id, roll, pick)
    ensures RoomOf(reg, id).None? ==> r == SpinRouted(reg, Quiet)
    ensures RoomOf(reg, id).Some? ==>
      var k := RoomOf(reg, id).value;
      var s := Spin(reg.rooms[k], reg.bank, id, roll, pick);
      r == SpinRouted(Update(reg, k, s.room).(bank := s.bank), s.notice)
  {
    match RoomOf(reg, id)
    case None => SpinRouted(reg, Quiet)
    case Some(k) =>
      var s := Spin(reg.rooms[k], reg.bank, id, roll, pick);
      SpinRouted(Update(reg, k, s.room).(bank := s.bank), s.notice)
  }

  /** A room's outcome lifted to the registry, with its report. */
  function Lift(reg: Registry, k: nat, o: Outcome<Room>, end: RoundEnd): (r: Ended<Registry>)
    requires k < |reg.rooms|
    ensures r.outcome.state == Update(reg, k, o.state)
    ensures r.outcome.Threw? <==> o.Threw?
    ensures r.end == end
  {
    match o
    case Ok(room) => Ended(Ok(Update(reg, k, room)), end)
    case Threw(room) => Ended(Threw(Update(reg, k, room)), end)
  }

  /** `answer-question`: answer in the sender's room; the room's report of
      game over, winner and next-turn timer is passed on. */
  function AnswerEvent(reg: Registry, id: string, choice: int): (r: Ended<Registry>)
    ensures RoomOf(reg, id).None? ==> r == Ended(Ok(reg), NoRoundEnd)
    ensures RoomOf(reg, id).Some? ==>
      var k := RoomOf(reg, id).value;
      var a := Answer(reg.rooms[k], id, choice);
      && r.outcome.state == Update(reg, k, a.outcome.state)
      && (r.outcome.Threw? <==> a.outcome.Threw?)
      && r.end == a.end
  {
    match RoomOf(reg, id)
    case None => Ended(Ok(reg), NoRoundEnd)
    case Some(k) =>
      var a := Answer(reg.rooms[k], id, choice);
      Lift(reg, k, a.outcome, a.end)
  }

  /** `question-timeout`: time out in the sender's room; the room's report
      is passed on. */
  function TimeoutEvent(reg: Registry, id: string): (r: Ended<Registry>)
    ensures RoomOf(reg, id).None? ==> r == Ended(Ok(reg), NoRoundEnd)
    ensures RoomOf(reg, id).Some? ==>
      var k := RoomOf(reg, id).value;
      var t := Timeout(reg.rooms[k], id);
      && r.outcome.state == Update(reg, k, t.outcome.state)
      && (r.outcome.Threw? <==> t.outcome.Threw?)
      && r.end == t.end
  {
    match RoomOf(reg, id)
    case None => Ended(Ok(reg), NoRoundEnd)
    case Some(k) =>
      var t := Timeout(reg.rooms[k], id);
      Lift(reg, k, t.outcome, t.end)
  }

  /** Every routed event keeps the registry valid, so no room ever holds
      more than two players and no life leaves [0, 100], whatever the order
      of events. */
  lemma RoutedEventsKeepValid(reg: Registry, id: string, nombre: string, avatar: string, topics: seq<string>,
                              code: string, roll: nat, pick: nat, choice: int)
    requires Valid(reg)
    ensures Valid(ConfigureEvent(reg, id, nombre, avatar, topics).registry)
    ensures Valid(StartEvent(reg, code))
    ensures SpinDrawInRange(reg, id, roll, pick) ==> Valid(SpinEvent(reg, id, roll, pick).registry)
    ensures Valid(AnswerEvent(reg, id, choice).outcome.state)
    ensures Valid(TimeoutEvent(reg, id).outcome.state)
  {
    ConfigureEventKeepsValid(reg, id, nombre, avatar, topics);
    StartEventKeepsValid(reg, code);
    if SpinDrawInRange(reg, id, roll, pick) {
      SpinEventKeepsValid(reg, id, roll, pick);
    }
    AnswerEventKeepsValid(reg, id, choice);
    TimeoutEventKeepsValid(reg, id);
  }

  lemma ConfigureEventKeepsValid(reg: Registry, id: string, nombre: string, avatar: string, topics: seq<string>)
    requires Valid(reg)
    ensures Valid(ConfigureEvent(reg, id, nombre, avatar, topics).registry)
  {
    if RoomOf(reg, id).Some? {
      var k := RoomOf(reg, id).value;
      ConfigureKeepsValid(reg.rooms[k], id, nombre, avatar, topics);
      UpdateKeepsValid(reg, k, Configure(reg.rooms[k], id, nombre, avatar, topics).room);
    }
  }

  lemma StartEventKeepsValid(reg: Registry, code: string)
    requires Valid(reg)
    ensures Valid(StartEvent(reg, code))
  {
    if RoomIndex(reg.rooms, code).Some? {
      var k := RoomIndex(reg.rooms, code).value;
      StartGameIdempotent(reg.rooms[k]);
      UpdateKeepsValid(reg, k, StartGame(reg.rooms[k]));
    }
  }

  lemma SpinEventKeepsValid(reg: Registry, id: string, roll: nat, pick: nat)
    requires Valid(reg) && SpinDrawInRange(reg, id, roll, pick)
    ensures Valid(SpinEvent(reg, id, roll, pick).registry)
  {
    if RoomOf(reg, id).Some? {
      var k := RoomOf(reg, id).value;
      SpinKeepsValid(reg.rooms[k], reg.bank, id, roll, pick);
      UpdateKeepsValid(reg, k, Spin(reg.rooms[k], reg.bank, id, roll, pick).room);
    }
  }

  lemma AnswerEventKeepsValid(reg: Registry, id: string, choice: int)
    requires Valid(reg)
    ensures Valid(AnswerEvent(reg, id, choice).outcome.state)
  {
    if RoomOf(reg, id).Some? {
      var k := RoomOf(reg, id).value;
      AnswerKeepsValid(reg.rooms[k], id, choice);
      UpdateKeepsValid(reg, k, Answer(reg.rooms[k], id, choice).outcome.state);
    }
  }

  lemma TimeoutEventKeepsValid(reg: Registry, id: string)
    requires Valid(reg)
    ensures Valid(TimeoutEvent(reg, id).outcome.state)
  {
    if RoomOf(reg, id).Some? {
      var k := RoomOf(reg, id).value;
      TimeoutKeepsValid(reg.rooms[k], id);
      UpdateKeepsValid(reg, k, Timeout(reg.rooms[k], id).outcome.state);
    }
  }
}

=== FILE: gameroom.dfy ===
/** One match of the room server (v6.1 `server.js`, class `GameRoom`).

    The room keeps its players in a `Map` from socket id to player record;
    a `Map` iterates in insertion order and `set` on a present key replaces
    the entry in place, so the players are a sequence with distinct ids.
    `Array.from(players.values())[i]` is `players[i]`. The question bank is
    shared by every room (`preguntasData`, None when loading failed), so the
    events that select a question take it and hand it back.

    Socket emits and broadcasts are dropped; what a handler tells the player
    who sent the event is kept as a `Notice`. The delayed callbacks are their
    own events: `AnimationDone` (4 s after a spin), `NextTurn` (3 s after a
    result that did not end the game) and `StartGame` (1 s after the room
    is ready). */
module GameRoom {
  import opened Common
  import opened Rounding
  import opened Topics
  import opened QuestionBank

  /** Players per room, and starting/maximum life. */
  const Capacity: int := 2
  const FullLife: int := 100

  /** `playerData`: `number` is the `playerNumber` given at join time;
      `nombre` and `avatar` are null ("") until the player is configured. */
  datatype Player = Player(
    id: string,
    number: int,
    nombre: string,
    avatar: string,
    topics: seq<string>,
    vida: int,
    maxVida: int,
    ready: bool,
    joinedAt: int)

  /** `gameState`. `active` is `jugadorActualID`, `origin` is
      `jugadorOriginalTurno`, `question` is `currentQuestion`. */
  datatype Turn = Turn(
    round: int,
    active: int,
    secondChance: bool,
    topics: seq<string>,
    topic: Option<string>,
    question: Option<Question>,
    spinning: bool,
    questionActive: bool,
    origin: Option<int>)

  /** A room; its name is always its code. */
  datatype Room = Room(code: string, createdAt: int, started: bool, players: seq<Player>, turn: Turn)

  /** `new GameRoom(roomCode, preguntasData)` at time `createdAt`. */
  function NewRoom(code: string, createdAt: int): (r: Room)
    ensures r.code == code && r.createdAt == createdAt
    ensures !r.started && r.players == []
    ensures r.turn.round == 1 && r.turn.active == 0 && !r.turn.secondChance && r.turn.topics == []
    ensures r.turn.topic.None? && r.turn.question.None? && r.turn.origin.None?
    ensures !r.turn.spinning && !r.turn.questionActive
  {
    Room(code, createdAt, false, [], Turn(1, 0, false, [], None, None, false, false, None))
  }

  /** The record `addPlayer` creates: full life, not configured. */
  function NewPlayer(id: string, number: int, joinedAt: int): (p: Player)
    ensures p.id == id && p.number == number && p.joinedAt == joinedAt
    ensures p.vida == p.maxVida == FullLife && !p.ready
    ensures p.nombre == "" && p.avatar == "" && p.topics == []
  {
    Player(id, number, "", "", [], FullLife, FullLife, false, joinedAt)
  }

  /** No socket id occurs twice. */
  predicate Distinct(ps: seq<Player>)
  {
    forall i, j :: 0 <= i < j < |ps| ==> ps[i].id != ps[j].id
  }

  /** `players.get(id)`: the position of the entry with that id. */
  function Find(ps: seq<Player>, id: string): (k: Option<nat>)
    ensures k.None? <==> forall i :: 0 <= i < |ps| ==> ps[i].id != id
    ensures k.Some? ==> k.value < |ps| && ps[k.value].id == id
    ensures k.Some? ==> forall i :: 0 <= i < k.value ==> ps[i].id != id
  {
    FirstWhere(ps, (p: Player) => p.id == id)
  }

  /** `find(p => p.id !== id)`: the first entry with another id. */
  function FirstOther(ps: seq<Player>, id: string): (k: Option<nat>)
    ensures k.None? <==> forall i :: 0 <= i < |ps| ==> ps[i].id == id
    ensures k.Some? ==> k.value < |ps| && ps[k.value].id != id
    ensures k.Some? ==> forall i :: 0 <= i < k.value ==> ps[i].id == id
  {
    FirstWhere(ps, (p: Player) => p.id != id)
  }

  /** `players.set(p.id, p)`: replace the entry in place, or append. */
  function Put(ps: seq<Player>, p: Player): (r: seq<Player>)
    ensures Find(ps, p.id).Some? ==> r == ps[Find(ps, p.id).value := p]
    ensures Find(ps, p.id).None? ==> r == ps + [p]
  {
    match Find(ps, p.id)
    case Some(k) => ps[k := p]
    case None => ps + [p]
  }

  /** A put keeps the ids distinct, and the entry is found where it went. */
  lemma PutKeepsDistinct(ps: seq<Player>, p: Player)
    requires Distinct(ps)
    ensures Distinct(Put(ps, p))
    ensures Find(Put(ps, p), p.id).Some? && Put(ps, p)[Find(Put(ps, p), p.id).value] == p
    ensures |Put(ps, p)| == |ps| + (if Find(ps, p.id).Some? then 0 else 1)
  {
    var r := Put(ps, p);
    if Find(ps, p.id).Some? {
      var j := Find(ps, p.id).value;
      assert r[j].id == p.id;
      assert Find(r, p.id) == Some(j);
    } else {
      assert r[|ps|].id == p.id;
      assert Find(r, p.id) == Some(|ps|);
    }
  }

  /** `players.delete(id)`: the other entries, in their order. */
  function Without(ps: seq<Player>, id: string): (r: seq<Player>)
    ensures forall i :: 0 <= i < |r| ==> r[i].id != id && r[i] in ps
    ensures forall p :: p in ps && p.id != id ==> p in r
    ensures |r| <= |ps|
    ensures Find(ps, id).None? ==> r == ps
  {
    if |ps| == 0 then []
    else if ps[0].id == id then Without(ps[1..], id)
    else [ps[0]] + Without(ps[1..], id)
  }

  /** Deleting a present id from distinct entries removes exactly one and
      keeps the rest distinct. */
  lemma {:induction false} WithoutRemovesOne(ps: seq<Player>, id: string)
    requires Distinct(ps)
    ensures Distinct(Without(ps, id))
    ensures |Without(ps, id)| == |ps| - (if Find(ps, id).Some? then 1 else 0)
  {
    if |ps| > 0 {
      var tail := ps[1..];
      DistinctTail(ps);
      WithoutRemovesOne(tail, id);
      if ps[0].id == id {
        assert Find(tail, id).None?;
        assert Without(ps, id) == Without(tail, id);
      } else {
        assert Without(ps, id) == [ps[0]] + Without(tail, id);
        assert Find(ps, id).Some? <==> Find(tail, id).Some? by {
          if Find(tail, id).Some? {
            assert ps[Find(tail, id).value + 1].id == id;
          }
          if Find(ps, id).Some? {
            assert tail[Find(ps, id).value - 1].id == id;
          }
        }
        ConsKeepsDistinct(ps[0], Without(tail, id), tail);
      }
    }
  }

  /** The tail of distinct entries is distinct and never repeats the
      head's id. */
  lemma DistinctTail(ps: seq<Player>)
    requires Distinct(ps) && |ps| > 0
    ensures Distinct(ps[1..])
    ensures forall p :: p in ps[1..] ==> p.id != ps[0].id
  {
    var tail := ps[1..];
    forall i, j | 0 <= i < j < |tail|
      ensures tail[i].id != tail[j].id
    {
      assert tail[i] == ps[i + 1] && tail[j] == ps[j + 1];
    }
    forall p | p in tail
      ensures p.id != ps[0].id
    {
      var m :| 0 <= m < |tail| && tail[m] == p;
      assert tail[m] == ps[m + 1];
    }
  }

  /** Prefixing an entry to distinct entries taken from a list that never
      repeats its id keeps them distinct. */
  lemma ConsKeepsDistinct(p: Player, w: seq<Player>, from: seq<Player>)
    requires Distinct(w) && (forall q :: q in w ==> q in from) && (forall q :: q in from ==> q.id != p.id)
    ensures Distinct([p] + w)
  {
    var r := [p] + w;
    forall i, j | 0 <= i < j < |r|
      ensures r[i].id != r[j].id
    {
      if i == 0 {
        assert r[j] == w[j - 1];
        assert r[j] in from;
      } else {
        assert r[i] == w[i - 1] && r[j] == w[j - 1];
      }
    }
  }

  /** The invariant of a room: at most two players with distinct ids, a
      turn index in {0, 1}, lives within [0, 100], the wheel never spinning
      while a question is open, and an open question always present. */
  predicate Valid(r: Room)
  {
    && |r.players| <= Capacity
    && Distinct(r.players)
    && 0 <= r.turn.active <= 1
    && (forall i :: 0 <= i < |r.players| ==> r.players[i].maxVida == FullLife && 0 <= r.players[i].vida <= FullLife)
    && !(r.turn.spinning && r.turn.questionActive)
    && (r.turn.questionActive ==> r.turn.question.Some?)
  }

  lemma NewRoomValid(code: string, createdAt: int)
    ensures Valid(NewRoom(code, createdAt))
  {
  }

  // ---------------------------------------------------------------------
  // Joining and configuring

  /** Result of `addPlayer`. */
  datatype Admission = Admitted | RoomFull | AlreadyStarted

  datatype AddReply = AddReply(room: Room, status: Admission)

  /** `addPlayer(socket, playerNumber)`: refused when two players are in
      (first) or the game has started; otherwise the fresh record is put
      under the socket id. */
  function AddPlayer(r: Room, id: string, number: int, joinedAt: int): (a: AddReply)
    ensures a.status == RoomFull <==> |r.players| >= Capacity
    ensures a.status == AlreadyStarted <==> |r.players| < Capacity && r.started
    ensures a.status != Admitted ==> a.room == r
    ensures a.status == Admitted ==> a.room == r.(players := Put(r.players, NewPlayer(id, number, joinedAt)))
  {
    if |r.players| >= Capacity then AddReply(r, RoomFull)
    else if r.started then AddReply(r, AlreadyStarted)
    else AddReply(r.(players := Put(r.players, NewPlayer(id, number, joinedAt))), Admitted)
  }

  /** Admission keeps the invariant: in particular never more than two
      players. */
  lemma AddPlayerKeepsValid(r: Room, id: string, number: int, joinedAt: int)
    requires Valid(r)
    ensures Valid(AddPlayer(r, id, number, joinedAt).room)
    ensures AddPlayer(r, id, number, joinedAt).status == Admitted ==>
      |AddPlayer(r, id, number, joinedAt).room.players| <= |r.players| + 1
  {
    PutKeepsDistinct(r.players, NewPlayer(id, number, joinedAt));
  }

  /** Both players present and configured. */
  predicate AllReady(ps: seq<Player>)
  {
    |ps| == Capacity && forall i :: 0 <= i < |ps| ==> ps[i].ready
  }

  datatype Configured = Configured(room: Room, scheduleStart: bool)

  /** `configurePlayer(socketId, data)`: store name, avatar and topics, mark
      the player ready, and schedule the start when both players are ready
      and the game has not started. Unknown sockets are ignored. */
  function Configure(r: Room, id: string, nombre: string, avatar: string, topics: seq<string>): (c: Configured)
    ensures Find(r.players, id).None? ==> c.room == r && !c.scheduleStart
    ensures Find(r.players, id).Some? ==>
      var k := Find(r.players, id).value;
      c.room == r.(players := r.players[k := r.players[k].(nombre := nombre, avatar := avatar, topics := topics, ready := true)])
    ensures c.scheduleStart <==> Find(r.players, id).Some? && AllReady(c.room.players) && !r.started
  {
    match Find(r.players, id)
    case None => Configured(r, false)
    case Some(k) =>
      var ps := r.players[k := r.players[k].(nombre := nombre, avatar := avatar, topics := topics, ready := true)];
      Configured(r.(players := ps), AllReady(ps) && !r.started)
  }

  /** Configuring changes no id, life or turn state. */
  lemma ConfigureKeepsValid(r: Room, id: string, nombre: string, avatar: string, topics: seq<string>)
    requires Valid(r)
    ensures Valid(Configure(r, id, nombre, avatar, topics).room)
  {
    var c := Configure(r, id, nombre, avatar, topics);
    if Find(r.players, id).Some? {
      var k := Find(r.players, id).value;
      assert forall i :: 0 <= i < |r.players| ==> c.room.players[i].id == r.players[i].id;
    }
  }

  // ---------------------------------------------------------------------
  // Starting

  /** `startGame()`: a no-op unless the game has not started and exactly
      two players are in. Then the topics in play become the
      order-preserving union of both players' topics, in round 1 with
      player 0 to spin and nothing spinning or open. The second-chance
      flag, the topic and the question are not reset. */
  function StartGame(r: Room): (s: Room)
    ensures r.started || |r.players| != Capacity ==> s == r
    ensures !r.started && |r.players| == Capacity ==>
      && s.started
      && s.turn.topics == Dedup(r.players[0].topics + r.players[1].topics)
      && s.turn.round == 1 && s.turn.active == 0
      && !s.turn.spinning && !s.turn.questionActive && s.turn.origin.None?
      && s.turn.secondChance == r.turn.secondChance
      && s.turn.topic == r.turn.topic && s.turn.question == r.turn.question
      && s.players == r.players && s.code == r.code && s.createdAt == r.createdAt
  {
    if r.started || |r.players| != Capacity then r
    else
      var topics := Dedup(r.players[0].topics + r.players[1].topics);
      r.(started := true, turn := r.turn.(topics := topics, round := 1, active := 0,
                                          spinning := false, questionActive := false, origin := None))
  }

  /** Starting twice is starting once, and a started room keeps the
      invariant with every topic of both players on the wheel, each once. */
  lemma StartGameIdempotent(r: Room)
    requires Valid(r)
    ensures StartGame(StartGame(r)) == StartGame(r)
    ensures Valid(StartGame(r))
    ensures !r.started && |r.players| == Capacity ==>
      && NoDup(StartGame(r).turn.topics)
      && forall x :: x in StartGame(r).turn.topics <==> x in r.players[0].topics || x in r.players[1].topics
  {
  }

  // ---------------------------------------------------------------------
  // Spinning and selecting

  /** What the sender of a refused event is told (`error-message`), or
      nothing. */
  datatype Notice = Quiet | NotYourTurn | AlreadySpinning | AnswerFirst

  datatype SpinReply = SpinReply(room: Room, bank: Option<seq<Question>>, notice: Notice)

  /** Why `spinWheel` refuses a player, checked in this order. */
  function SpinRefusal(r: Room, id: string): (n: Option<Notice>)
    ensures n == Some(Quiet) <==> Find(r.players, id).None?
  {
    match Find(r.players, id)
    case None => Some(Quiet)
    case Some(k) =>
      if r.players[k].number != r.turn.active then Some(NotYourTurn)
      else if r.turn.spinning then Some(AlreadySpinning)
      else if r.turn.questionActive then Some(AnswerFirst)
      else None
  }

  /** `spinWheel(socketId)` with the wheel landing on `roll` and the
      question draw `pick`: unknown senders are ignored, and a player whose
      number is not the turn, a spinning wheel or an open question get an
      error and change nothing. Otherwise the wheel spins, the turn's
      original player is recorded, the topic is the one under the wheel, and
      a question of it is selected. Neither the lives nor whether the game
      has started are checked. */
  function Spin(r: Room, bank: Option<seq<Question>>, id: string, roll: nat, pick: nat): (s: SpinReply)
    requires roll < Max(1, |r.turn.topics|)
    requires PickInRange(bank, Spun(r.turn.topics, roll), pick)
    ensures SpinRefusal(r, id).Some? ==> s == SpinReply(r, bank, SpinRefusal(r, id).value)
    ensures SpinRefusal(r, id).None? ==>
      && s.notice == Quiet
      && s.room.players == r.players && s.room.started == r.started
      && s.room.turn.spinning && !s.room.turn.questionActive
      && s.room.turn.origin == Some(r.turn.active)
      && s.room.turn.topic == Spun(r.turn.topics, roll)
      && s.room.turn.(question := r.turn.question, spinning := false, origin := r.turn.origin, topic := r.turn.topic) == r.turn
      && s.room.turn.question == Draw(bank, Spun(r.turn.topics, roll), pick, r.turn.question).question
      && s.bank == Draw(bank, Spun(r.turn.topics, roll), pick, r.turn.question).bank
      && s.room.code == r.code && s.room.createdAt == r.createdAt
  {
    match SpinRefusal(r, id)
    case Some(n) => SpinReply(r, bank, n)
    case None =>
      var topic := Spun(r.turn.topics, roll);
      var d := Draw(bank, topic, pick, r.turn.question);
      var t := r.turn.(spinning := true, origin := Some(r.turn.active), topic := topic, question := d.question);
      SpinReply(r.(turn := t), d.bank, Quiet)
  }

  /** A successful spin by the player whose turn it is puts a fresh
      question of the wheel's topic in play (marked used in the bank)
      whenever the bank has one of that topic; a spin before the start or
      with no bank leaves no question. */
  lemma SpinServesTopic(r: Room, bank: Option<seq<Question>>, id: string, roll: nat, pick: nat)
    requires roll < Max(1, |r.turn.topics|)
    requires PickInRange(bank, Spun(r.turn.topics, roll), pick)
    requires SpinRefusal(r, id).None?
    ensures var s := Spin(r, bank, id, roll, pick);
      && (bank.Some? && (exists i :: 0 <= i < |bank.value| && OnTopic(bank.value[i], Spun(r.turn.topics, roll)))
          ==> s.room.turn.question.Some? && s.room.turn.topic.Some?
              && s.room.turn.question.value.topic == s.room.turn.topic.value
              && s.room.turn.question.value.used
              && s.room.turn.question.value in s.bank.value)
      && (r.turn.topics == [] ==> s.room.turn.topic.None? && s.room.turn.question == r.turn.question)
  {
    if bank.Some? {
      var sel := Select(bank.value, Spun(r.turn.topics, roll), pick);
      if sel.chosen.Some? {
        assert sel.chosen.value < |sel.bank|;
      }
    }
  }

  /** The 4-second callback after a spin: the wheel stops and the question
      opens, unless there is none, in which case it closes again. */
  function AnimationDone(r: Room): (s: Room)
    ensures !s.turn.spinning
    ensures s.turn.questionActive <==> r.turn.question.Some?
    ensures s.turn.(spinning := r.turn.spinning, questionActive := r.turn.questionActive) == r.turn
    ensures s.(turn := r.turn) == r
  {
    r.(turn := r.turn.(spinning := false, questionActive := r.turn.question.Some?))
  }

  /** A spin, its animation and the selection keep the invariant. */
  lemma SpinKeepsValid(r: Room, bank: Option<seq<Question>>, id: string, roll: nat, pick: nat)
    requires Valid(r)
    requires roll < Max(1, |r.turn.topics|)
    requires PickInRange(bank, Spun(r.turn.topics, roll), pick)
    ensures Valid(Spin(r, bank, id, roll, pick).room)
    ensures Valid(AnimationDone(r))
  {
  }

  // ---------------------------------------------------------------------
  // Answers, timeouts, turns

  /** Game over: somebody is at zero. */
  predicate GameOver(r: Room)
  {
    exists i :: 0 <= i < |r.players| && r.players[i].vida <= 0
  }

  /** `find(p => p.vida > 0)`: the first player still alive. */
  function Winner(ps: seq<Player>): (w: Option<nat>)
    ensures w.None? <==> forall i :: 0 <= i < |ps| ==> ps[i].vida <= 0
    ensures w.Some? ==> w.value < |ps| && ps[w.value].vida > 0
    ensures w.Some? ==> forall i :: 0 <= i < w.value ==> ps[i].vida <= 0
  {
    FirstWhere(ps, (p: Player) => p.vida > 0)
  }

  /** Player i takes `damage`, floored at zero. */
  function Hurt(r: Room, i: nat, damage: int): (s: Room)
    requires i < |r.players|
    ensures |s.players| == |r.players|
    ensures s.players[i] == r.players[i].(vida := ApplyDamage(r.players[i].vida, damage))
    ensures forall j :: 0 <= j < |r.players| && j != i ==> s.players[j] == r.players[j]
    ensures s.(players := r.players) == r
  {
    r.(players := r.players[i := r.players[i].(vida := ApplyDamage(r.players[i].vida, damage))])
  }

  lemma HurtKeepsValid(r: Room, i: nat, damage: int)
    requires Valid(r) && i < |r.players| && damage >= 0
    ensures Valid(Hurt(r, i, damage))
  {
    var s := Hurt(r, i, damage);
    ApplyDamageBounds(r.players[i].vida, damage);
    assert forall j :: 0 <= j < |r.players| ==> s.players[j].id == r.players[j].id;
  }

  /** The round-end report of a processed result:
      `some(p => p.vida <= 0)`, then `find(p => p.vida > 0)` when the game
      is over, and the 3-second `nextTurn` timer only when it is not. */
  function Settled(r: Room): (e: RoundEnd)
    ensures e.gameOver <==> GameOver(r)
    ensures e.scheduleNext <==> !GameOver(r)
    ensures e.winner == (if GameOver(r) then Winner(r.players) else None)
  {
    var over := GameOver(r);
    RoundEnd(over, if over then Winner(r.players) else None, !over)
  }

  datatype AnswerReply = AnswerReply(outcome: Outcome<Room>, notice: Notice, end: RoundEnd)

  /** `answerQuestion` accepts the answer: a known player whose number is
      the turn, with a question open. */
  predicate AnswerAccepted(r: Room, id: string)
  {
    && Find(r.players, id).Some?
    && r.players[Find(r.players, id).value].number == r.turn.active
    && r.turn.questionActive && r.turn.question.Some?
  }

  /** `answerQuestion(socketId, choiceIdx)` and `processAnswer`: a correct
      answer (`choiceIdx === respuesta`) costs the first other player
      `round(15 * factor)`, a wrong one costs the answerer
      `round(8 * factor)`; then the question is closed and cleared. The
      result reports game over when somebody is at zero, with the first
      player still alive as the winner, and schedules the next turn only
      when the game is not over. With no other player in the room, a
      correct answer reads `.vida` of `undefined` and throws after closing
      the question, before anything is reported or scheduled. */
  function Answer(r: Room, id: string, choice: int): (a: AnswerReply)
    ensures Find(r.players, id).None? ==> a == AnswerReply(Ok(r), Quiet, NoRoundEnd)
    ensures Find(r.players, id).Some? && r.players[Find(r.players, id).value].number != r.turn.active ==>
      a == AnswerReply(Ok(r), NotYourTurn, NoRoundEnd)
    ensures (Find(r.players, id).Some? && r.players[Find(r.players, id).value].number == r.turn.active
      && !AnswerAccepted(r, id)) ==> a == AnswerReply(Ok(r), Quiet, NoRoundEnd)
    ensures a.end.gameOver <==> AnswerAccepted(r, id) && a.outcome.Ok? && GameOver(a.outcome.state)
    ensures a.end.scheduleNext <==> AnswerAccepted(r, id) && a.outcome.Ok? && !GameOver(a.outcome.state)
    ensures a.end.winner == (if a.end.gameOver then Winner(a.outcome.state.players) else None)
    ensures AnswerAccepted(r, id) ==>
      && a.notice == Quiet
      && !a.outcome.state.turn.questionActive
      && (a.outcome.Threw? <==> choice == r.turn.question.value.answer && FirstOther(r.players, id).None?)
      && (a.outcome.Ok? ==> a.outcome.state.turn.question.None?)
      && a.outcome.state.turn.(questionActive := true, question := r.turn.question) == r.turn
      && |a.outcome.state.players| == |r.players|
  {
    match Find(r.players, id)
    case None => AnswerReply(Ok(r), Quiet, NoRoundEnd)
    case Some(k) =>
      if r.players[k].number != r.turn.active then AnswerReply(Ok(r), NotYourTurn, NoRoundEnd)
      else if !r.turn.questionActive || r.turn.question.None? then AnswerReply(Ok(r), Quiet, NoRoundEnd)
      else
        var q := r.turn.question.value;
        var f := FactorOf(r.turn.secondChance);
        var closed := r.(turn := r.turn.(questionActive := false));
        if choice == q.answer then
          match FirstOther(r.players, id)
          case None => AnswerReply(Threw(closed), Quiet, NoRoundEnd)
          case Some(j) =>
            var s := Cleared(Hurt(closed, j, Scale(15, f)));
            AnswerReply(Ok(s), Quiet, Settled(s))
        else
          var s := Cleared(Hurt(closed, k, Scale(8, f)));
          AnswerReply(Ok(s), Quiet, Settled(s))
  }

  /** The question state after a processed answer. */
  function Cleared(r: Room): (s: Room)
    ensures !s.turn.questionActive && s.turn.question.None?
    ensures s.turn.(questionActive := r.turn.questionActive, question := r.turn.question) == r.turn
    ensures s.(turn := r.turn) == r
  {
    r.(turn := r.turn.(questionActive := false, question := None))
  }

  /** Who pays for an accepted answer: in a full room a correct answer
      costs the other player 15 (8 on a second chance), a wrong one costs
      the answerer 8 (4 on a second chance); nobody else changes. */
  lemma AnswerDamageRule(r: Room, id: string, choice: int)
    requires Valid(r) && |r.players| == Capacity && AnswerAccepted(r, id)
    ensures var k := Find(r.players, id).value;
      var s := Answer(r, id, choice).outcome;
      var correct := choice == r.turn.question.value.answer;
      var target := if correct then 1 - k else k;
      var damage := if correct then (if r.turn.secondChance then 8 else 15)
                    else (if r.turn.secondChance then 4 else 8);
      && s.Ok?
      && s.state.players[target].vida == ApplyDamage(r.players[target].vida, damage)
      && s.state.players[1 - target] == r.players[1 - target]
  {
    AnswerHurts(r, id, choice);
  }

  /** An accepted answer in a full room closes the question and hurts
      exactly one of the two players. */
  lemma AnswerHurts(r: Room, id: string, choice: int)
    requires Valid(r) && |r.players| == Capacity && AnswerAccepted(r, id)
    ensures var k := Find(r.players, id).value;
      var correct := choice == r.turn.question.value.answer;
      var sc := r.turn.secondChance;
      var closed := r.(turn := r.turn.(questionActive := false));
      var s := Cleared(Hurt(closed, if correct then 1 - k else k,
                            if correct then (if sc then 8 else 15) else (if sc then 4 else 8)));
      Answer(r, id, choice) == AnswerReply(Ok(s), Quiet, Settled(s))
  {
    var k := Find(r.players, id).value;
    FlagDamages(r.turn.secondChance);
    assert FirstOther(r.players, id) == Some(1 - k) by {
      assert r.players[1 - k].id != id;
    }
  }

  /** A full room with one player alive: the game is over exactly when the
      other is at zero, and then the living one is the winner. */
  lemma TwoPlayersEnd(r: Room, target: nat)
    requires |r.players| == Capacity && target < 2 && r.players[1 - target].vida > 0
    ensures GameOver(r) <==> r.players[target].vida <= 0
    ensures GameOver(r) ==> Winner(r.players) == Some(1 - target)
  {
    if r.players[target].vida <= 0 {
      if target == 1 {
        assert r.players[0].vida > 0;
      } else {
        assert r.players[0].vida <= 0;
      }
    } else {
      assert !GameOver(r) by {
        forall i | 0 <= i < |r.players|
          ensures r.players[i].vida > 0
        {
          if i != target {
            assert i == 1 - target;
          }
        }
      }
    }
  }

  /** How an accepted answer in a full room decides the game, starting
      from a game nobody has lost yet: it ends exactly when the hurt player's
      life does not exceed the damage, the winner is then the other player,
      and the next turn is scheduled exactly when it does not end. */
  lemma AnswerDecidesGame(r: Room, id: string, choice: int)
    requires Valid(r) && |r.players| == Capacity && AnswerAccepted(r, id) && !GameOver(r)
    ensures var k := Find(r.players, id).value;
      var a := Answer(r, id, choice);
      var correct := choice == r.turn.question.value.answer;
      var target := if correct then 1 - k else k;
      var damage := if correct then (if r.turn.secondChance then 8 else 15)
                    else (if r.turn.secondChance then 4 else 8);
      && a.outcome.Ok?
      && (a.end.gameOver <==> r.players[target].vida <= damage)
      && (a.end.gameOver ==> a.end.winner == Some(1 - target))
      && (a.end.scheduleNext <==> !a.end.gameOver)
  {
    AnswerDamageRule(r, id, choice);
    AnswerHurts(r, id, choice);
    var k := Find(r.players, id).value;
    var s := Answer(r, id, choice).outcome.state;
    var correct := choice == r.turn.question.value.answer;
    var target := if correct then 1 - k else k;
    var damage := if correct then (if r.turn.secondChance then 8 else 15)
                  else (if r.turn.secondChance then 4 else 8);
    ApplyDamageBounds(r.players[target].vida, damage);
    assert r.players[1 - target].vida > 0;
    TwoPlayersEnd(s, target);
  }

  /** Once an answer has been processed the question is closed, so a
      repeated answer, by anybody, changes nothing. */
  lemma AnswerTwiceIsNoop(r: Room, id: string, choice: int, id2: string, choice2: int)
    requires AnswerAccepted(r, id) && Answer(r, id, choice).outcome.Ok?
    ensures var s := Answer(r, id, choice).outcome.state;
      Answer(s, id2, choice2).outcome == Ok(s)
  {
  }

  lemma AnswerKeepsValid(r: Room, id: string, choice: int)
    requires Valid(r)
    ensures Valid(Answer(r, id, choice).outcome.state)
  {
    if AnswerAccepted(r, id) {
      var k := Find(r.players, id).value;
      var closed := r.(turn := r.turn.(questionActive := false));
      var sc := r.turn.secondChance;
      FlagDamages(sc);
      assert Valid(closed);
      if choice == r.turn.question.value.answer {
        match FirstOther(r.players, id)
        case None =>
          assert Answer(r, id, choice).outcome.state == closed;
        case Some(j) =>
          HurtKeepsValid(closed, j, if sc then 8 else 15);
          assert Answer(r, id, choice).outcome.state == Cleared(Hurt(closed, j, if sc then 8 else 15));
      } else {
        HurtKeepsValid(closed, k, if sc then 4 else 8);
        assert Answer(r, id, choice).outcome.state == Cleared(Hurt(closed, k, if sc then 4 else 8));
      }
    }
  }

  /** `handleTimeout` accepts the timeout: a known player whose number is
      the turn, with a question open. */
  predicate TimeoutAccepted(r: Room, id: string)
  {
    && Find(r.players, id).Some?
    && r.players[Find(r.players, id).value].number == r.turn.active
    && r.turn.questionActive
  }

  /** `handleTimeout(socketId)` and `processTimeout`: ignored unless
      accepted. The question closes and the flag is toggled BEFORE the
      factor is read, so a first timeout costs `playersArray[active]`
      round(5 * 0.5) = 3, passes the turn and reopens the question, and a
      second costs 5 and keeps the turn; the round never changes. Only the
      second timeout reports the round's end: game over when somebody is at
      zero, the first player alive as the winner, and the next turn
      scheduled only when the game is not over. A first timeout that brings
      a player to zero does not end the game. An index with no player
      behind it throws: the timed-out player's `.vida`, or on a first
      timeout the new player's name in the message. */
  function Timeout(r: Room, id: string): (t: Ended<Room>)
    ensures !TimeoutAccepted(r, id) ==> t == Ended(Ok(r), NoRoundEnd)
    ensures TimeoutAccepted(r, id) ==>
      && t.outcome.state.turn.secondChance == !r.turn.secondChance
      && t.outcome.state.turn.round == r.turn.round
      && t.outcome.state.turn.question == r.turn.question && t.outcome.state.turn.topic == r.turn.topic
      && |t.outcome.state.players| == |r.players|
      && (t.outcome.Ok? <==> 0 <= r.turn.active < |r.players| && (r.turn.secondChance || 0 <= 1 - r.turn.active < |r.players|))
    ensures t.end.gameOver <==>
      TimeoutAccepted(r, id) && r.turn.secondChance && t.outcome.Ok? && GameOver(t.outcome.state)
    ensures t.end.scheduleNext <==>
      TimeoutAccepted(r, id) && r.turn.secondChance && t.outcome.Ok? && !GameOver(t.outcome.state)
    ensures t.end.winner == (if t.end.gameOver then Winner(t.outcome.state.players) else None)
  {
    if !TimeoutAccepted(r, id) then Ended(Ok(r), NoRoundEnd)
    else
      var a := r.turn.active;
      var flipped := !r.turn.secondChance;
      var closed := r.(turn := r.turn.(questionActive := false, secondChance := flipped));
      var damage := Scale(5, FactorOf(flipped));
      if !(0 <= a < |r.players|) then Ended(Threw(closed), NoRoundEnd)
      else
        var hit := Hurt(closed, a, damage);
        if flipped then
          var s := hit.(turn := hit.turn.(active := 1 - a, questionActive := true));
          if 0 <= 1 - a < |r.players| then Ended(Ok(s), NoRoundEnd) else Ended(Threw(s), NoRoundEnd)
        else Ended(Ok(hit), Settled(hit))
  }

  /** The timeout rule in a full room: a first timeout costs the timed-out
      player 3 and hands the same open question to the other player with the
      flag set, reporting nothing; a second costs 5, clears the flag, closes
      the question and keeps the turn. */
  lemma TimeoutRule(r: Room, id: string)
    requires Valid(r) && |r.players| == Capacity && TimeoutAccepted(r, id)
    ensures var t := Timeout(r, id);
      var s := t.outcome;
      var a := r.turn.active;
      && s.Ok?
      && s.state.players[1 - a] == r.players[1 - a]
      && (!r.turn.secondChance ==>
            && s.state.players[a].vida == ApplyDamage(r.players[a].vida, 3)
            && s.state.turn.active == 1 - a && s.state.turn.questionActive && s.state.turn.secondChance
            && t.end == NoRoundEnd)
      && (r.turn.secondChance ==>
            && s.state.players[a].vida == ApplyDamage(r.players[a].vida, 5)
            && s.state.turn.active == a && !s.state.turn.questionActive && !s.state.turn.secondChance)
  {
    FlagDamages(!r.turn.secondChance);
  }

  /** How a second timeout in a full room decides the game, starting from a
      game nobody has lost yet: it ends exactly when the timed-out player has
      at most 5 life left, the winner is then the other player, and the next
      turn is scheduled exactly when it does not end. */
  lemma TimeoutDecidesGame(r: Room, id: string)
    requires Valid(r) && |r.players| == Capacity && TimeoutAccepted(r, id) && r.turn.secondChance && !GameOver(r)
    ensures var t := Timeout(r, id);
      var a := r.turn.active;
      && t.outcome.Ok?
      && (t.end.gameOver <==> r.players[a].vida <= 5)
      && (t.end.gameOver ==> t.end.winner == Some(1 - a))
      && (t.end.scheduleNext <==> !t.end.gameOver)
  {
    TimeoutRule(r, id);
    var a := r.turn.active;
    var s := Timeout(r, id).outcome.state;
    ApplyDamageBounds(r.players[a].vida, 5);
    assert r.players[1 - a].vida > 0;
    TwoPlayersEnd(s, a);
  }

  lemma TimeoutKeepsValid(r: Room, id: string)
    requires Valid(r)
    ensures Valid(Timeout(r, id).outcome.state)
  {
    if TimeoutAccepted(r, id) {
      var a := r.turn.active;
      var flipped := !r.turn.secondChance;
      var closed := r.(turn := r.turn.(questionActive := false, secondChance := flipped));
      FlagDamages(flipped);
      assert Valid(closed);
      if 0 <= a < |r.players| {
        HurtKeepsValid(closed, a, if flipped then 3 else 5);
      }
    }
  }

  /** `nextTurn()`: clear the flag, pass the turn, advance the round by one,
      and clear topic, question, wheel, open question and original player;
      the message then reads the new player's name, which throws when the
      index has no player behind it. */
  function NextTurn(r: Room): (o: Outcome<Room>)
    ensures o.Ok? <==> 0 <= 1 - r.turn.active < |r.players|
    ensures !o.state.turn.secondChance
    ensures o.state.turn.active == 1 - r.turn.active
    ensures o.state.turn.round == r.turn.round + 1
    ensures o.state.turn.question.None? && o.state.turn.topic.None? && o.state.turn.origin.None?
    ensures !o.state.turn.spinning && !o.state.turn.questionActive
    ensures o.state.turn.topics == r.turn.topics
    ensures o.state.(turn := r.turn) == r
  {
    var s := r.(turn := Turn(r.turn.round + 1, 1 - r.turn.active, false, r.turn.topics, None, None, false, false, None));
    if 0 <= s.turn.active < |s.players| then Ok(s) else Threw(s)
  }

  /** Two next turns bring the turn back to the same player, two rounds on. */
  lemma NextTurnTwice(r: Room)
    requires Valid(r)
    ensures Valid(NextTurn(r).state)
    ensures NextTurn(NextTurn(r).state).state.turn.active == r.turn.active
    ensures NextTurn(NextTurn(r).state).state.turn.round == r.turn.round + 2
  {
  }

  /** `handlePlayerDisconnection(socketId)`: drop the player; unknown ids
      are ignored. The turn state is left as it is. */
  function Disconnect(r: Room, id: string): (s: Room)
    ensures Find(r.players, id).None? ==> s == r
    ensures s.players == Without(r.players, id)
    ensures s.(players := r.players) == r
  {
    match Find(r.players, id)
    case None => r
    case Some(_) => r.(players := Without(r.players, id))
  }

  lemma DisconnectKeepsValid(r: Room, id: string)
    requires Valid(r)
    ensures Valid(Disconnect(r, id))
    ensures |Disconnect(r, id).players| == |r.players| - (if Find(r.players, id).Some? then 1 else 0)
    ensures Find(Disconnect(r, id).players, id).None?
  {
    WithoutRemovesOne(r.players, id);
    var s := Disconnect(r, id);
    forall i | 0 <= i < |s.players|
      ensures s.players[i].maxVida == FullLife && 0 <= s.players[i].vida <= FullLife
    {
      var p := s.players[i];
      assert p in r.players;
    }
  }
}

=== FILE: hotseat.dfy ===
/** The single-machine controller of v2.1 (`js/control.js`): two players
    share one screen; the wheel picks a topic, a question is asked against a
    countdown, and a correct answer earns a time bonus.

    Each exported handler is a pure function on the `juego`. UI calls are
    dropped; the continuation that the source runs in the UI's "result
    shown" callback (flip and next round after an answer, next round after a
    final timeout) is folded into the handler, since nothing else can run in
    between. Starting the first turn (`nextTurn()` at the end of
    `startGame`) is the separate step `NextTurn`. */
module HotSeat {
  import opened Common
  import opened Rounding
  import opened Topics
  import opened QuestionBank
  import opened Models

  /** What the setup screen hands to `startGame` for one player. */
  datatype Setup = Setup(nombre: string, avatar: string, topics: seq<string>)

  /** `startGame` either shows the game or logs the caught error. */
  datatype Start = Aborted | Ready(game: Juego)

  /** The game as built by `startGame`, before validation. */
  function Built(p0: Setup, p1: Setup, raw: seq<Question>): Juego
  {
    var players := [NewJugador(p0.nombre, p0.avatar, p0.topics), NewJugador(p1.nombre, p1.avatar, p1.topics)];
    var questions := seq(|raw|, i requires 0 <= i < |raw| => NewPregunta(raw[i]));
    NewJuego(players, questions).(topicsEnJuego := Dedup(p0.topics + p1.topics))
  }

  /** `startGame(rawPlayers)`: build the players (full life), fresh
      questions, and the topics in play as the order-preserving union of
      both players' topics; any topic missing from the metadata list `temas`
      aborts the start (the error is caught and logged). */
  function StartGame(p0: Setup, p1: Setup, raw: seq<Question>, temas: seq<string>): (r: Start)
    ensures r.Ready? <==> forall x :: x in p0.topics + p1.topics ==> x in temas
    ensures r.Ready? ==>
      && Valid(r.game)
      && r.game.active == 0 && r.game.round == 1 && !r.game.secondChance
      && r.game.topicsEnJuego == Dedup(p0.topics + p1.topics)
      && r.game.jugadores[0].topics == p0.topics && r.game.jugadores[1].topics == p1.topics
      && r.game.jugadores[0].vida == MaxLife && r.game.jugadores[1].vida == MaxLife
      && |r.game.preguntas| == |raw|
      && (forall i :: 0 <= i < |raw| ==> r.game.preguntas[i] == raw[i].(used := false))
      && r.game.currentQuestion.None?
  {
    var g := Built(p0, p1, raw);
    if forall x :: x in g.topicsEnJuego ==> x in temas then Ready(g) else Aborted
  }

  /** `nextTurn()`: spin to topic `roll`, select a question of it (random
      unused one with index `pick`, or after a reset the first one), mark it
      used and make it current. The turn banner reads the current player's
      name first, which throws when `active` is out of range. When the topic
      has no question, `currentQuestion` becomes `resetQuestions[0]`, that
      is `undefined`, and reading its `.used` throws. */
  function NextTurn(g: Juego, roll: nat, pick: nat): (r: Outcome<Juego>)
    requires roll < Max(1, |g.topicsEnJuego|)
    requires |Available(g.preguntas, Spun(g.topicsEnJuego, roll))| == 0
          || pick < |Available(g.preguntas, Spun(g.topicsEnJuego, roll))|
    ensures r.Ok? <==> (0 <= g.active < |g.jugadores|
      && exists i :: 0 <= i < |g.preguntas| && OnTopic(g.preguntas[i], Spun(g.topicsEnJuego, roll)))
    ensures !(0 <= g.active < |g.jugadores|) ==> r == Threw(g)
    ensures 0 <= g.active < |g.jugadores| ==> r.state.currentTopic == Spun(g.topicsEnJuego, roll)
    ensures r.Threw? && 0 <= g.active < |g.jugadores| ==>
      r.state.currentQuestion.None? && r.state.preguntas == g.preguntas
    ensures r.Ok? && |Available(g.preguntas, Spun(g.topicsEnJuego, roll))| > 0 ==>
      var k := Available(g.preguntas, Spun(g.topicsEnJuego, roll))[pick];
      && !g.preguntas[k].used
      && r.state.preguntas == MarkUsed(g.preguntas, k)
      && r.state.currentQuestion == Some(g.preguntas[k].(used := true))
    ensures r.Ok? && |Available(g.preguntas, Spun(g.topicsEnJuego, roll))| == 0 ==>
      var t := Spun(g.topicsEnJuego, roll);
      |OfTopic(g.preguntas, t)| > 0 &&
      var k := OfTopic(g.preguntas, t)[0];
      && r.state.preguntas == MarkUsed(ResetTopic(g.preguntas, t), k)
      && r.state.currentQuestion == Some(g.preguntas[k].(used := true))
    ensures r.Ok? ==>
      && r.state.currentTopic.Some?
      && r.state.currentQuestion.Some?
      && r.state.currentQuestion.value.topic == r.state.currentTopic.value
      && r.state.currentQuestion.value in r.state.preguntas
    ensures |r.state.preguntas| == |g.preguntas|
    ensures r.state.jugadores == g.jugadores && r.state.active == g.active
    ensures r.state.round == g.round && r.state.secondChance == g.secondChance
    ensures r.state.topicsEnJuego == g.topicsEnJuego
  {
    var topic := Spun(g.topicsEnJuego, roll);
    var sel := SelectLocal(g.preguntas, topic, pick);
    var h := g.(currentTopic := topic);
    if !(0 <= g.active < |g.jugadores|) then Threw(g)
    else match sel.chosen
    case None => Threw(h.(currentQuestion := None))
    case Some(k) =>
      assert |sel.bank| == |g.preguntas|;
      Ok(h.(preguntas := sel.bank, currentQuestion := Some(sel.bank[k])))
  }

  /** While the spun topic still has unused questions, a turn serves one of
      them and removes exactly it from the unused pool, so no question comes
      back before every question of its topic has been asked. */
  lemma NextTurnServesUnused(g: Juego, roll: nat, pick: nat)
    requires roll < Max(1, |g.topicsEnJuego|)
    requires 0 <= g.active < |g.jugadores|
    requires pick < |Available(g.preguntas, Spun(g.topicsEnJuego, roll))|
    ensures var t := Spun(g.topicsEnJuego, roll);
      var r := NextTurn(g, roll, pick);
      && r.Ok?
      && |Available(r.state.preguntas, t)| == |Available(g.preguntas, t)| - 1
      && Available(g.preguntas, t)[pick] !in Available(r.state.preguntas, t)
      && r.state.currentQuestion.value == r.state.preguntas[Available(g.preguntas, t)[pick]]
  {
    var t := Spun(g.topicsEnJuego, roll);
    var k := Available(g.preguntas, t)[pick];
    assert OnTopic(g.preguntas[k], t);
    MarkUsedDropsOne(g.preguntas, t, k, |g.preguntas|);
  }

  /** `startTimer()`: the countdown starts at `getMaxTime()`. */
  function StartTimer(g: Juego): (r: Outcome<Juego>)
    ensures r.Ok? <==> g.currentQuestion.Some?
    ensures r.Ok? ==> r.state.timer == MaxTime(g.currentQuestion.value.difficulty) && r.state.timer >= 10
    ensures r.state.(timer := g.timer) == g
  {
    match GameMaxTime(g)
    case None => Threw(g)
    case Some(m) => Ok(g.(timer := m))
  }

  /** One tick of the interval; `expired` means `handleTimeout()` is called. */
  datatype Tick = Tick(game: Juego, expired: bool)

  /** The `setInterval` body: decrement, and stop once the timer is <= 0. */
  function TickOnce(g: Juego): (t: Tick)
    ensures t.game.timer == g.timer - 1
    ensures t.expired <==> t.game.timer <= 0
    ensures t.game.(timer := g.timer) == g
  {
    var h := g.(timer := g.timer - 1);
    Tick(h, h.timer <= 0)
  }

  /** The timer after k ticks of a running countdown (the interval is
      cleared by the tick that expires). */
  function Countdown(g: Juego, k: nat): Juego
    decreases k
  {
    if k == 0 then g else Countdown(TickOnce(g).game, k - 1)
  }

  /** A countdown started at m >= 1 runs m ticks: none of the first m - 1
      expires, and the m-th does, so `handleTimeout` runs exactly once, m
      seconds after the question is shown. */
  lemma {:induction false} CountdownExpiresAfterBudget(g: Juego, k: nat)
    requires g.timer >= 1 && k <= g.timer
    ensures Countdown(g, k).timer == g.timer - k
    ensures Countdown(g, k).(timer := g.timer) == g
    ensures k < g.timer - 1 ==> !TickOnce(Countdown(g, k)).expired
    ensures k == g.timer - 1 ==> TickOnce(Countdown(g, k)).expired
    decreases k
  {
    if k > 0 {
      var h := TickOnce(g).game;
      if h.timer >= 1 {
        CountdownExpiresAfterBudget(h, k - 1);
      } else {
        assert k == 1;
      }
    }
  }

  /** `handleAnswer(choiceIdx)`: a correct answer costs the rival
      `round((10 + round(10 * timer / maxTime)) * factor)`, a wrong one costs
      the current player `round(5 * factor)`; unless somebody is at zero the
      turn passes and the round advances. The second-chance flag is left
      as it is. When somebody is at zero, the winner's name is logged: with
      nobody alive (a first timeout can leave the timed-out player at zero
      without ending the game) `winner` is `undefined` and the log throws,
      after the damage. */
  function HandleAnswer(g: Juego, choice: int): (r: Outcome<Juego>)
    ensures r.state.secondChance == g.secondChance
    ensures r.state.preguntas == g.preguntas && r.state.currentQuestion == g.currentQuestion
    ensures |r.state.jugadores| == |g.jugadores|
    ensures Valid(g) && g.currentQuestion.Some? ==> (r.Threw? <==> Winner(r.state).None?)
    ensures r.Ok? ==> !GameOver(r.state) || Winner(r.state).Some?
    ensures r.Threw? ==> r.state.active == g.active && r.state.round == g.round
    ensures r.Ok? ==> g.currentQuestion.Some?
    ensures r.Ok? && GameOver(r.state) ==> r.state.active == g.active && r.state.round == g.round
    ensures r.Ok? && !GameOver(r.state) ==> r.state.active == 1 - g.active && r.state.round == g.round + 1
  {
    match g.currentQuestion
    case None => Threw(g)
    case Some(q) =>
      var maxTime := MaxTime(q.difficulty);
      var f := DamageFactor(g);
      var correct := choice == q.answer;
      var target := if correct then 1 - g.active else g.active;
      var damage := if correct then AnswerDamage(g.timer, maxTime, f) else Scale(5, f);
      if 0 <= target < |g.jugadores| then
        var h := Hurt(g, target, damage);
        if !GameOver(h) then Ok(SiguienteJugador(h).(round := h.round + 1))
        else if Winner(h).None? then Threw(h)
        else Ok(h)
      else Threw(g)
  }

  /** Which player a resolved answer hurt and by how much: the rival takes
      the time-bonus damage for a correct answer, the answerer 5 (3 on a
      second chance) for a wrong one; the other player is untouched. */
  lemma AnswerDamageRule(g: Juego, choice: int)
    requires Valid(g) && g.currentQuestion.Some?
    ensures var q := g.currentQuestion.value;
      var r := HandleAnswer(g, choice).state;
      var target := if choice == q.answer then 1 - g.active else g.active;
      var damage := if choice == q.answer
        then AnswerDamage(g.timer, MaxTime(q.difficulty), FactorOf(g.secondChance))
        else Scale(5, FactorOf(g.secondChance));
      && r.jugadores[target].vida == ApplyDamage(g.jugadores[target].vida, damage)
      && r.jugadores[1 - target] == g.jugadores[1 - target]
      && (choice != q.answer ==> damage == (if g.secondChance then 3 else 5))
  {
    FlagDamages(g.secondChance);
  }

  /** `handleTimeout()`: the damage `round(5 * factor)` is computed BEFORE
      the flag changes, so a first timeout costs 5 and a second costs 3. The
      first grants the rival a second chance on the same question; the
      second clears the flag, keeps the player, and advances the round
      unless somebody is at zero. The flag is toggled before the current
      player's `.vida` is read, so a turn index with no player behind it
      throws with the flag already toggled. */
  function HandleTimeout(g: Juego): (r: Outcome<Juego>)
    ensures r.state.currentQuestion == g.currentQuestion && r.state.preguntas == g.preguntas
    ensures |r.state.jugadores| == |g.jugadores|
    ensures Valid(g) ==> r.Ok?
    ensures r.state.secondChance == !g.secondChance
    ensures r.Ok? && !g.secondChance ==> r.state.active == 1 - g.active && r.state.round == g.round
    ensures r.Ok? && g.secondChance ==> r.state.active == g.active
    ensures r.Ok? && g.secondChance ==> r.state.round == (if GameOver(r.state) then g.round else g.round + 1)
  {
    var damage := Scale(5, DamageFactor(g));
    if 0 <= g.active < |g.jugadores| then
      if !g.secondChance then
        Ok(SiguienteJugador(Hurt(g, g.active, damage).(secondChance := true)))
      else
        var h := Hurt(g, g.active, damage).(secondChance := false);
        if GameOver(h) then Ok(h) else Ok(h.(round := h.round + 1))
    else Threw(g.(secondChance := !g.secondChance))
  }

  /** The timed-out player loses 5 on a first timeout and 3 on a second;
      the other player is untouched. */
  lemma TimeoutDamageRule(g: Juego)
    requires Valid(g)
    ensures var r := HandleTimeout(g).state;
      && r.jugadores[g.active].vida == ApplyDamage(g.jugadores[g.active].vida, if g.secondChance then 3 else 5)
      && r.jugadores[1 - g.active] == g.jugadores[1 - g.active]
  {
    FlagDamages(g.secondChance);
  }

  /** A timeout keeps the invariant: two players, turn in {0, 1}, life
      within [0, 100]. */
  lemma TimeoutKeepsValid(g: Juego)
    requires Valid(g)
    ensures Valid(HandleTimeout(g).state)
  {
    FlagDamages(g.secondChance);
    HurtKeepsValid(g, g.active, if g.secondChance then 3 else 5);
  }

  /** An answer keeps the invariant as long as the countdown has not gone
      negative. */
  lemma AnswerKeepsValid(g: Juego, choice: int)
    requires Valid(g) && g.timer >= 0
    ensures Valid(HandleAnswer(g, choice).state)
  {
    if g.currentQuestion.Some? {
      var q := g.currentQuestion.value;
      var f := DamageFactor(g);
      AnswerNonNegative(g.timer, MaxTime(q.difficulty), f);
      HurtKeepsValid(g, 1 - g.active, AnswerDamage(g.timer, MaxTime(q.difficulty), f));
      HurtKeepsValid(g, g.active, Scale(5, f));
    }
  }

  /** The winner log can fail in a live game: a first timeout that leaves
      the timed-out player at zero does not end the game, and when the
      rival, on the second chance, then answers wrong with at most 3 life
      left, both players are at zero and the answer throws. */
  lemma TimeoutThenWrongAnswerThrows(g: Juego, choice: int)
    requires Valid(g) && !g.secondChance && g.currentQuestion.Some?
    requires 0 < g.jugadores[g.active].vida <= 5 && 0 < g.jugadores[1 - g.active].vida <= 3
    requires choice != g.currentQuestion.value.answer
    ensures !GameOver(g)
    ensures var h := HandleTimeout(g);
      h.Ok? && GameOver(h.state) && h.state.secondChance && h.state.active == 1 - g.active
    ensures var h := HandleTimeout(g).state;
      && HandleAnswer(h, choice).Threw?
      && Winner(HandleAnswer(h, choice).state).None?
  {
    var a := g.active;
    FlagDamages(false);
    FlagDamages(true);
    var h := HandleTimeout(g).state;
    assert h.jugadores[a].vida == 0;
    assert h.jugadores[1 - a].vida == g.jugadores[1 - a].vida;
    TimeoutKeepsValid(g);
    AnswerDamageRule(h, choice);
  }

  /** Answer damage is never negative, whatever the timer reads. */
  lemma AnswerNonNegative(timer: int, maxTime: int, f: Factor)
    requires maxTime > 0
    ensures timer >= 0 ==> AnswerDamage(timer, maxTime, f) >= 0
    ensures Scale(5, f) >= 0
  {
    DamageTable();
    if timer >= 0 {
      TimeBonusNonNegative(timer, maxTime);
      ScaleValues(10 + TimeBonus(timer, maxTime));
    }
  }
}

=== FILE: hotseat_v10.dfy ===
/** The first single-machine controller (v1.0 `js/control.js`): topics are
    concatenated without de-duplication, each turn takes the first unused
    question of the topic with no reset, answers never pass the turn or
    advance the round, and the time budget depends on the round
    (`max(5, 15 - (round - 1))`). */
module HotSeatV10 {
  import opened Common
  import opened Rounding
  import opened Topics
  import opened QuestionBank
  import opened Models
  import HotSeat

  /** `startGame(rawPlayers)`: two fresh players, fresh questions, and both
      players' topics one after the other (repetitions kept). */
  function StartGame(p0: HotSeat.Setup, p1: HotSeat.Setup, raw: seq<Question>): (g: Juego)
    ensures Valid(g)
    ensures g.active == 0 && g.round == 1 && !g.secondChance && g.currentQuestion.None?
    ensures g.topicsEnJuego == p0.topics + p1.topics
    ensures g.jugadores[0].topics == p0.topics && g.jugadores[1].topics == p1.topics
    ensures g.jugadores[0].vida == MaxLife && g.jugadores[1].vida == MaxLife
    ensures |g.preguntas| == |raw| && forall i :: 0 <= i < |raw| ==> g.preguntas[i] == raw[i].(used := false)
  {
    var players := [NewJugador(p0.nombre, p0.avatar, p0.topics), NewJugador(p1.nombre, p1.avatar, p1.topics)];
    var questions := seq(|raw|, i requires 0 <= i < |raw| => NewPregunta(raw[i]));
    NewJuego(players, questions).(topicsEnJuego := p0.topics + p1.topics)
  }

  /** The v1.0 wheel carries the same topics as the later ones, and when no
      topic is repeated it is the very same list; a topic chosen by both
      players only takes two slots of the v1.0 wheel. */
  lemma TopicsAgainstLaterVersions(p0: HotSeat.Setup, p1: HotSeat.Setup, raw: seq<Question>)
    ensures forall x :: x in StartGame(p0, p1, raw).topicsEnJuego <==> x in Dedup(p0.topics + p1.topics)
    ensures NoDup(p0.topics + p1.topics) ==> StartGame(p0, p1, raw).topicsEnJuego == Dedup(p0.topics + p1.topics)
  {
    if NoDup(p0.topics + p1.topics) {
      DedupOfDistinct(p0.topics + p1.topics);
    }
  }

  /** `nextTurn()`: spin to topic `roll`, take the first unused question of
      that topic and mark it used. When none is left `findIndex` gives -1
      and `preguntas[-1].used` throws. */
  function NextTurn(g: Juego, roll: nat): (r: Outcome<Juego>)
    requires roll < Max(1, |g.topicsEnJuego|)
    ensures r.Ok? <==> exists i :: 0 <= i < |g.preguntas| && Eligible(g.preguntas[i], Spun(g.topicsEnJuego, roll), true)
    ensures r.state.currentTopic == Spun(g.topicsEnJuego, roll)
    ensures r.Threw? ==> r.state == g.(currentTopic := r.state.currentTopic)
    ensures r.Ok? ==>
      && r.state.currentQuestion.Some?
      && (exists k :: 0 <= k < |g.preguntas|
           && Eligible(g.preguntas[k], r.state.currentTopic, true)
           && (forall i :: 0 <= i < k ==> !Eligible(g.preguntas[i], r.state.currentTopic, true))
           && r.state.preguntas == MarkUsed(g.preguntas, k)
           && r.state.currentQuestion == Some(r.state.preguntas[k]))
    ensures r.state.jugadores == g.jugadores && r.state.active == g.active && r.state.round == g.round
  {
    var topic := Spun(g.topicsEnJuego, roll);
    var h := g.(currentTopic := topic);
    match FirstUnused(g.preguntas, topic)
    case None => Threw(h)
    case Some(k) =>
      var bank := MarkUsed(g.preguntas, k);
      Ok(h.(preguntas := bank, currentQuestion := Some(bank[k])))
  }

  /** Each successful turn uses up one question of its topic, so a topic with
      n unused questions serves n turns and the next spin to it throws. */
  lemma NextTurnUsesOne(g: Juego, roll: nat)
    requires roll < Max(1, |g.topicsEnJuego|)
    requires NextTurn(g, roll).Ok?
    ensures var t := Spun(g.topicsEnJuego, roll);
      |Available(NextTurn(g, roll).state.preguntas, t)| == |Available(g.preguntas, t)| - 1
  {
    var t := Spun(g.topicsEnJuego, roll);
    var k := FirstUnused(g.preguntas, t).value;
    MarkUsedDropsOne(g.preguntas, t, k, |g.preguntas|);
  }

  /** `startTimer()`: the countdown starts at the round's budget. */
  function StartTimer(g: Juego): (r: Juego)
    ensures r.timer == MaxTimeByRound(g.round) && r.timer >= 5
    ensures g.round == 1 ==> r.timer == 15
    ensures r.(timer := g.timer) == g
  {
    g.(timer := MaxTimeByRound(g.round))
  }

  /** `handleAnswer(choiceIdx)`: a correct answer hurts the rival by
      `round((10 + round(10 * timer / maxTime)) * factor)`, a wrong one the
      answerer by `round(5 * factor)`. Nothing else changes: no game-over
      check, no change of player, round or flag; the continuation only
      starts the next turn. Only the hurt seat is read, so the answer
      throws, with the game untouched, exactly when that seat is empty. */
  function HandleAnswer(g: Juego, choice: int): (r: Outcome<Juego>)
    ensures g.currentQuestion.None? ==> r == Threw(g)
    ensures g.currentQuestion.Some? && choice == g.currentQuestion.value.answer ==>
      (r.Ok? <==> 0 <= 1 - g.active < |g.jugadores|)
    ensures g.currentQuestion.Some? && choice != g.currentQuestion.value.answer ==>
      (r.Ok? <==> 0 <= g.active < |g.jugadores|)
    ensures r.Threw? ==> r.state == g
    ensures r.state.active == g.active && r.state.round == g.round && r.state.secondChance == g.secondChance
    ensures r.state.(jugadores := g.jugadores) == g
    ensures |r.state.jugadores| == |g.jugadores|
  {
    match g.currentQuestion
    case None => Threw(g)
    case Some(q) =>
      var maxTime := MaxTimeByRound(g.round);
      var f := DamageFactor(g);
      var correct := choice == q.answer;
      var target := if correct then 1 - g.active else g.active;
      var damage := if correct then AnswerDamage(g.timer, maxTime, f) else Scale(5, f);
      if 0 <= target < |g.jugadores| then Ok(Hurt(g, target, damage)) else Threw(g)
  }

  /** Who is hurt and by how much: the rival for a correct answer, the
      answerer (by 5, or 3 on a second chance) for a wrong one. */
  lemma AnswerDamageRule(g: Juego, choice: int)
    requires Valid(g) && g.currentQuestion.Some? && g.timer >= 0
    ensures var q := g.currentQuestion.value;
      var r := HandleAnswer(g, choice).state;
      var target := if choice == q.answer then 1 - g.active else g.active;
      var damage := if choice == q.answer
        then AnswerDamage(g.timer, MaxTimeByRound(g.round), FactorOf(g.secondChance))
        else (if g.secondChance then 3 else 5);
      && r.jugadores[target].vida == ApplyDamage(g.jugadores[target].vida, damage)
      && r.jugadores[1 - target] == g.jugadores[1 - target]
      && Valid(r)
  {
    FlagDamages(g.secondChance);
    var q := g.currentQuestion.value;
    if choice == q.answer {
      HotSeat.AnswerNonNegative(g.timer, MaxTimeByRound(g.round), DamageFactor(g));
      HurtKeepsValid(g, 1 - g.active, AnswerDamage(g.timer, MaxTimeByRound(g.round), DamageFactor(g)));
    } else {
      HurtKeepsValid(g, g.active, if g.secondChance then 3 else 5);
    }
  }

  /** `handleTimeout()`: the timed-out player loses `round(5 * factor)`
      first. A first timeout sets the flag and passes the question to the
      rival; a second clears the flag, and its continuation calls the
      undefined `advanceRound`, which throws. */
  function HandleTimeout(g: Juego): (r: Outcome<Juego>)
    ensures r.Ok? <==> !g.secondChance && 0 <= g.active < |g.jugadores|
    ensures 0 <= g.active < |g.jugadores| ==> r.state.secondChance == !g.secondChance
    ensures r.Ok? ==> r.state.active == 1 - g.active
    ensures r.Threw? ==> r.state.active == g.active
    ensures r.state.round == g.round && r.state.currentQuestion == g.currentQuestion
    ensures |r.state.jugadores| == |g.jugadores|
  {
    if !(0 <= g.active < |g.jugadores|) then Threw(g)
    else
      var h := Hurt(g, g.active, Scale(5, DamageFactor(g)));
      if !g.secondChance then Ok(SiguienteJugador(h.(secondChance := true)))
      else Threw(h.(secondChance := false))
  }

  /** Two timeouts in a row on one question: the first player loses 5, the
      second 3, and the second timeout ends in the error. */
  lemma DoubleTimeout(g: Juego)
    requires Valid(g) && !g.secondChance
    ensures HandleTimeout(g).Ok?
    ensures var h := HandleTimeout(g).state;
      && Valid(h)
      && h.jugadores[g.active].vida == ApplyDamage(g.jugadores[g.active].vida, 5)
      && HandleTimeout(h).Threw?
      && HandleTimeout(h).state.jugadores[h.active].vida == ApplyDamage(h.jugadores[h.active].vida, 3)
      && HandleTimeout(h).state.jugadores[g.active] == h.jugadores[g.active]
  {
    DamageTable();
    HurtKeepsValid(g, g.active, 5);
  }

  /** No v1.0 handler ever changes the round, so every countdown of a v1.0
      game starts at 15 seconds: the round-dependent budget never shrinks. */
  lemma RoundNeverAdvances(g: Juego, choice: int, roll: nat)
    requires g.round == 1
    ensures HandleAnswer(g, choice).state.round == 1
    ensures HandleTimeout(g).state.round == 1
    ensures roll < Max(1, |g.topicsEnJuego|) ==> NextTurn(g, roll).state.round == 1
    ensures StartTimer(g).round == 1 && StartTimer(g).timer == 15
  {
  }
}

=== FILE: hotseat_v20.dfy ===
/** The single-machine controller of v2.0 (`js/control.js`). It is the v2.1
    controller with two differences. First, `nextTurn` passes the undeclared
    name `randomTopicIndex` to the spinner: after the question is chosen and
    marked used, every call throws a ReferenceError, so the spinner is never
    shown and no question is ever asked. Second, the log lines of
    `handleAnswer` and `handleTimeout` read player names before anything
    changes, so where v2.1 throws part-way, v2.0 throws earlier with the
    game untouched. */
module HotSeatV20 {
  import opened Common
  import opened Topics
  import opened QuestionBank
  import opened Models
  import HotSeat

  /** `nextTurn()` of v2.0: every step of the v2.1 turn happens, then the
      call throws. */
  function NextTurn(g: Juego, roll: nat, pick: nat): (r: Outcome<Juego>)
    requires roll < Max(1, |g.topicsEnJuego|)
    requires |Available(g.preguntas, Spun(g.topicsEnJuego, roll))| == 0
          || pick < |Available(g.preguntas, Spun(g.topicsEnJuego, roll))|
    ensures r.Threw?
    ensures r.state.jugadores == g.jugadores && r.state.active == g.active && r.state.round == g.round
    ensures |r.state.preguntas| == |g.preguntas|
  {
    Threw(HotSeat.NextTurn(g, roll, pick).state)
  }

  /** The v2.0 turn leaves the same state behind as the v2.1 turn: whenever
      v2.1 serves a question, v2.0 has chosen and marked the same one, yet
      fails. So starting a v2.0 game never reaches the spin-end handler. */
  lemma NextTurnMatchesV21ThenThrows(g: Juego, roll: nat, pick: nat)
    requires roll < Max(1, |g.topicsEnJuego|)
    requires |Available(g.preguntas, Spun(g.topicsEnJuego, roll))| == 0
          || pick < |Available(g.preguntas, Spun(g.topicsEnJuego, roll))|
    ensures NextTurn(g, roll, pick).state == HotSeat.NextTurn(g, roll, pick).state
    ensures HotSeat.NextTurn(g, roll, pick).Ok? ==>
      && NextTurn(g, roll, pick).Threw?
      && NextTurn(g, roll, pick).state.currentQuestion.Some?
      && NextTurn(g, roll, pick).state.currentQuestion.value.used
  {
  }

  /** `handleAnswer(choiceIdx)` of v2.0: both branches first log the current
      player's name, so a turn index with no player behind it throws before
      any damage. A correct answer then reads the rival's `.vida`, which
      throws when there is no rival. These throws leave the game as it was.
      Past them the result is the v2.1 one, including the throw of the
      winner's name when the damage leaves nobody alive. */
  function HandleAnswer(g: Juego, choice: int): (r: Outcome<Juego>)
    ensures r.Threw? <==>
      || g.currentQuestion.None?
      || !(0 <= g.active < |g.jugadores|)
      || (choice == g.currentQuestion.value.answer && !(0 <= 1 - g.active < |g.jugadores|))
      || (GameOver(r.state) && Winner(r.state).None?)
    ensures r.Threw? ==> r.state == g || (r == HotSeat.HandleAnswer(g, choice) && Winner(r.state).None?)
    ensures r.Ok? ==> r == HotSeat.HandleAnswer(g, choice)
  {
    if !(0 <= g.active < |g.jugadores|) then Threw(g) else HotSeat.HandleAnswer(g, choice)
  }

  /** `handleTimeout()` of v2.0: it first logs the current player's name,
      and a first timeout then logs the rival's name, both before the flag
      or any life changes. So it throws with the game as it was when there
      is no current player, or on a first timeout with no rival; otherwise
      the result is the v2.1 one. */
  function HandleTimeout(g: Juego): (r: Outcome<Juego>)
    ensures r.Threw? <==>
      !(0 <= g.active < |g.jugadores|) || (!g.secondChance && !(0 <= 1 - g.active < |g.jugadores|))
    ensures r.Threw? ==> r.state == g
    ensures r.Ok? ==> r == HotSeat.HandleTimeout(g)
  {
    if !(0 <= g.active < |g.jugadores|) || (!g.secondChance && !(0 <= 1 - g.active < |g.jugadores|))
    then Threw(g)
    else HotSeat.HandleTimeout(g)
  }

  /** On every game with two players and the turn on one of them, the v2.0
      answer and timeout handlers behave exactly like the v2.1 ones. */
  lemma HandlersMatchV21(g: Juego, choice: int)
    requires Valid(g)
    ensures HandleAnswer(g, choice) == HotSeat.HandleAnswer(g, choice)
    ensures HandleTimeout(g) == HotSeat.HandleTimeout(g)
  {
  }

  /** Off the invariant the versions part: with no current player, v2.1's
      timeout throws with the flag already toggled while v2.0's throws with
      the game untouched; and on a first timeout with no rival, v2.1 passes
      the turn while v2.0 throws. */
  lemma TimeoutDiffersOffInvariant(g: Juego)
    ensures !(0 <= g.active < |g.jugadores|) ==>
      && HandleTimeout(g) == Threw(g)
      && HotSeat.HandleTimeout(g).Threw?
      && HotSeat.HandleTimeout(g).state.secondChance != g.secondChance
    ensures 0 <= g.active < |g.jugadores| && !g.secondChance && !(0 <= 1 - g.active < |g.jugadores|) ==>
      HandleTimeout(g) == Threw(g) && HotSeat.HandleTimeout(g).Ok?
  {
  }
}

=== FILE: models.dfy ===
/** The classes of `models.js` (v6.3 and v2.0, which agree, and v1.0):
    `jugador`, `pregunta` and `juego` with its small helpers. The local
    (single-machine) controllers keep their whole state in one `juego`. */
module Models {
  import opened Common
  import opened Rounding
  import opened QuestionBank

  /** Starting and maximum life of every player. */
  const MaxLife: int := 100

  /** `jugador`: a local player. */
  datatype Jugador = Jugador(nombre: string, avatar: string, topics: seq<string>, vida: int, maxVida: int)

  /** `new jugador(nombre, avatar, topics)`: full life. */
  function NewJugador(nombre: string, avatar: string, topics: seq<string>): (p: Jugador)
    ensures p.vida == p.maxVida == MaxLife
    ensures p.nombre == nombre && p.avatar == avatar && p.topics == topics
  {
    Jugador(nombre, avatar, topics, MaxLife, MaxLife)
  }

  /** `new pregunta({...})`: the JSON fields, not yet used. (v1.0 has no
      `used` field; an absent field reads as `undefined`, which the filters
      treat exactly like `false`.) */
  function NewPregunta(raw: Question): (q: Question)
    ensures !q.used
    ensures q.(used := raw.used) == raw
  {
    raw.(used := false)
  }

  /** `juego`: the whole state of a local match. `active` is
      `jugadorActualID`; `currentQuestion` is a copy of the bank entry
      (only its `used` flag ever changes, and it is never read back). */
  datatype Juego = Juego(
    jugadores: seq<Jugador>,
    preguntas: seq<Question>,
    active: int,
    round: int,
    secondChance: bool,
    topicsEnJuego: seq<string>,
    currentTopic: Option<string>,
    currentQuestion: Option<Question>,
    timer: int)

  /** `new juego(jugadores, preguntas)`: player 0 starts round 1 with no
      second chance running. */
  function NewJuego(jugadores: seq<Jugador>, preguntas: seq<Question>): (g: Juego)
    ensures g.active == 0 && g.round == 1 && !g.secondChance
    ensures g.jugadores == jugadores && g.preguntas == preguntas
    ensures g.topicsEnJuego == [] && g.currentTopic.None? && g.currentQuestion.None? && g.timer == 0
  {
    Juego(jugadores, preguntas, 0, 1, false, [], None, None, 0)
  }

  /** `jugadores[i]`, `undefined` outside the array. */
  function PlayerAt(g: Juego, i: int): (p: Option<Jugador>)
    ensures p.Some? <==> 0 <= i < |g.jugadores|
    ensures p.Some? ==> p.value == g.jugadores[i]
  {
    if 0 <= i < |g.jugadores| then Some(g.jugadores[i]) else None
  }

  /** Getter `jugadorActual`. */
  function JugadorActual(g: Juego): Option<Jugador>
  {
    PlayerAt(g, g.active)
  }

  /** Getter `rival`: `jugadores[1 - jugadorActualID]`. */
  function Rival(g: Juego): Option<Jugador>
  {
    PlayerAt(g, 1 - g.active)
  }

  /** `siguienteJugador()`. */
  function SiguienteJugador(g: Juego): (h: Juego)
    ensures h.active + g.active == 1
    ensures h.(active := g.active) == g
  {
    g.(active := 1 - g.active)
  }

  /** With two players and a turn index in {0, 1}, the current player and
      the rival are the two different players, and toggling twice restores
      the turn. */
  lemma CurrentAndRival(g: Juego)
    requires |g.jugadores| == 2 && 0 <= g.active <= 1
    ensures JugadorActual(g).Some? && Rival(g).Some?
    ensures {g.active, 1 - g.active} == {0, 1}
    ensures Rival(g) == JugadorActual(SiguienteJugador(g))
    ensures SiguienteJugador(SiguienteJugador(g)) == g
    ensures 0 <= SiguienteJugador(g).active <= 1 && SiguienteJugador(g).active != g.active
  {
  }

  /** `getMaxTime()` of v6.3 and v2.0: `max(10, 17 - 2 * dificultad)`. */
  function MaxTime(difficulty: int): (m: int)
    ensures m >= 10 && m >= 17 - 2 * difficulty
    ensures m == 10 || m == 17 - 2 * difficulty
  {
    Max(10, 17 - 2 * difficulty)
  }

  /** The budgets are 15, 13 and 11 seconds for difficulties 1, 2 and 3
      (the comment in the source says 15/12/10; the code governs), and never
      below 10. */
  lemma MaxTimeTable()
    ensures MaxTime(1) == 15 && MaxTime(2) == 13 && MaxTime(3) == 11
    ensures forall d :: d >= 4 ==> MaxTime(d) == 10
  {
  }

  /** `getMaxTime()` on the game: reads `currentQuestion.dificultad`, which
      throws (None here) while there is no current question. */
  function GameMaxTime(g: Juego): (m: Option<int>)
    ensures m.Some? <==> g.currentQuestion.Some?
    ensures m.Some? ==> m.value >= 10
  {
    match g.currentQuestion
    case None => None
    case Some(q) => Some(MaxTime(q.difficulty))
  }

  /** `getMaxTime()` of v1.0: `max(5, 15 - (round - 1))`. */
  function MaxTimeByRound(round: int): (m: int)
    ensures m >= 5 && m >= 16 - round
    ensures m == 5 || m == 16 - round
  {
    Max(5, 15 - (round - 1))
  }

  /** The v1.0 budget is 15 seconds in round 1, shrinks by one second per
      round, and stays at 5 from round 11 on. */
  lemma MaxTimeByRoundShape(r1: int, r2: int)
    requires 1 <= r1 <= r2
    ensures MaxTimeByRound(1) == 15
    ensures MaxTimeByRound(r2) <= MaxTimeByRound(r1)
    ensures r1 <= 11 ==> MaxTimeByRound(r1) == 16 - r1
    ensures r2 >= 11 ==> MaxTimeByRound(r2) == 5
  {
  }

  /** `getDamageFactor()`. */
  function DamageFactor(g: Juego): (f: Factor)
    ensures f == Half <==> g.secondChance
  {
    FactorOf(g.secondChance)
  }

  /** `jugadores.some(p => p.vida <= 0)`. */
  predicate GameOver(g: Juego)
  {
    exists i :: 0 <= i < |g.jugadores| && g.jugadores[i].vida <= 0
  }

  /** `jugadores.find(p => p.vida > 0)`: the first player still alive. */
  function Winner(g: Juego): (w: Option<nat>)
    ensures w.None? <==> forall i :: 0 <= i < |g.jugadores| ==> g.jugadores[i].vida <= 0
    ensures w.Some? ==> w.value < |g.jugadores| && g.jugadores[w.value].vida > 0
    ensures w.Some? ==> forall i :: 0 <= i < w.value ==> g.jugadores[i].vida <= 0
  {
    FirstWhere(g.jugadores, (p: Jugador) => p.vida > 0)
  }

  /** Player i takes `damage` points, floored at zero. */
  function Hurt(g: Juego, i: int, damage: int): (h: Juego)
    requires 0 <= i < |g.jugadores|
    ensures |h.jugadores| == |g.jugadores|
    ensures h.jugadores[i].vida == ApplyDamage(g.jugadores[i].vida, damage)
    ensures forall j :: 0 <= j < |g.jugadores| && j != i ==> h.jugadores[j] == g.jugadores[j]
    ensures h.jugadores[i] == g.jugadores[i].(vida := h.jugadores[i].vida)
    ensures h.(jugadores := g.jugadores) == g
  {
    g.(jugadores := g.jugadores[i := g.jugadores[i].(vida := ApplyDamage(g.jugadores[i].vida, damage))])
  }

  /** The invariant of a local match: two players, a turn index in {0, 1},
      and every life within [0, maxVida] with maxVida = 100. */
  predicate Valid(g: Juego)
  {
    && |g.jugadores| == 2
    && 0 <= g.active <= 1
    && forall i :: 0 <= i < |g.jugadores| ==>
         g.jugadores[i].maxVida == MaxLife && 0 <= g.jugadores[i].vida <= MaxLife
  }

  /** A non-negative hit keeps the invariant and leaves the turn alone. */
  lemma HurtKeepsValid(g: Juego, i: int, damage: int)
    requires Valid(g) && 0 <= i < |g.jugadores| && damage >= 0
    ensures Valid(Hurt(g, i, damage))
    ensures Hurt(g, i, damage).jugadores[i].vida <= g.jugadores[i].vida
  {
    ApplyDamageBounds(g.jugadores[i].vida, damage);
  }
}

=== FILE: questions.dfy ===
/** The question bank: `pregunta` records with a `used` flag, and the
    selection rule that serves non-repeating questions of one topic,
    resetting that topic's flags once its questions are exhausted. */
module QuestionBank {
  import opened Common

  /** A `pregunta`. `answer` is the index of the correct option and
      `difficulty` the level 1..3 that sets the time budget. */
  datatype Question = Question(
    id: int,
    topic: string,
    text: string,
    options: seq<string>,
    answer: int,
    difficulty: int,
    used: bool)

  /** `q.topic === t`, where the topic itself may be `undefined` (None):
      no question has an undefined topic. */
  predicate OnTopic(q: Question, t: Option<string>)
  {
    t.Some? && q.topic == t.value
  }

  /** The filter `q.topic === t && !q.used` (or just `q.topic === t`). */
  predicate Eligible(q: Question, t: Option<string>, unusedOnly: bool)
  {
    OnTopic(q, t) && (unusedOnly ==> !q.used)
  }

  /** Indices below n of the questions passing the filter, in bank order. */
  function Hits(bank: seq<Question>, t: Option<string>, unusedOnly: bool, n: nat): (r: seq<nat>)
    requires n <= |bank|
    ensures forall k :: 0 <= k < |r| ==> r[k] < n && Eligible(bank[r[k]], t, unusedOnly)
    ensures forall i :: 0 <= i < n && Eligible(bank[i], t, unusedOnly) ==> i in r
    ensures forall a, b :: 0 <= a < b < |r| ==> r[a] < r[b]
  {
    if n == 0 then []
    else
      var h := Hits(bank, t, unusedOnly, n - 1);
      if Eligible(bank[n - 1], t, unusedOnly) then h + [n - 1] else h
  }

  /** The first filtered index is the least eligible one. */
  lemma HitsHeadIsLeast(bank: seq<Question>, t: Option<string>, unusedOnly: bool, n: nat)
    requires n <= |bank|
    ensures |Hits(bank, t, unusedOnly, n)| > 0 ==>
      forall i :: 0 <= i < n && Eligible(bank[i], t, unusedOnly) ==> Hits(bank, t, unusedOnly, n)[0] <= i
  {
    var r := Hits(bank, t, unusedOnly, n);
    forall i | 0 <= i < n && Eligible(bank[i], t, unusedOnly) && |r| > 0
      ensures r[0] <= i
    {
      assert i in r;
      var m :| 0 <= m < |r| && r[m] == i;
      if m > 0 {
        assert r[0] < r[m];
      }
    }
  }

  /** Unused questions of topic t. */
  function Available(bank: seq<Question>, t: Option<string>): seq<nat>
  {
    Hits(bank, t, true, |bank|)
  }

  /** All questions of topic t. */
  function OfTopic(bank: seq<Question>, t: Option<string>): seq<nat>
  {
    Hits(bank, t, false, |bank|)
  }

  /** The `forEach` that sets `used = false` on every question of topic t. */
  function ResetTopic(bank: seq<Question>, t: Option<string>): (r: seq<Question>)
    ensures |r| == |bank|
    ensures forall i :: 0 <= i < |bank| && !OnTopic(bank[i], t) ==> r[i] == bank[i]
    ensures forall i :: 0 <= i < |bank| && OnTopic(bank[i], t) ==> r[i] == bank[i].(used := false)
  {
    seq(|bank|, i requires 0 <= i < |bank| => if OnTopic(bank[i], t) then bank[i].(used := false) else bank[i])
  }

  /** `q.used = true` on the chosen question. */
  function MarkUsed(bank: seq<Question>, k: nat): seq<Question>
    requires k < |bank|
  {
    bank[k := bank[k].(used := true)]
  }

  /** After a reset every question of the topic is eligible again: the
      filtered list equals the list of all questions of the topic. */
  lemma {:induction false} ResetMakesAllAvailable(bank: seq<Question>, t: Option<string>, n: nat)
    requires n <= |bank|
    ensures Hits(ResetTopic(bank, t), t, true, n) == Hits(bank, t, false, n)
  {
    if n > 0 {
      ResetMakesAllAvailable(bank, t, n - 1);
    }
  }

  /** The list the random index is drawn from: the unused questions of the
      topic, or after a reset all of them. */
  function Pool(bank: seq<Question>, t: Option<string>): seq<nat>
  {
    if |Available(bank, t)| > 0 then Available(bank, t)
    else Available(ResetTopic(bank, t), t)
  }

  /** The bank after a selection, and the index chosen (None when the topic
      has no question at all, in which case `currentQuestion` is left as it
      was). */
  datatype Selection = Selection(bank: seq<Question>, chosen: Option<nat>)

  /** `selectQuestion` (v6.1) / `seleccionarPregunta` (v4.0): pick the
      `pick`-th unused question of the topic; if there is none, reset the
      topic and pick among all of its questions; mark the pick used. */
  function Select(bank: seq<Question>, t: Option<string>, pick: nat): (s: Selection)
    requires |Pool(bank, t)| == 0 || pick < |Pool(bank, t)|
    ensures |s.bank| == |bank|
    ensures s.chosen.None? <==> forall i :: 0 <= i < |bank| ==> !OnTopic(bank[i], t)
    ensures s.chosen.None? ==> s.bank == bank
    ensures s.chosen.Some? ==>
      && s.chosen.value < |bank|
      && OnTopic(bank[s.chosen.value], t)
      && s.bank[s.chosen.value] == bank[s.chosen.value].(used := true)
    ensures s.chosen.Some? && |Available(bank, t)| > 0 ==>
      !bank[s.chosen.value].used && s.bank == MarkUsed(bank, s.chosen.value)
    ensures s.chosen.Some? && |Available(bank, t)| == 0 ==>
      s.bank == MarkUsed(ResetTopic(bank, t), s.chosen.value)
  {
    var avail := Available(bank, t);
    if |avail| > 0 then
      Selection(MarkUsed(bank, avail[pick]), Some(avail[pick]))
    else
      var reset := ResetTopic(bank, t);
      var again := Available(reset, t);
      ResetMakesAllAvailable(bank, t, |bank|);
      if |again| > 0 then
        Selection(MarkUsed(reset, again[pick]), Some(again[pick]))
      else
        assert forall i :: 0 <= i < |bank| ==> !Eligible(bank[i], t, false);
        assert reset == bank;
        Selection(bank, None)
  }

  /** Only `used` flags change: ids, topics, texts, options, answers and
      difficulties of the whole bank are preserved by a selection, and
      questions of other topics are not touched at all. */
  lemma SelectKeepsContents(bank: seq<Question>, t: Option<string>, pick: nat)
    requires |Pool(bank, t)| == 0 || pick < |Pool(bank, t)|
    ensures forall i :: 0 <= i < |bank| ==>
      Select(bank, t, pick).bank[i] == bank[i].(used := Select(bank, t, pick).bank[i].used)
    ensures forall i :: 0 <= i < |bank| && !OnTopic(bank[i], t) ==> Select(bank, t, pick).bank[i] == bank[i]
  {
    var s := Select(bank, t, pick);
    if s.chosen.Some? {
      var k := s.chosen.value;
      if |Available(bank, t)| > 0 {
        assert s.bank == MarkUsed(bank, k);
      } else {
        assert s.bank == MarkUsed(ResetTopic(bank, t), k);
      }
    }
  }

  /** Each selection from a non-exhausted topic removes exactly one question
      from the unused pool, so a topic with n questions serves n distinct
      questions before its flags are reset. */
  lemma SelectShrinksPool(bank: seq<Question>, t: Option<string>, pick: nat)
    requires |Available(bank, t)| > 0 && pick < |Available(bank, t)|
    ensures |Pool(bank, t)| == |Available(bank, t)|
    ensures Select(bank, t, pick).chosen == Some(Available(bank, t)[pick])
    ensures |Available(Select(bank, t, pick).bank, t)| == |Available(bank, t)| - 1
    ensures Available(bank, t)[pick] !in Available(Select(bank, t, pick).bank, t)
  {
    var k := Available(bank, t)[pick];
    MarkUsedDropsOne(bank, t, k, |bank|);
  }

  /** Marking an eligible question used removes exactly that index from the
      filtered list. */
  lemma {:induction false} MarkUsedDropsOne(bank: seq<Question>, t: Option<string>, k: nat, n: nat)
    requires n <= |bank| && k < |bank|
    requires Eligible(bank[k], t, true)
    ensures |Hits(MarkUsed(bank, k), t, true, n)| == |Hits(bank, t, true, n)| - (if k < n then 1 else 0)
    ensures k !in Hits(MarkUsed(bank, k), t, true, n)
  {
    if n > 0 {
      MarkUsedDropsOne(bank, t, k, n - 1);
    }
  }

  /** The v2.x rule: a random unused question of the topic; after a reset,
      the first question of the topic (`resetQuestions[0]`), which is
      `undefined` when the topic has none. */
  function SelectLocal(bank: seq<Question>, t: Option<string>, pick: nat): (s: Selection)
    requires |Available(bank, t)| == 0 || pick < |Available(bank, t)|
    ensures s.chosen.None? <==> forall i :: 0 <= i < |bank| ==> !OnTopic(bank[i], t)
    ensures s.chosen.Some? && |Available(bank, t)| > 0 ==>
      s.chosen.value == Available(bank, t)[pick] && s.bank == MarkUsed(bank, s.chosen.value)
    ensures s.chosen.Some? && |Available(bank, t)| == 0 ==>
      && s.chosen.value == OfTopic(bank, t)[0]
      && (forall i :: 0 <= i < s.chosen.value ==> !OnTopic(bank[i], t))
      && s.bank == MarkUsed(ResetTopic(bank, t), s.chosen.value)
  {
    ResetMakesAllAvailable(bank, t, |bank|);
    HitsHeadIsLeast(bank, t, false, |bank|);
    if |Available(bank, t)| > 0 then Select(bank, t, pick) else Select(bank, t, 0)
  }

  /** The v1.0 rule (`findIndex` of the first unused question of the topic,
      no reset): None when every question of the topic is used. */
  function FirstUnused(bank: seq<Question>, t: Option<string>): (k: Option<nat>)
    ensures k.None? <==> forall i :: 0 <= i < |bank| ==> !Eligible(bank[i], t, true)
    ensures k.Some? ==> k.value < |bank| && Eligible(bank[k.value], t, true)
    ensures k.Some? ==> forall i :: 0 <= i < k.value ==> !Eligible(bank[i], t, true)
  {
    var avail := Available(bank, t);
    HitsHeadIsLeast(bank, t, true, |bank|);
    if |avail| == 0 then None else Some(avail[0])
  }

  /** The random question index is within the list it is drawn from (any
      index will do when there is no bank). */
  predicate PickInRange(bank: Option<seq<Question>>, t: Option<string>, pick: nat)
  {
    bank.None? || |Pool(bank.value, t)| == 0 || pick < |Pool(bank.value, t)|
  }

  /** The bank and the current question after a server-side selection. */
  datatype Drawn = Drawn(bank: Option<seq<Question>>, question: Option<Question>)

  /** `selectQuestion` (v6.1) / `seleccionarPregunta` (v4.0) on the shared
      bank, which is absent (None) when loading it failed: then nothing
      happens. Otherwise the selection rule runs and the current question
      becomes the chosen one, or stays as it was when the topic has no
      question at all. */
  function Draw(bank: Option<seq<Question>>, t: Option<string>, pick: nat, current: Option<Question>): (d: Drawn)
    requires PickInRange(bank, t, pick)
    ensures bank.None? ==> d == Drawn(bank, current)
    ensures bank.Some? ==> d.bank == Some(Select(bank.value, t, pick).bank)
    ensures bank.Some? && Select(bank.value, t, pick).chosen.Some? ==>
      var k := Select(bank.value, t, pick).chosen.value;
      && d.question == Some(d.bank.value[k])
      && t.Some? && d.bank.value[k].topic == t.value && d.bank.value[k].used
    ensures (bank.None? || Select(bank.value, t, pick).chosen.None?) ==> d.question == current
  {
    match bank
    case None => Drawn(bank, current)
    case Some(b) =>
      var s := Select(b, t, pick);
      match s.chosen
      case None => Drawn(Some(s.bank), current)
      case Some(k) => Drawn(Some(s.bank), Some(s.bank[k]))
  }
}

=== FILE: rounding.dfy ===
/** Damage arithmetic shared by every version of the game.

    The source computes damage with floating point (`Math.round(15 * 0.5)`,
    `Math.round((timer / maxTime) * 10)`); every quantity involved is a
    ratio of small integers, so it is modelled exactly with integer
    arithmetic. `Math.round(x)` returns the integer nearest to `x`, rounding
    halves towards +infinity. */
module Rounding {
  import opened Common

  /** The damage factor: 1 normally, 0.5 while a second chance is running. */
  datatype Factor = Full | Half

  /** Denominator of the factor (its numerator is always 1). */
  function Den(f: Factor): (d: int)
    ensures d >= 1
  {
    match f
    case Full => 1
    case Half => 2
  }

  /** `getDamageFactor`: 0.5 exactly when a second chance is running. */
  function FactorOf(secondChance: bool): (f: Factor)
    ensures f == Half <==> secondChance
  {
    if secondChance then Half else Full
  }

  /** `Math.round(p / q)`: the integer r with r - 1/2 <= p/q < r + 1/2. */
  function RoundRatio(p: int, q: int): (r: int)
    requires q > 0
    ensures 2 * q * r - q <= 2 * p < 2 * q * r + q
  {
    var n := 2 * p + q;
    var r := n / (2 * q);
    assert n == 2 * q * r + n % (2 * q);
    r
  }

  /** For a positive m, m * k has the sign of k. */
  lemma MulSign(m: int, k: int)
    requires m > 0
    ensures k >= 1 ==> m * k >= m
    ensures k <= -1 ==> m * k <= -m
  {
    if k >= 1 {
      assert m * k == m + m * (k - 1);
    } else if k <= -1 {
      assert m * k == -m + m * (k + 1);
    }
  }

  /** Only one integer is within half a unit of a given ratio, so the
      contract of `RoundRatio` pins its result down completely. */
  lemma RoundRatioUnique(p: int, q: int, r: int)
    requires q > 0
    requires 2 * q * r - q <= 2 * p < 2 * q * r + q
    ensures r == RoundRatio(p, q)
  {
    var s := RoundRatio(p, q);
    assert 2 * q * r - 2 * q * s == 2 * q * (r - s);
    MulSign(2 * q, r - s);
  }

  /** `Math.round(base * factor)`. */
  function Scale(base: int, f: Factor): (d: int)
    ensures 2 * Den(f) * d - Den(f) <= 2 * base < 2 * Den(f) * d + Den(f)
  {
    RoundRatio(base, Den(f))
  }

  /** With the full factor the base damage is dealt unchanged; with the half
      factor a non-negative base n is dealt as round(n / 2) = (n + 1) div 2. */
  lemma ScaleValues(n: int)
    ensures Scale(n, Full) == n
    ensures n >= 0 ==> Scale(n, Half) == (n + 1) / 2
  {
    RoundRatioUnique(n, 1, n);
    if n >= 0 {
      var h := (n + 1) / 2;
      assert n + 1 == 2 * h + (n + 1) % 2;
      RoundRatioUnique(n, 2, h);
    }
  }

  /** The concrete damages of the game: 15/8 for a correct/wrong answer and
      5 for a timeout at full factor; 8/4/3 at half factor. */
  lemma DamageTable()
    ensures Scale(15, Full) == 15 && Scale(15, Half) == 8
    ensures Scale(8, Full) == 8 && Scale(8, Half) == 4
    ensures Scale(5, Full) == 5 && Scale(5, Half) == 3
  {
    ScaleValues(15);
    ScaleValues(8);
    ScaleValues(5);
  }

  /** The same damages keyed by the second-chance flag. */
  lemma FlagDamages(secondChance: bool)
    ensures Scale(15, FactorOf(secondChance)) == (if secondChance then 8 else 15)
    ensures Scale(8, FactorOf(secondChance)) == (if secondChance then 4 else 8)
    ensures Scale(5, FactorOf(secondChance)) == (if secondChance then 3 else 5)
  {
    DamageTable();
  }

  /** `Math.round((timer / maxTime) * 10)`: the time bonus of the local
      versions. */
  function TimeBonus(timer: int, maxTime: int): (b: int)
    requires maxTime > 0
    ensures 2 * maxTime * b - maxTime <= 20 * timer < 2 * maxTime * b + maxTime
  {
    RoundRatio(10 * timer, maxTime)
  }

  /** While the countdown is within [0, maxTime] the bonus is within [0, 10]. */
  lemma TimeBonusRange(timer: int, maxTime: int)
    requires 0 < maxTime
    requires 0 <= timer <= maxTime
    ensures 0 <= TimeBonus(timer, maxTime) <= 10
  {
    var b := TimeBonus(timer, maxTime);
    assert 2 * maxTime * b + maxTime == maxTime * (2 * b + 1);
    MulSign(maxTime, 2 * b + 1);
    assert 2 * maxTime * b - maxTime - 20 * maxTime == maxTime * (2 * b - 21);
    MulSign(maxTime, 2 * b - 21);
  }

  /** A countdown that has not gone negative never gives a negative bonus. */
  lemma TimeBonusNonNegative(timer: int, maxTime: int)
    requires 0 < maxTime && 0 <= timer
    ensures TimeBonus(timer, maxTime) >= 0
  {
    var b := TimeBonus(timer, maxTime);
    assert 2 * maxTime * b + maxTime == maxTime * (2 * b + 1);
    MulSign(maxTime, 2 * b + 1);
  }

  /** The bonus in closed form: round(10 t / m) = (20 t + m) div (2 m). */
  lemma TimeBonusClosedForm(timer: int, maxTime: int)
    requires 0 < maxTime
    ensures TimeBonus(timer, maxTime) == (20 * timer + maxTime) / (2 * maxTime)
  {
    var n := 20 * timer + maxTime;
    var c := n / (2 * maxTime);
    assert n == 2 * maxTime * c + n % (2 * maxTime);
    RoundRatioUnique(10 * timer, maxTime, c);
  }

  /** Damage of a correct answer in the local versions:
      `Math.round((10 + timeBonus) * factor)`. */
  function AnswerDamage(timer: int, maxTime: int, f: Factor): (d: int)
    requires maxTime > 0
    ensures 2 * Den(f) * d - Den(f) <= 2 * (10 + TimeBonus(timer, maxTime)) < 2 * Den(f) * d + Den(f)
  {
    Scale(10 + TimeBonus(timer, maxTime), f)
  }

  /** A correct answer given with time left deals between 10 and 20 points at
      full factor and between 5 and 10 at half factor. */
  lemma AnswerDamageRange(timer: int, maxTime: int, f: Factor)
    requires 0 < maxTime
    requires 0 <= timer <= maxTime
    ensures f == Full ==> 10 <= AnswerDamage(timer, maxTime, f) <= 20
    ensures f == Half ==> 5 <= AnswerDamage(timer, maxTime, f) <= 10
  {
    TimeBonusRange(timer, maxTime);
    ScaleValues(10 + TimeBonus(timer, maxTime));
  }

  /** `Math.max(0, vida - damage)`: life after a hit, floored at zero. */
  function ApplyDamage(vida: int, damage: int): (r: int)
    ensures r >= 0 && r >= vida - damage
    ensures r == 0 || r == vida - damage
  {
    Max(0, vida - damage)
  }

  /** A non-negative hit keeps a life in [0, 100] inside [0, 100] and never
      raises it. */
  lemma ApplyDamageBounds(vida: int, damage: int)
    requires 0 <= vida <= 100 && damage >= 0
    ensures 0 <= ApplyDamage(vida, damage) <= vida
    ensures ApplyDamage(vida, damage) == 0 <==> vida <= damage
  {
  }
}

=== FILE: singleroom.dfy ===
/** The single-room online server (v4.0 `server.js`): one global
    `gameState` shared by at most two connected players.

    Compared with the room server it has no spinning or open-question
    guards: a spin, an answer or a timeout only needs the sender to be the
    player whose number is the turn (and an answer a current question). An
    answer does not clear the question, `siguienteTurno` only passes the
    turn when no second chance is running and never clears the flag, and a
    disconnect during a game wipes the whole state.

    Only sockets registered on connection get event handlers; `listeners`
    is that set of socket ids. The broadcasts, and the 4-second callback
    after a spin (which only emits), are dropped; the 3-second callback that
    runs `siguienteTurno` is the event `NextTurn`. */
module SingleRoom {
  import opened Common
  import opened Rounding
  import opened Topics
  import opened QuestionBank

  const Seats: int := 2
  const FullLife: int := 100

  /** A registered player. */
  datatype Player = Player(id: string, number: int, nombre: string, avatar: string, topics: seq<string>, vida: int, maxVida: int)

  /** `gameState`, the shared question bank and the registered sockets. */
  datatype Server = Server(
    players: seq<Player>,
    round: int,
    active: int,
    secondChance: bool,
    topics: seq<string>,
    topic: Option<string>,
    question: Option<Question>,
    started: bool,
    bank: Option<seq<Question>>,
    listeners: set<string>)

  /** The initial `gameState`. */
  function Initial(bank: Option<seq<Question>>, listeners: set<string>): (s: Server)
    ensures s.players == [] && s.round == 1 && s.active == 0 && !s.secondChance
    ensures s.topics == [] && s.topic.None? && s.question.None? && !s.started
    ensures s.bank == bank && s.listeners == listeners
  {
    Server([], 1, 0, false, [], None, None, false, bank, listeners)
  }

  /** `jugadores.find(p => p.id === socket.id)`. */
  function Lookup(ps: seq<Player>, id: string): (k: Option<nat>)
    ensures k.None? <==> forall i :: 0 <= i < |ps| ==> ps[i].id != id
    ensures k.Some? ==> k.value < |ps| && ps[k.value].id == id
    ensures k.Some? ==> forall i :: 0 <= i < k.value ==> ps[i].id != id
  {
    FirstWhere(ps, (p: Player) => p.id == id)
  }

  /** `jugadores.find(p => p.id !== id)`. */
  function OtherThan(ps: seq<Player>, id: string): (k: Option<nat>)
    ensures k.None? <==> forall i :: 0 <= i < |ps| ==> ps[i].id == id
    ensures k.Some? ==> k.value < |ps| && ps[k.value].id != id
    ensures k.Some? ==> forall i :: 0 <= i < k.value ==> ps[i].id == id
  {
    FirstWhere(ps, (p: Player) => p.id != id)
  }

  /** `jugadores.find(p => p.vida > 0)`: the first player still alive. */
  function Winner(ps: seq<Player>): (w: Option<nat>)
    ensures w.None? <==> forall i :: 0 <= i < |ps| ==> ps[i].vida <= 0
    ensures w.Some? ==> w.value < |ps| && ps[w.value].vida > 0
    ensures w.Some? ==> forall i :: 0 <= i < w.value ==> ps[i].vida <= 0
  {
    FirstWhere(ps, (p: Player) => p.vida > 0)
  }

  /** Game over: somebody is at zero. */
  predicate GameOver(ps: seq<Player>)
  {
    exists i :: 0 <= i < |ps| && ps[i].vida <= 0
  }

  /** The invariant: at most two players, every one registered, a turn
      index in {0, 1}, lives within [0, 100]. */
  predicate Valid(s: Server)
  {
    && |s.players| <= Seats
    && 0 <= s.active <= 1
    && (forall i :: 0 <= i < |s.players| ==>
          s.players[i].id in s.listeners && s.players[i].maxVida == FullLife && 0 <= s.players[i].vida <= FullLife)
  }

  // ---------------------------------------------------------------------
  // Connections

  datatype Connected = Connected(server: Server, number: Option<int>)

  /** A new connection: while fewer than two players are registered, it is
      registered as player number = current count, named "Jugador n+1",
      with full life, and gets the event handlers; otherwise it is told the
      room is full and gets no handlers. */
  function Connect(s: Server, id: string): (c: Connected)
    ensures c.number.Some? <==> |s.players| < Seats
    ensures c.number.None? ==> c.server == s
    ensures c.number.Some? ==>
      && c.number.value == |s.players|
      && c.server == s.(players := s.players + [Player(id, |s.players|, PlayerLabel(|s.players|), "", [], FullLife, FullLife)],
                        listeners := s.listeners + {id})
  {
    if |s.players| < Seats then
      var n := |s.players|;
      Connected(s.(players := s.players + [Player(id, n, PlayerLabel(n), "", [], FullLife, FullLife)],
                   listeners := s.listeners + {id}), Some(n))
    else Connected(s, None)
  }

  /** The default name `Jugador ${n + 1}` for player number n in {0, 1}. */
  function PlayerLabel(n: int): (l: string)
    ensures Truthy(l)
  {
    if n == 0 then "Jugador 1" else "Jugador 2"
  }

  lemma ConnectKeepsValid(s: Server, id: string)
    requires Valid(s)
    ensures Valid(Connect(s, id).server)
    ensures |Connect(s, id).server.players| <= Seats
  {
  }

  /** Both players configured: a name, an avatar and exactly two topics. */
  predicate AllReady(ps: seq<Player>)
  {
    |ps| == Seats && forall i :: 0 <= i < |ps| ==> Truthy(ps[i].nombre) && Truthy(ps[i].avatar) && |ps[i].topics| == 2
  }

  /** `iniciarJuego()`: topics are the order-preserving union of both
      players' topics; round 1, player 0 to spin. The flag, topic and
      question are left as they are. */
  function StartGame(s: Server): (t: Server)
    requires |s.players| == Seats
    ensures t.started && t.round == 1 && t.active == 0
    ensures t.topics == Dedup(s.players[0].topics + s.players[1].topics)
    ensures t.(topics := s.topics, started := s.started, round := s.round, active := s.active) == s
  {
    s.(topics := Dedup(s.players[0].topics + s.players[1].topics), started := true, round := 1, active := 0)
  }

  /** `configurar-jugador`: store name, avatar and topics of the sender;
      start the game when both players are ready and it has not started.
      Unknown senders are ignored. */
  function Configure(s: Server, id: string, nombre: string, avatar: string, topics: seq<string>): (t: Server)
    ensures Lookup(s.players, id).None? ==> t == s
    ensures Lookup(s.players, id).Some? ==>
      var k := Lookup(s.players, id).value;
      var ps := s.players[k := s.players[k].(nombre := nombre, avatar := avatar, topics := topics)];
      && t.players == ps
      && (AllReady(ps) && !s.started ==> t == StartGame(s.(players := ps)))
      && (!(AllReady(ps) && !s.started) ==> t == s.(players := ps))
  {
    match Lookup(s.players, id)
    case None => s
    case Some(k) =>
      var ps := s.players[k := s.players[k].(nombre := nombre, avatar := avatar, topics := topics)];
      var u := s.(players := ps);
      if AllReady(ps) && !s.started then StartGame(u) else u
  }

  /** The game starts exactly when the configuration makes both players
      ready for the first time, and then every chosen topic is on the wheel
      exactly once. */
  lemma ConfigureStarts(s: Server, id: string, nombre: string, avatar: string, topics: seq<string>)
    requires Valid(s)
    ensures var t := Configure(s, id, nombre, avatar, topics);
      && Valid(t)
      && (t.started && !s.started <==> Lookup(s.players, id).Some? && AllReady(t.players) && !s.started)
      && (t.started && !s.started ==>
            && NoDup(t.topics)
            && (forall x :: x in t.topics <==> x in t.players[0].topics || x in t.players[1].topics)
            && |t.topics| <= 4)
  {
    var t := Configure(s, id, nombre, avatar, topics);
    if t.started && !s.started {
      assert |t.players[0].topics + t.players[1].topics| == 4;
    }
  }

  // ---------------------------------------------------------------------
  // Turn events

  /** The sender is registered and its number is the turn. */
  predicate OnTurn(s: Server, id: string)
  {
    Lookup(s.players, id).Some? && s.players[Lookup(s.players, id).value].number == s.active
  }

  /** `girar-ruleta` with the wheel landing on `roll` and the question draw
      `pick`: ignored unless the sender is on turn. Then the topic is the one
      under the wheel and `seleccionarPregunta` runs. There is no guard
      against spinning again, nor against spinning before the start. */
  function Spin(s: Server, id: string, roll: nat, pick: nat): (t: Server)
    requires roll < Max(1, |s.topics|)
    requires PickInRange(s.bank, Spun(s.topics, roll), pick)
    ensures !OnTurn(s, id) ==> t == s
    ensures OnTurn(s, id) ==>
      var d := Draw(s.bank, Spun(s.topics, roll), pick, s.question);
      t == s.(topic := Spun(s.topics, roll), question := d.question, bank := d.bank)
  {
    if !OnTurn(s, id) then s
    else
      var topic := Spun(s.topics, roll);
      var d := Draw(s.bank, topic, pick, s.question);
      s.(topic := topic, question := d.question, bank := d.bank)
  }

  /** Spinning twice in a row is accepted: the second spin replaces the
      question drawn by the first (which stays marked used in the bank). */
  lemma SpinAgainAccepted(s: Server, id: string, roll: nat, pick: nat, roll2: nat, pick2: nat)
    requires roll < Max(1, |s.topics|)
    requires PickInRange(s.bank, Spun(s.topics, roll), pick)
    requires OnTurn(s, id)
    ensures var t := Spin(s, id, roll, pick);
      OnTurn(t, id)
      && (roll2 < Max(1, |t.topics|) && PickInRange(t.bank, Spun(t.topics, roll2), pick2) ==>
            Spin(t, id, roll2, pick2).topic == Spun(s.topics, roll2))
  {
  }

  /** Player i takes `damage`, floored at zero. */
  function Hurt(s: Server, i: nat, damage: int): (t: Server)
    requires i < |s.players|
    ensures |t.players| == |s.players|
    ensures t.players[i] == s.players[i].(vida := ApplyDamage(s.players[i].vida, damage))
    ensures forall j :: 0 <= j < |s.players| && j != i ==> t.players[j] == s.players[j]
    ensures t.(players := s.players) == s
  {
    s.(players := s.players[i := s.players[i].(vida := ApplyDamage(s.players[i].vida, damage))])
  }

  lemma HurtKeepsValid(s: Server, i: nat, damage: int)
    requires Valid(s) && i < |s.players| && damage >= 0
    ensures Valid(Hurt(s, i, damage))
  {
    ApplyDamageBounds(s.players[i].vida, damage);
  }

  /** The end of a processed result (`procesarRespuesta`, or a second
      `procesarTimeout`): game over when somebody is at zero. The winner is
      then the first player still alive, and logging its name throws when
      there is none; otherwise `siguienteTurno` is scheduled. */
  function Finish(s: Server): (e: Ended<Server>)
    ensures e.outcome.state == s
    ensures e.outcome.Threw? <==> GameOver(s.players) && Winner(s.players).None?
    ensures e.outcome.Threw? ==> e.end == NoRoundEnd
    ensures e.outcome.Ok? ==>
      && (e.end.gameOver <==> GameOver(s.players))
      && (e.end.scheduleNext <==> !GameOver(s.players))
      && e.end.winner == (if GameOver(s.players) then Winner(s.players) else None)
  {
    if !GameOver(s.players) then Ended(Ok(s), RoundEnd(false, None, true))
    else match Winner(s.players)
      case None => Ended(Threw(s), NoRoundEnd)
      case Some(w) => Ended(Ok(s), RoundEnd(true, Some(w), false))
  }

  /** `procesarRespuesta` once the sender, at position k, is found. A
      correct answer costs the first other player `round(15 * factor)`
      (with nobody else, `.vida` of `undefined` throws), a wrong one costs
      the answerer `round(8 * factor)`; nothing but that life changes. The
      result then ends as `Finish` says. */
  function Resolve(s: Server, k: nat, q: Question, choice: int): (e: Ended<Server>)
    requires k < |s.players|
    ensures e.outcome.state.(players := s.players) == s
    ensures |e.outcome.state.players| == |s.players|
    ensures choice == q.answer && OtherThan(s.players, s.players[k].id).None? ==> e == Ended(Threw(s), NoRoundEnd)
    ensures choice == q.answer && OtherThan(s.players, s.players[k].id).Some? ==>
      var j := OtherThan(s.players, s.players[k].id).value;
      && j != k
      && e.outcome.state.players[j] == s.players[j].(vida := ApplyDamage(s.players[j].vida, Scale(15, FactorOf(s.secondChance))))
      && forall i :: 0 <= i < |s.players| && i != j ==> e.outcome.state.players[i] == s.players[i]
    ensures choice != q.answer ==>
      && e.outcome.state.players[k] == s.players[k].(vida := ApplyDamage(s.players[k].vida, Scale(8, FactorOf(s.secondChance))))
      && forall i :: 0 <= i < |s.players| && i != k ==> e.outcome.state.players[i] == s.players[i]
    ensures e.outcome.Threw? <==>
      || (choice == q.answer && OtherThan(s.players, s.players[k].id).None?)
      || (GameOver(e.outcome.state.players) && Winner(e.outcome.state.players).None?)
    ensures e.end.gameOver <==> e.outcome.Ok? && GameOver(e.outcome.state.players)
    ensures e.end.scheduleNext <==> e.outcome.Ok? && !GameOver(e.outcome.state.players)
    ensures e.end.winner == (if e.end.gameOver then Winner(e.outcome.state.players) else None)
  {
    var f := FactorOf(s.secondChance);
    if choice == q.answer then
      match OtherThan(s.players, s.players[k].id)
      case None => Ended(Threw(s), NoRoundEnd)
      case Some(j) => Finish(Hurt(s, j, Scale(15, f)))
    else Finish(Hurt(s, k, Scale(8, f)))
  }

  /** `responder`: ignored unless the sender is on turn and there is a
      current question. The question is NOT cleared, and neither the turn
      nor the flag changes. The result reports game over and the winner,
      and schedules the next turn only when the game is not over. */
  function Answer(s: Server, id: string, choice: int): (e: Ended<Server>)
    ensures !(OnTurn(s, id) && s.question.Some?) ==> e == Ended(Ok(s), NoRoundEnd)
    ensures OnTurn(s, id) && s.question.Some? ==>
      e == Resolve(s, Lookup(s.players, id).value, s.question.value, choice)
    ensures e.outcome.state.question == s.question && e.outcome.state.active == s.active
    ensures e.outcome.state.secondChance == s.secondChance && e.outcome.state.round == s.round
    ensures |e.outcome.state.players| == |s.players|
    ensures e.end.gameOver <==> OnTurn(s, id) && s.question.Some? && e.outcome.Ok? && GameOver(e.outcome.state.players)
    ensures e.end.scheduleNext <==> OnTurn(s, id) && s.question.Some? && e.outcome.Ok? && !GameOver(e.outcome.state.players)
    ensures e.end.winner == (if e.end.gameOver then Winner(e.outcome.state.players) else None)
  {
    if !(OnTurn(s, id) && s.question.Some?) then Ended(Ok(s), NoRoundEnd)
    else Resolve(s, Lookup(s.players, id).value, s.question.value, choice)
  }

  /** Who pays: with two players, a correct answer costs the other player
      15 (8 on a second chance) and a wrong one the answerer 8 (4 on a
      second chance). Because the question stays, the same answer can be
      sent again before the next turn, and it costs the same again. */
  lemma AnswerDamageRule(s: Server, id: string, choice: int)
    requires Valid(s) && |s.players| == Seats && OnTurn(s, id) && s.question.Some?
    requires s.players[0].id != s.players[1].id
    ensures var k := Lookup(s.players, id).value;
      var correct := choice == s.question.value.answer;
      var target := if correct then 1 - k else k;
      var damage := if correct then (if s.secondChance then 8 else 15)
                    else (if s.secondChance then 4 else 8);
      var t := Answer(s, id, choice).outcome.state;
      && t.players[target].vida == ApplyDamage(s.players[target].vida, damage)
      && t.players[1 - target] == s.players[1 - target]
      && Valid(t)
      && OnTurn(t, id) && t.question == s.question
  {
    var k := Lookup(s.players, id).value;
    var correct := choice == s.question.value.answer;
    var target := if correct then 1 - k else k;
    var damage := if correct then (if s.secondChance then 8 else 15)
                  else (if s.secondChance then 4 else 8);
    AnswerHurts(s, id, choice);
    HurtKeepsTurn(s, id, target, damage);
  }

  /** A hit with a non-negative damage keeps the invariant and whose turn
      it is. */
  lemma HurtKeepsTurn(s: Server, id: string, i: nat, damage: int)
    requires Valid(s) && i < |s.players| && damage >= 0 && OnTurn(s, id)
    ensures Valid(Hurt(s, i, damage)) && OnTurn(Hurt(s, i, damage), id)
  {
    var k := Lookup(s.players, id).value;
    var t := Hurt(s, i, damage);
    HurtKeepsValid(s, i, damage);
    assert t.players[k].id == id;
    assert Lookup(t.players, id) == Some(k);
  }

  /** With two distinct players the answer hurts exactly one of them:
      the other player for a correct answer, the answerer otherwise. */
  lemma AnswerHurts(s: Server, id: string, choice: int)
    requires |s.players| == Seats && OnTurn(s, id) && s.question.Some?
    requires s.players[0].id != s.players[1].id
    ensures var k := Lookup(s.players, id).value;
      && (choice == s.question.value.answer ==>
            Answer(s, id, choice) == Finish(Hurt(s, 1 - k, if s.secondChance then 8 else 15)))
      && (choice != s.question.value.answer ==>
            Answer(s, id, choice) == Finish(Hurt(s, k, if s.secondChance then 4 else 8)))
  {
    var k := Lookup(s.players, id).value;
    FlagDamages(s.secondChance);
    assert OtherThan(s.players, id) == Some(1 - k) by {
      assert s.players[1 - k].id != id;
    }
  }

  /** How an answer decides a game nobody has lost yet: it ends exactly
      when the hurt player's life does not exceed the damage, the winner is
      then the other player (so the winner's log never throws here), and
      the next turn is scheduled exactly when the game goes on. */
  lemma AnswerDecidesGame(s: Server, id: string, choice: int)
    requires Valid(s) && |s.players| == Seats && OnTurn(s, id) && s.question.Some?
    requires s.players[0].id != s.players[1].id
    requires !GameOver(s.players)
    ensures var k := Lookup(s.players, id).value;
      var e := Answer(s, id, choice);
      var correct := choice == s.question.value.answer;
      var target := if correct then 1 - k else k;
      var damage := if correct then (if s.secondChance then 8 else 15)
                    else (if s.secondChance then 4 else 8);
      && e.outcome.Ok?
      && (e.end.gameOver <==> s.players[target].vida <= damage)
      && (e.end.gameOver ==> e.end.winner == Some(1 - target))
      && (e.end.scheduleNext <==> !e.end.gameOver)
  {
    var k := Lookup(s.players, id).value;
    var correct := choice == s.question.value.answer;
    var target := if correct then 1 - k else k;
    AnswerHurts(s, id, choice);
    if correct {
      FinishAfterHit(s, 1 - k, if s.secondChance then 8 else 15);
    } else {
      FinishAfterHit(s, k, if s.secondChance then 4 else 8);
    }
  }

  /** A hit on one of two players in a game nobody has lost yet: the game
      ends exactly when the hit player's life does not exceed the damage,
      and the other player is then the winner. */
  lemma FinishAfterHit(s: Server, target: nat, damage: int)
    requires |s.players| == Seats && target < 2 && !GameOver(s.players)
    requires 0 <= s.players[target].vida <= FullLife && damage >= 0
    ensures var e := Finish(Hurt(s, target, damage));
      && e.outcome.Ok?
      && (e.end.gameOver <==> s.players[target].vida <= damage)
      && (e.end.gameOver ==> e.end.winner == Some(1 - target))
      && (e.end.scheduleNext <==> !e.end.gameOver)
  {
    var hit := Hurt(s, target, damage);
    ApplyDamageBounds(s.players[target].vida, damage);
    assert s.players[1 - target].vida > 0;
    assert hit.players[1 - target] == s.players[1 - target];
    TwoPlayersEnd(hit.players, target);
  }

  /** Two players, one of them alive: the game is over exactly when the
      other is at zero, and then the living one is the winner. */
  lemma TwoPlayersEnd(ps: seq<Player>, target: nat)
    requires |ps| == Seats && target < 2 && ps[1 - target].vida > 0
    ensures GameOver(ps) <==> ps[target].vida <= 0
    ensures GameOver(ps) ==> Winner(ps) == Some(1 - target)
  {
    if ps[target].vida <= 0 {
      if target == 1 {
        assert ps[0].vida > 0;
      } else {
        assert ps[0].vida <= 0;
      }
    } else {
      assert !GameOver(ps) by {
        forall i | 0 <= i < |ps|
          ensures ps[i].vida > 0
        {
          if i != target {
            assert i == 1 - target;
          }
        }
      }
    }
  }

  /** `timeout`: ignored unless the sender is on turn; no question needs to
      be open. `procesarTimeout` flips the flag BEFORE reading the factor:
      a first timeout costs `jugadores[active]` round(5 * 0.5) = 3 and
      passes the turn, reporting nothing; a second costs 5, keeps the turn
      and ends as `Finish` says. An index with no player behind it throws
      (the timed-out player's `.vida`, or on a first timeout the new
      player's name in the log). The round never changes. */
  function Timeout(s: Server, id: string): (e: Ended<Server>)
    ensures !OnTurn(s, id) ==> e == Ended(Ok(s), NoRoundEnd)
    ensures OnTurn(s, id) ==>
      && e.outcome.state.secondChance == !s.secondChance
      && e.outcome.state.round == s.round && e.outcome.state.question == s.question && e.outcome.state.topic == s.topic
      && |e.outcome.state.players| == |s.players|
    ensures e.end.gameOver <==>
      OnTurn(s, id) && s.secondChance && e.outcome.Ok? && GameOver(e.outcome.state.players)
    ensures e.end.scheduleNext <==>
      OnTurn(s, id) && s.secondChance && e.outcome.Ok? && !GameOver(e.outcome.state.players)
    ensures e.end.winner == (if e.end.gameOver then Winner(e.outcome.state.players) else None)
  {
    if !OnTurn(s, id) then Ended(Ok(s), NoRoundEnd)
    else
      var a := s.active;
      var flipped := !s.secondChance;
      var u := s.(secondChance := flipped);
      var damage := Scale(5, FactorOf(flipped));
      if !(0 <= a < |s.players|) then Ended(Threw(u), NoRoundEnd)
      else
        var hit := Hurt(u, a, damage);
        if flipped then
          var t := hit.(active := 1 - a);
          if 0 <= 1 - a < |s.players| then Ended(Ok(t), NoRoundEnd) else Ended(Threw(t), NoRoundEnd)
        else Finish(hit)
  }

  /** The timeout rule with two players: 3 then 5 for the timed-out
      player, a pass of the turn only on the first, and the other player
      untouched. */
  lemma TimeoutRule(s: Server, id: string)
    requires Valid(s) && |s.players| == Seats && OnTurn(s, id)
    ensures var t := Timeout(s, id).outcome.state;
      var a := s.active;
      && Valid(t)
      && t.players[1 - a] == s.players[1 - a]
      && (!s.secondChance ==> t.players[a].vida == ApplyDamage(s.players[a].vida, 3) && t.active == 1 - a)
      && (s.secondChance ==> t.players[a].vida == ApplyDamage(s.players[a].vida, 5) && t.active == a)
  {
    FlagDamages(!s.secondChance);
    var u := s.(secondChance := !s.secondChance);
    HurtKeepsValid(u, s.active, if s.secondChance then 5 else 3);
  }

  /** How a second timeout decides a game nobody has lost yet: it ends
      exactly when the timed-out player has at most 5 life left, the winner
      is then the other player, and the next turn is scheduled exactly when
      the game goes on. */
  lemma TimeoutDecidesGame(s: Server, id: string)
    requires Valid(s) && |s.players| == Seats && OnTurn(s, id) && s.secondChance && !GameOver(s.players)
    ensures var e := Timeout(s, id);
      var a := s.active;
      && e.outcome.Ok?
      && (e.end.gameOver <==> s.players[a].vida <= 5)
      && (e.end.gameOver ==> e.end.winner == Some(1 - a))
      && (e.end.scheduleNext <==> !e.end.gameOver)
  {
    var a := s.active;
    FlagDamages(false);
    assert Timeout(s, id) == Finish(Hurt(s.(secondChance := false), a, 5));
    FinishAfterHit(s.(secondChance := false), a, 5);
  }

  /** With two players a timeout only fails on the winner's name: a second
      timeout that knocks out the player while the other is already at
      zero. */
  lemma TimeoutThrowsOnlyWhenBothDown(s: Server, id: string)
    requires Valid(s) && |s.players| == Seats && OnTurn(s, id)
    ensures var a := s.active;
      Timeout(s, id).outcome.Threw? <==> s.secondChance && s.players[1 - a].vida == 0 && s.players[a].vida <= 5
  {
    var a := s.active;
    var e := Timeout(s, id);
    if s.secondChance {
      var hit := Hurt(s.(secondChance := false), a, 5);
      FlagDamages(false);
      assert e == Finish(hit);
      ApplyDamageBounds(s.players[a].vida, 5);
      assert hit.players[1 - a] == s.players[1 - a];
      TwoPlayersDown(hit.players, a);
    } else {
      assert e.outcome.Ok?;
    }
  }

  /** Two players: the game is over with nobody left to name exactly when
      both are at zero. */
  lemma TwoPlayersDown(ps: seq<Player>, target: nat)
    requires |ps| == Seats && target < 2
    ensures GameOver(ps) && Winner(ps).None? <==> ps[target].vida <= 0 && ps[1 - target].vida <= 0
  {
    if ps[target].vida <= 0 && ps[1 - target].vida <= 0 {
      forall i | 0 <= i < |ps|
        ensures ps[i].vida <= 0
      {
        if i != target {
          assert i == 1 - target;
        }
      }
      assert GameOver(ps) by { assert ps[target].vida <= 0; }
    } else if ps[target].vida > 0 {
      assert Winner(ps).Some?;
    } else {
      assert ps[1 - target].vida > 0;
      assert Winner(ps).Some?;
    }
  }

  /** `siguienteTurno()`: only when no second chance is running, pass the
      turn and advance the round; the flag itself is never cleared; the
      question and topic always are. The log then reads the current player's
      name, which throws when the index has no player behind it. */
  function NextTurn(s: Server): (o: Outcome<Server>)
    ensures o.state.secondChance == s.secondChance
    ensures !s.secondChance ==> o.state.active == 1 - s.active && o.state.round == s.round + 1
    ensures s.secondChance ==> o.state.active == s.active && o.state.round == s.round
    ensures o.state.question.None? && o.state.topic.None?
    ensures o.state.players == s.players && o.state.topics == s.topics && o.state.started == s.started
    ensures o.Ok? <==> 0 <= o.state.active < |s.players|
  {
    var t := if !s.secondChance then s.(active := 1 - s.active, round := s.round + 1) else s;
    var u := t.(question := None, topic := None);
    if 0 <= u.active < |u.players| then Ok(u) else Threw(u)
  }

  /** Once a second chance has been answered, the flag stays set through
      every later turn change: the turn never passes again, and the next
      timeout is treated as a second one (5 points, no pass). */
  lemma SecondChanceSticks(s: Server, id: string, choice: int, id2: string)
    requires Valid(s) && s.secondChance
    ensures var t := NextTurn(Answer(s, id, choice).outcome.state).state;
      && t.secondChance && t.active == s.active && t.round == s.round
      && (Valid(t) && |t.players| == Seats && OnTurn(t, id2) ==>
            Timeout(t, id2).outcome.state.active == t.active && !Timeout(t, id2).outcome.state.secondChance)
  {
  }

  lemma NextTurnKeepsValid(s: Server)
    requires Valid(s)
    ensures Valid(NextTurn(s).state)
  {
  }

  // ---------------------------------------------------------------------
  // Disconnection

  /** `reiniciarJuego()`: the initial state, with every question of the
      bank unused again. */
  function Reset(s: Server): (t: Server)
    ensures t == Initial(t.bank, s.listeners)
    ensures s.bank.None? <==> t.bank.None?
    ensures s.bank.Some? ==> (|t.bank.value| == |s.bank.value|
      && forall i :: 0 <= i < |s.bank.value| ==> t.bank.value[i] == s.bank.value[i].(used := false))
  {
    var bank := match s.bank
      case None => None
      case Some(b) => Some(seq(|b|, i requires 0 <= i < |b| => b[i].(used := false)));
    Initial(bank, s.listeners)
  }

  /** `disconnect` of a registered socket: drop its player and, when a game
      is running, reset everything. */
  function Disconnect(s: Server, id: string): (t: Server)
    ensures id !in s.listeners ==> t == s
    ensures id in s.listeners && s.started ==> t == Reset(s).(listeners := s.listeners - {id})
    ensures id in s.listeners && !s.started ==>
      t == s.(players := Remove(s.players, id), listeners := s.listeners - {id})
  {
    if id !in s.listeners then s
    else
      var u := s.(players := Remove(s.players, id), listeners := s.listeners - {id});
      if s.started then Reset(u) else u
  }

  /** `jugadores.filter(p => p.id !== id)`. */
  function Remove(ps: seq<Player>, id: string): (r: seq<Player>)
    ensures forall i :: 0 <= i < |r| ==> r[i].id != id && r[i] in ps
    ensures forall p :: p in ps && p.id != id ==> p in r
    ensures |r| <= |ps|
  {
    if |ps| == 0 then []
    else if ps[0].id == id then Remove(ps[1..], id)
    else [ps[0]] + Remove(ps[1..], id)
  }

  /** A disconnect during a game leaves the initial state: no players,
      round 1, player 0, no flag, no topics, no question, not started, and
      the whole bank unused. */
  lemma DisconnectDuringGame(s: Server, id: string)
    requires id in s.listeners && s.started
    ensures var t := Disconnect(s, id);
      && t.players == [] && t.round == 1 && t.active == 0 && !t.secondChance
      && t.topics == [] && t.topic.None? && t.question.None? && !t.started
      && (t.bank.Some? ==> forall i :: 0 <= i < |t.bank.value| ==> !t.bank.value[i].used)
      && Valid(t)
  {
  }

  lemma DisconnectKeepsValid(s: Server, id: string)
    requires Valid(s)
    ensures Valid(Disconnect(s, id))
  {
    var t := Disconnect(s, id);
    if id in s.listeners && !s.started {
      forall i | 0 <= i < |t.players|
        ensures t.players[i].id in t.listeners && t.players[i].maxVida == FullLife && 0 <= t.players[i].vida <= FullLife
      {
        assert t.players[i] in s.players;
      }
    }
  }

  // ---------------------------------------------------------------------
  // Seat numbers after a disconnect in the lobby

  /** Every player's number is its position, so the turn index names a
      player. */
  predicate Numbered(ps: seq<Player>)
  {
    forall i :: 0 <= i < |ps| ==> ps[i].number == i
  }

  /** Socket ids are unique. */
  predicate DistinctIds(ps: seq<Player>)
  {
    forall i, j :: 0 <= i < j < |ps| ==> ps[i].id != ps[j].id
  }

  /** As written, a new connection takes the current player count as its
      number. When the first of two waiting players leaves and a third
      connects, the two players both hold number 1; once both configure,
      the game starts with turn 0 and nobody is on turn, so every spin,
      answer and timeout is ignored for good. */
  lemma DuplicateNumberDeadlock()
    ensures var s1 := Connect(Initial(None, {}), "a").server;
      var s2 := Connect(s1, "b").server;
      var s3 := Disconnect(s2, "a");
      var s4 := Connect(s3, "c").server;
      var s5 := Configure(Configure(s4, "b", "B", "x", ["t1", "t2"]), "c", "C", "y", ["t1", "t3"]);
      && s5.started && s5.active == 0 && |s5.players| == 2
      && s5.players[0].number == 1 && s5.players[1].number == 1
      && !Numbered(s5.players)
      && forall id :: !OnTurn(s5, id)
  {
    var s4 := Connect(Disconnect(Connect(Connect(Initial(None, {}), "a").server, "b").server, "a"), "c").server;
    LeaveAndRejoin(false);
    BothConfigureStarts(s4, "b", "c");
    var s5 := Configure(Configure(s4, "b", "B", "x", ["t1", "t2"]), "c", "C", "y", ["t1", "t3"]);
    assert !Numbered(s5.players) by {
      assert s5.players[0].number != 0;
    }
    NobodyOnTurn(s5);
  }

  /** "a" and "b" connect, "a" leaves (with the disconnect as written, or
      the corrected one) and "c" connects: "b" and "c" wait, "c" without
      an avatar yet; "c" holds number 1, and so does "b" unless
      renumbered. */
  lemma LeaveAndRejoin(renumbered: bool)
    ensures var s2 := Connect(Connect(Initial(None, {}), "a").server, "b").server;
      var s3 := if renumbered then DisconnectRenumbered(s2, "a") else Disconnect(s2, "a");
      var s4 := Connect(s3, "c").server;
      && |s4.players| == Seats && !s4.started
      && s4.players[0].id == "b" && s4.players[1].id == "c" && s4.players[1].avatar == ""
      && s4.players[0].number == (if renumbered then 0 else 1) && s4.players[1].number == 1
  {
    var s1 := Connect(Initial(None, {}), "a").server;
    var s2 := Connect(s1, "b").server;
    assert s2.players[1].id == "b" && s2.players[1].number == 1;
    assert Remove(s2.players, "a") == [s2.players[1]];
  }

  /** When neither player's number is the turn index, nobody is on turn. */
  lemma NobodyOnTurn(s: Server)
    requires |s.players| == Seats && s.players[0].number != s.active && s.players[1].number != s.active
    ensures forall id :: !OnTurn(s, id)
  {
    forall id
      ensures !OnTurn(s, id)
    {
      if Lookup(s.players, id).Some? {
        assert Lookup(s.players, id).value < 2;
      }
    }
  }

  /** Two waiting players, the second without an avatar yet, configure in
      turn: the second configuration starts the game, and ids and numbers
      are as they were. */
  lemma BothConfigureStarts(s4: Server, b: string, c: string)
    requires |s4.players| == Seats && !s4.started && b != c
    requires s4.players[0].id == b && s4.players[1].id == c && s4.players[1].avatar == ""
    ensures var s5 := Configure(Configure(s4, b, "B", "x", ["t1", "t2"]), c, "C", "y", ["t1", "t3"]);
      && s5.started && s5.active == 0 && |s5.players| == Seats
      && s5.players[0].id == b && s5.players[1].id == c
      && s5.players[0].number == s4.players[0].number && s5.players[1].number == s4.players[1].number
      && (s4.players[0].number == 0 && s4.players[1].number == 1 ==> Numbered(s5.players))
  {
    assert Lookup(s4.players, b) == Some(0);
    var ps := s4.players[0 := s4.players[0].(nombre := "B", avatar := "x", topics := ["t1", "t2"])];
    assert !AllReady(ps) by { assert !Truthy(ps[1].avatar); }
    var s45 := Configure(s4, b, "B", "x", ["t1", "t2"]);
    assert s45 == s4.(players := ps);
    assert Lookup(s45.players, c) == Some(1) by { assert ps[0].id == b; }
    var qs := ps[1 := ps[1].(nombre := "C", avatar := "y", topics := ["t1", "t3"])];
    assert AllReady(qs);
    var s5 := Configure(s45, c, "C", "y", ["t1", "t3"]);
    assert s5 == StartGame(s45.(players := qs));
    if s4.players[0].number == 0 && s4.players[1].number == 1 {
      forall i | 0 <= i < |s5.players|
        ensures s5.players[i].number == i
      {
        if i != 0 {
          assert i == 1;
        }
      }
    }
  }

  /** `playerNumber` as the position once the leaver is gone: the
      remaining players are renumbered by position. */
  function Renumber(ps: seq<Player>): (r: seq<Player>)
    ensures Numbered(r) && |r| == |ps|
    ensures forall i :: 0 <= i < |ps| ==> r[i] == ps[i].(number := i)
  {
    seq(|ps|, i requires 0 <= i < |ps| => ps[i].(number := i))
  }

  /** The corrected disconnect: as `Disconnect`, but the players left in
      the lobby are renumbered by position. */
  function DisconnectRenumbered(s: Server, id: string): (t: Server)
    ensures t == Disconnect(s, id).(players := Renumber(Disconnect(s, id).players))
  {
    var u := Disconnect(s, id);
    u.(players := Renumber(u.players))
  }

  /** With the corrected disconnect, numbers stay equal to positions and
      socket ids stay unique. */
  lemma RenumberedKeepsNumbered(s: Server, id: string)
    requires DistinctIds(s.players)
    ensures Numbered(DisconnectRenumbered(s, id).players) && DistinctIds(DisconnectRenumbered(s, id).players)
  {
    if id in s.listeners && !s.started {
      RemoveKeepsDistinct(s.players, id);
    }
  }

  /** A connecting socket (with a new id) takes the next position, and a
      configuration changes no number or id. */
  lemma ConnectConfigureKeepNumbered(s: Server, id: string, nombre: string, avatar: string, topics: seq<string>)
    requires Numbered(s.players) && DistinctIds(s.players)
    ensures Lookup(s.players, id).None? ==>
      Numbered(Connect(s, id).server.players) && DistinctIds(Connect(s, id).server.players)
    ensures var ps := Configure(s, id, nombre, avatar, topics).players;
      Numbered(ps) && DistinctIds(ps)
  {
    var ps := Configure(s, id, nombre, avatar, topics).players;
    assert |ps| == |s.players| && forall i :: 0 <= i < |ps| ==> ps[i].number == s.players[i].number && ps[i].id == s.players[i].id;
  }

  /** In a two-player game with numbers equal to positions, the player at
      the turn index is on turn: the game can always go on. */
  lemma NumberedHasPlayerOnTurn(s: Server)
    requires Numbered(s.players) && DistinctIds(s.players)
    requires |s.players| == Seats && 0 <= s.active <= 1
    ensures OnTurn(s, s.players[s.active].id)
  {
    var k := Lookup(s.players, s.players[s.active].id).value;
    assert s.players[k].id == s.players[s.active].id;
  }

  /** Filtering keeps socket ids unique. */
  lemma {:induction false} RemoveKeepsDistinct(ps: seq<Player>, id: string)
    requires DistinctIds(ps)
    ensures DistinctIds(Remove(ps, id))
    decreases |ps|
  {
    if |ps| > 0 {
      RemoveKeepsDistinct(ps[1..], id);
      if ps[0].id != id {
        var r := [ps[0]] + Remove(ps[1..], id);
        forall i | 0 < i < |r|
          ensures r[i].id != ps[0].id
        {
          assert r[i] in ps[1..];
        }
      }
    }
  }

  /** The same sequence of events with the corrected disconnect: the
      players are numbered 0 and 1 and player 0 is on turn. */
  lemma RenumberedScenarioPlays()
    ensures var s1 := Connect(Initial(None, {}), "a").server;
      var s2 := Connect(s1, "b").server;
      var s3 := DisconnectRenumbered(s2, "a");
      var s4 := Connect(s3, "c").server;
      var s5 := Configure(Configure(s4, "b", "B", "x", ["t1", "t2"]), "c", "C", "y", ["t1", "t3"]);
      && s5.started && s5.active == 0 && Numbered(s5.players)
      && OnTurn(s5, "b")
  {
    var s4 := Connect(DisconnectRenumbered(Connect(Connect(Initial(None, {}), "a").server, "b").server, "a"), "c").server;
    LeaveAndRejoin(true);
    BothConfigureStarts(s4, "b", "c");
    var s5 := Configure(Configure(s4, "b", "B", "x", ["t1", "t2"]), "c", "C", "y", ["t1", "t3"]);
    assert Lookup(s5.players, "b") == Some(0);
  }
}

=== FILE: topics.dfy ===
/** The topics in play: `[...new Set([...p0.topics, ...p1.topics])]`, the
    order-preserving de-duplication used by every version except v1.0. */
module Topics {
  import opened Common

  /** The topic under the wheel: `topics[Math.floor(Math.random() * n)]`
      for a draw `roll` in [0, n); `undefined` (None) when the list is
      empty. */
  function Spun(topics: seq<string>, roll: nat): (t: Option<string>)
    ensures t.Some? <==> roll < |topics|
    ensures t.Some? ==> t.value == topics[roll] && t.value in topics
  {
    if roll < |topics| then Some(topics[roll]) else None
  }

  /** No element occurs twice. */
  predicate NoDup(s: seq<string>)
  {
    forall i, j :: 0 <= i < j < |s| ==> s[i] != s[j]
  }

  /** Position of the first occurrence of x in s. */
  function FirstIndex(s: seq<string>, x: string): (i: nat)
    requires x in s
    ensures i < |s| && s[i] == x
    ensures forall k :: 0 <= k < i ==> s[k] != x
  {
    if s[0] == x then 0 else 1 + FirstIndex(s[1..], x)
  }

  /** Taking a prefix that already contains x does not move its first
      occurrence. */
  lemma {:induction false} FirstIndexPrefix(s: seq<string>, n: nat, x: string)
    requires n <= |s| && x in s[..n]
    ensures x in s
    ensures FirstIndex(s, x) == FirstIndex(s[..n], x)
  {
    var i := FirstIndex(s[..n], x);
    assert s[i] == x;
    assert forall k :: 0 <= k < i ==> s[k] != x by {
      forall k | 0 <= k < i
        ensures s[k] != x
      {
        assert s[k] == s[..n][k];
      }
    }
    FirstIndexUnique(s, x, i);
  }

  /** The first occurrence is characterised by its two properties. */
  lemma FirstIndexUnique(s: seq<string>, x: string, i: nat)
    requires i < |s| && s[i] == x
    requires forall k :: 0 <= k < i ==> s[k] != x
    ensures FirstIndex(s, x) == i
  {
  }

  /** Order-preserving de-duplication: the result lists every element of s
      exactly once (the order is the subject of `DedupKeepsFirstAppearance`). */
  function Dedup(s: seq<string>): (r: seq<string>)
    ensures NoDup(r)
    ensures forall x :: x in r <==> x in s
    ensures |r| <= |s|
    decreases |s|
  {
    if |s| == 0 then []
    else
      var d := Dedup(s[..|s| - 1]);
      if s[|s| - 1] in d then d else d + [s[|s| - 1]]
  }

  /** The de-duplication lists the elements in the order of their first
      appearance in s. */
  lemma {:induction false} DedupKeepsFirstAppearance(s: seq<string>)
    ensures forall i, j :: 0 <= i < j < |Dedup(s)| ==> FirstIndex(s, Dedup(s)[i]) < FirstIndex(s, Dedup(s)[j])
    decreases |s|
  {
    if |s| > 0 {
      var n := |s| - 1;
      var p := s[..n];
      var d := Dedup(p);
      DedupKeepsFirstAppearance(p);
      PrefixOrder(s, n, d);
      if s[n] !in d {
        assert s[n] !in p;
        FirstIndexUnique(s, s[n], n);
        assert Dedup(s) == d + [s[n]];
      }
    }
  }

  /** First occurrences in s of the elements of the prefix's de-duplication
      are those in the prefix, all below the prefix length. */
  lemma PrefixOrder(s: seq<string>, n: nat, d: seq<string>)
    requires n <= |s|
    requires forall x :: x in d <==> x in s[..n]
    requires forall i, j :: 0 <= i < j < |d| ==> FirstIndex(s[..n], d[i]) < FirstIndex(s[..n], d[j])
    ensures forall k :: 0 <= k < |d| ==> d[k] in s && FirstIndex(s, d[k]) == FirstIndex(s[..n], d[k]) < n
    ensures forall i, j :: 0 <= i < j < |d| ==> FirstIndex(s, d[i]) < FirstIndex(s, d[j])
  {
    forall k | 0 <= k < |d|
      ensures d[k] in s && FirstIndex(s, d[k]) == FirstIndex(s[..n], d[k]) < n
    {
      FirstIndexPrefix(s, n, d[k]);
    }
  }

  /** A list without duplicates is its own de-duplication. */
  lemma {:induction false} DedupOfDistinct(s: seq<string>)
    requires NoDup(s)
    ensures Dedup(s) == s
    decreases |s|
  {
    if |s| > 0 {
      var n := |s| - 1;
      var p := s[..n];
      assert NoDup(p) by {
        forall i, j | 0 <= i < j < |p|
          ensures p[i] != p[j]
        {
          assert p[i] == s[i] && p[j] == s[j];
        }
      }
      DedupOfDistinct(p);
      assert s[n] !in p by {
        forall k | 0 <= k < n
          ensures p[k] != s[n]
        {
          assert p[k] == s[k];
        }
      }
      assert Dedup(s) == Dedup(p) + [s[n]];
      assert s == p + [s[n]];
    }
  }

  /** Two players with two distinct topics each put four topics on the
      wheel exactly when no topic is shared, and then in the order the
      players chose them. */
  lemma DisjointPairs(a0: string, a1: string, b0: string, b1: string)
    requires a0 != a1 && b0 != b1
    ensures |Dedup([a0, a1] + [b0, b1])| == 4 <==> (a0 != b0 && a0 != b1 && a1 != b0 && a1 != b1)
    ensures (a0 != b0 && a0 != b1 && a1 != b0 && a1 != b1) ==> Dedup([a0, a1] + [b0, b1]) == [a0, a1, b0, b1]
  {
    var s1, s2, s3, s := [a0], [a0, a1], [a0, a1, b0], [a0, a1] + [b0, b1];
    assert s1[..0] == [] && s2[..1] == s1 && s3[..2] == s2 && s[..3] == s3;
    assert Dedup(s1) == [a0];
    assert Dedup(s2) == [a0, a1];
    var d3 := Dedup(s3);
    assert d3 == if b0 in [a0, a1] then [a0, a1] else [a0, a1, b0];
    assert Dedup(s) == if b1 in d3 then d3 else d3 + [b1];
  }
}
